=== FILE: README.md ===
# tygo core in Dafny

tygo reads the declarations of a Go package and writes a TypeScript file with the
same types and constants. This project models its core as pure Dafny functions over
an abstract Go syntax tree, and proves what the generated text says about its input.

The core covers these parts:

- the rendering of a Go type or constant expression (`writeType`);
- struct fields, interface type sets and type parameters;
- the rewriting of literals;
- comments and `//tygo:emit` directives;
- the iota offset parser;
- the detection and writing of enum and union groups;
- the top-level declaration writers;
- the per-file and per-package generators;
- the parts of the package configuration they read.

Every Go `panic` and every `log.Fatalf` on these paths becomes a `Fail` of a
`Result`, so an aborted run is a value that the contracts talk about.

The modules follow the source files:

| module | models |
|---|---|
| `Config`, `FilePaths` | `config.go`: normalisation, the file filter, the output path (`filepath.Base`, `filepath.Join`) |
| `Generator` | the `PackageGenerator` record, with indentation |
| `Idents` | `write.go`: `getIdent`, `validJSName`, the operator precedence table |
| `Literals` | `write.go`: the integer, character and string literal rewrites |
| `Comments` | `write_comment.go` |
| `Iota` | `iota.go` |
| `Fields` | `write.go`: the per-field decisions of `writeStructFields` (tags, name, key, optional markers) |
| `TypeWriter` | `write.go`: `writeType`, `writeStructFields`, `writeInterfaceFields`, `writeTypeParamsFields` |
| `Embedding` | `write_toplevel.go`: `getInheritedType`, `getAnonymousFieldName` |
| `Enums` | `write_toplevel.go`: `detectEnumGroup`, `findCommonPrefix`, `writeTypeScriptEnum`, `writeTypeScriptUnion` |
| `TopLevel` | `write_toplevel.go`: `isEmitVar`, `emitVar`, `writeGroupDecl`, `writeSpec`, `writeTypeSpec`, `writeTypeInheritanceSpec`, `writeValueSpec` |
| `PackageGen` | `package_generator.go` |
| `Text`, `Results`, `GoAst` | string helpers, `strconv`, the `Result` type and the syntax tree |

Some behaviours of the code are easy to misread. The model keeps them as written:

- **Union iota position.** A union member's iota position counts the members of the detected group, not every spec of the declaration (`write_toplevel.go:264-326`). `Enums.UnionValuesCarry` proves this rule.
- **Pointer parentheses.** A pointer is parenthesised only when the `optionalParens` flag is set (`write.go:68-76`). Array elements, type parameters, top-level type aliases and value-spec type annotations set the flag (`write_toplevel.go:572`). Binary operands do not.
- **Emitted text.** A `//tygo:emit` string literal loses its first and last characters and nothing more (`write_toplevel.go:41-47`). Escapes inside it are not decoded.
- **Iota substitution.** The carried value of a constant has `iota` replaced through `replaceIotaValue` with the counter (`write_toplevel.go:592-595`). That function is not part of this model and is a parameter of the generator.

## Model

| member | source | states |
|---|---|---|
| Config.NormalizeFlavor | tygo/config.go:94-103 | `""`, `default` and `yaml` are accepted; the result is `default` or `yaml`, and a non-empty accepted value maps to itself; anything else is an error |
| Config.NormalizePreserveComments | tygo/config.go:105-116 | `""`, `default`, `types` and `none` are accepted; the empty value becomes `default`, the others map to themselves; anything else is an error |
| Config.NormalizeIdempotent | tygo/config.go:94-116 | normalising a normalised setting gives the same setting |
| Config.NormalizeEntry | tygo/config.go:73-87 | the looked-up entry fails exactly when flavor or comment level is unsupported; otherwise flavor and comment level are exactly what their normalisers give, an empty indent becomes two spaces, and every other field, `allowedUnexportedFields` included, is unchanged |
| Config.LookupPackageConfig | tygo/config.go:70-92 | the result is the normalised FIRST entry whose path matches, in both directions: a success is that entry, and when such an entry exists the result is its normalisation; with no matching entry the run aborts |
| Config.LookupIsIdempotent | tygo/config.go:70-92 | looking up the returned configuration again returns it unchanged |
| Config.IsFileIgnored | tygo/config.go:118-137 | a file is ignored iff its base name is excluded, or the include list is non-empty and does not hold it |
| Config.ListContains | tygo/config.go:120-124 | the comparison loop finds the base name iff the list holds it |
| Config.ExcludeWinsOverInclude | tygo/config.go:118-137 | an excluded file stays ignored even when the include list names it |
| Config.ResolvedOutputPath | tygo/config.go:139-146 | the output path always ends in `.ts`; an output path ending in `.ts` is used as is; another output path is a directory joined with `index.ts`; with no output path the file is `index.ts` joined to the package directory |
| Config.ResolvedPathIsFixed | tygo/config.go:139-146 | a resolved path, configured as the output path, resolves to itself whatever the package directory |
| Config.IndexFileUnder | tygo/config.go:141-143 | joining a directory with `index.ts` gives a path ending in `/index.ts`, or `index.ts` itself |
| Generator.Indent | tygo/write.go:53-57 | the indentation for depth `d` is `d` times as long as the configured indent |
| Generator.IndentAdds | tygo/write.go:53-57 | indentation composes: `a + b` levels are `a` levels followed by `b` levels |
| Generator.IndentOne | tygo/write.go:53-57 | one level of indentation is exactly the configured indent; with `IndentAdds`, depth `d` is the indent repeated `d` times |
| Comments.PreserveLevels | tygo/write_comment.go:11-18 | `default` keeps doc and type comments, `types` only type comments, `none` neither; keeping doc comments implies keeping type comments |
| Comments.WriteDirective | tygo/write_comment.go:26-34 | the directive loop aborts iff some `//tygo:emit` line has nothing after the prefix; a group without directives writes nothing |
| Comments.DirectiveLine | tygo/write_comment.go:27-32 | a directive line writes its text after the prefix and one separator character, then a newline; other lines write nothing |
| Comments.DirectiveLinesRoundTrip | tygo/write_comment.go:26-34 | splitting the written directives at newlines gives back each directive's payload, in order |
| Comments.EscapeCommentClose | tygo/write_comment.go:56 | an escaped comment line contains no `*/` |
| Comments.EscapeCloserGone | tygo/write_comment.go:56 | replacing `*/` by `*\/` leaves no `*/` and keeps the first character |
| Comments.DocLines | tygo/write_comment.go:50-59 | the lines kept for the doc block hold no `*/` and are no more than the comment's lines |
| Comments.DocBodyLines | tygo/write_comment.go:50-59 | the doc block body is exactly the comment's non-blank lines, escaped, each on its own ` * ` line, so no line can close the block early |
| Comments.WriteCommentGroup | tygo/write_comment.go:36-62 | the directives come first; a group holding only directives adds one newline; any other group adds a `/** ... */` block of its non-blank lines at the given depth; it aborts exactly when the directives do |
| Comments.WriteSingleLineComment | tygo/write_comment.go:65-79 | a directive-only group gives a newline; a non-empty text gives ` // ` and the text with no newline added; an empty comment gives ` // ` and a newline |
| Comments.SingleLineCommentEndsLine | tygo/write_comment.go:65-79 | when the text is empty or ends in a newline, the trailing comment ends the line |
| Idents.GetIdent | tygo/write.go:39-51 | `bool` becomes `boolean`; each numeric Go type becomes `number` with the Go name in a comment; any other name is kept |
| Idents.GetIdentIdempotent | tygo/write.go:39-51 | mapping a mapped name again changes nothing |
| Idents.GetIdentInjective | tygo/write.go:39-51 | two identifiers map to the same text only if they are equal or are `bool` and `boolean` |
| Idents.ValidJSName | tygo/write.go:35-37 | a name is valid iff SOME newline-separated line of it is a letter or `_` followed by letters, digits and `_` (the pattern is multi-line) |
| Idents.SingleLineName | tygo/write.go:35-37 | for a name without newlines, valid iff the whole name is an identifier |
| Idents.MultilineKeyUnquoted | tygo/write.go:35-37 | `my-key` is not a valid name, but `my-key` followed by a line `ok` is |
| Idents.Precedence | tygo/write.go:21-33 | the generator's operator table as written: 6 for `* / %`, 5 for `+ -`, 4 for shifts, 3 for `& &^`, 2 for `\|`, 1 for `^`, 0 for anything else |
| Idents.JsPrecedence | tygo/write.go:20-33 | the corrected table: as written, except that `^` ranks 2 and `\|` ranks 1 |
| Idents.JsPrecedenceOrder | tygo/write.go:20-33 | the corrected table orders every two ranked operators as the JavaScript grammar binds them |
| Idents.TableAsWritten | tygo/write.go:20-33 | the table as written puts `\|` above `^`, against JavaScript, and orders every other pair of ranked operators as JavaScript does |
| Literals.RewriteIntLit | tygo/write.go:115-118 | a legacy octal literal gains `0o`, so TypeScript accepts it and reads the value Go gives it; other literals are unchanged |
| Literals.JsonEscape | tygo/write.go:130-138 | exactly the two-character JSON escapes other than `\u` are accepted |
| Literals.JsonUnquote | tygo/write.go:130-138 | decoding never lengthens the text, and a non-empty body decodes to a non-empty string |
| Literals.DecodeCharLit | tygo/write.go:119-140 | a decoded value is below 2^31, and only a `\x`, `\u` or `\U` escape can decode to a negative number |
| Literals.PlainCharValue | tygo/write.go:128-139 | a quoted plain character decodes to its own code point |
| Literals.EscapedCharValue | tygo/write.go:128-139 | a quoted two-character JSON escape decodes to the character the escape stands for |
| Literals.RewriteCharLit | tygo/write.go:141-145 | the rewrite succeeds iff decoding does; a code point is written as upper-case hex 4 digits wide (8 above U+FFFF) that reads back as the code point, then the original literal in a comment |
| Literals.HexWidthReadsBack | tygo/write.go:141-145 | the zero-padded hex text of `n` is upper-case hex that reads back as `n`, exactly `w` digits when `n` fits in `w` |
| Literals.HexEscapeRoundTrip | tygo/write.go:119-145 | a `'\uXXXX'` literal in upper-case hex is written with the same four digits |
| Literals.EscapeBackquoted | tygo/write.go:147-148 | reading the escaped raw string back as a template literal gives the original text |
| Literals.NormalizeUnicode8 | tygo/write.go:149-155 | the rewrite of an interpreted string keeps its first character (the opening quote) |
| Literals.NormalizeLeavesNoUnicode8 | tygo/write.go:149-155 | after the rewrite no `\U` escape with eight hex digits is left for TypeScript to misread |
| Literals.NormalizeKeepsPlain | tygo/write.go:149-155 | a string without such an escape is unchanged |
| Literals.Unicode8KeepsCodePoint | tygo/write.go:150-153 | `\UXXXXXXXX` becomes `\u{...}` whose upper-case digits have the same value |
| Literals.RewriteLit | tygo/write.go:113-158 | integer literals get the octal rewrite, character literals the code-point rewrite; a raw string is escaped so that it reads back as the original text; an interpreted string is left with no eight-digit `\U` escape and is unchanged when it had none; float and imaginary literals are kept; only character literals can abort |
| Iota.BasicIotaOffsetValueParse | tygo/iota.go:15-37 | an offset is found only for text that looks like iota, and fits in 64 bits |
| Iota.ParenWrapKeepsVerdict | tygo/iota.go:9-19 | parentheses around the text change neither the iota verdict nor the offset |
| Iota.PlainIotaOffset | tygo/iota.go:19-22 | a bare `iota`, with any parentheses, has offset 0 |
| Iota.OffsetOfParts | tygo/iota.go:23-36 | the offset is the integer parse of the ` + ` operand that is not `iota` |
| Iota.IotaPlusOperand | tygo/iota.go:23-36 | `iota + x` has the integer parse of `x` as its offset |
| Iota.OperandPlusIota | tygo/iota.go:23-36 | `x + iota` has the integer parse of `x` as its offset |
| Iota.IotaPlusOffset | tygo/iota.go:15-37 | `iota + n` gives back `n` for every 64-bit `n` |
| Iota.OffsetPlusIota | tygo/iota.go:15-37 | `n + iota` gives back `n` for every 64-bit `n` |
| Iota.NonIntegerOffsetFails | tygo/iota.go:32-35 | `iota + x` with a word `x` aborts the run |
| Iota.IotaFormsRecognised | tygo/iota.go:9-13 | `iota`, `iota + x` and `x + iota` are recognised as iota values |
| Iota.NoIotaRejected | tygo/iota.go:9-13 | a value in which `iota` cannot occur is not recognised |
| Embedding.GetAnonymousFieldName | tygo/write_toplevel.go:655-680 | an identifier gives its name; a qualified name gives its selector, valid iff exported; other node kinds give no name |
| Embedding.AnonymousNameExported | tygo/write_toplevel.go:655-680 | a valid anonymous field name is exported |
| Embedding.GenericArgs | tygo/write_toplevel.go:630-638 | the type-argument text aborts iff some argument is not an identifier |
| Embedding.GenericArgsJoin | tygo/write_toplevel.go:633-637 | the argument text, without its trailing `, `, is the mapped arguments joined by `, ` |
| Embedding.GetInheritedType | tygo/write_toplevel.go:609-653 | a qualified name gives `pkg.Sel`, valid iff exported; a resolved identifier is valid iff it names an exported struct; an unresolved one iff it is exported; other node kinds give no base |
| Embedding.PointerBase | tygo/write_toplevel.go:642-649 | an embedded pointer is `Partial<...>` of its base unless the tag says `required` |
| Embedding.GenericBase | tygo/write_toplevel.go:630-638 | a generic base is written with its mapped type arguments joined by `, ` in angle brackets |
| Embedding.InheritedIsUsableField | tygo/write_toplevel.go:609-680 | every valid base also has a valid anonymous field name |
| Fields.ResolveTags | tygo/write.go:310-344 | a malformed tag aborts; `-` in `json`, `yaml` or `tstype`, or `tstype` with `extends`, drops the field; otherwise `yaml` overrides `json` for the name and the optional flag; `tstype` gives the override, `required` and `readonly` |
| Fields.FieldName | tygo/write.go:295-303 | a field's name is its first declared name, else a valid anonymous field name, else empty |
| Fields.KeyName | tygo/write.go:346-352 | a tag name wins; otherwise the field name, each character lower-cased under the `yaml` flavor |
| Fields.FieldKey | tygo/write.go:358-369 | corrected key: with `readonly` the key starts with the modifier; it ends with the name or the quoted name |
| Fields.FieldKeyReadsBack | tygo/write.go:358-369 | the corrected key reads back as the same modifier and name |
| Fields.ReadonlyInsideQuotes | tygo/write.go:358-369 | as written, a quoted read-only key reads as a plain property named `readonly my-key`; the corrected key reads as read-only `my-key` |
| Fields.MarkersExclusive | tygo/write.go:377-390 | a field is never marked optional both by `?` and by ` \| null` |
| Fields.PlanField | tygo/write.go:289-375 | unexported fields are skipped; a malformed tag aborts; a drop tag skips; a kept exported field is planned with the key for its tag or field name (with `readonly` when `tstype` asks), the tag's `tstype` override, the tag's optional flag for a non-pointer, and optional for an emitted pointer unless `tstype` says `required` |
| Fields.UntaggedField | tygo/write.go:289-375 | an untagged exported field is keyed by its (flavored) name, optional iff it is a pointer, with no override |
| TypeWriter.PointerRendering | tygo/write.go:68-76 | a pointer is its pointee followed by ` \| undefined`, parenthesised exactly when the flag asks, whatever the enclosing node |
| TypeWriter.WriteType | tygo/write.go:59-227 | unknown nodes abort; a pointer ends in ` \| undefined`, with a closing parenthesis exactly when the flag asks; a non-byte array ends in `[]`; an inline struct is a `{` block closed at the enclosing depth; a map is an index signature `{ [key: ...]: ... }`; parentheses and type arguments are stated by `ParenRendering`, `IndexRendering` and `IndexListRendering` |
| TypeWriter.FlagOnlyAffectsPointers | tygo/write.go:59-227 | the parenthesis flag changes nothing but the rendering of a pointer |
| TypeWriter.ParentOnlyAffectsBinary | tygo/write.go:59-227 | the enclosing node changes nothing but the rendering of a binary expression |
| TypeWriter.ArrayRendering | tygo/write.go:77-83 | `[]byte` is `string`; another array is its element, rendered with the flag set, followed by `[]`, so an array of pointers reads `(T \| undefined)[]` |
| TypeWriter.BinaryRendering | tygo/write.go:163-185 | a binary expression is parenthesised iff the enclosing operator ranks strictly higher in the operator table (the corrected one); `&^` is written `& ~` |
| TypeWriter.GoGroupingKept | tygo/write.go:163-185 | Go's `x + y & z` is written `x + (y & z)`, keeping Go's grouping under JavaScript precedence |
| TypeWriter.OrUnderXorAsWritten | tygo/write.go:163-185 | as written, Go's `(x \| y) ^ z` is written `x \| y ^ z`, which JavaScript groups as `x \| (y ^ z)` |
| TypeWriter.OrUnderXorGrouped | tygo/write.go:163-185 | with the corrected table, `(x \| y) ^ z` is written `(x \| y) ^ z` |
| TypeWriter.CorrectionOnlyOrXor | tygo/write.go:163-185 | every binary node except a `\|` directly under a `^`, or a `^` directly under a `\|`, is written exactly as the source writes it |
| TypeWriter.ParenRendering | tygo/write.go:159-162 | a parenthesised type is `(`, the inner type written without a parent, and `)`; it fails iff the inner type does |
| TypeWriter.IndexRendering | tygo/write.go:217-221 | `X[I]` is written `X<I>`, failing iff either part does |
| TypeWriter.IndexListRendering | tygo/write.go:207-216 | `X[A, B, ...]` is written `X<A, B, ...>`: the arguments joined by `, ` in angle brackets |
| TypeWriter.UnaryRendering | tygo/write.go:190-206 | `~` is dropped, `^` becomes `~`, `+ - !` are kept, and any other unary operator aborts |
| TypeWriter.NameRendering | tygo/write.go:89-106 | `any` is the fallback type; other identifiers go through the basic-type mapping; `pkg.Sel` is its configured mapping, else the fallback type with the Go name in a comment |
| TypeWriter.OpaqueRendering | tygo/write.go:188-225 | calls, function types and channels render as the fallback type; unknown nodes abort |
| TypeWriter.MethodOnlyInterface | tygo/write.go:245-286 | an interface of methods only renders as the fallback type |
| TypeWriter.MethodsSkipped | tygo/write.go:257-285 | the loop over methods writes nothing, and at its end writes the fallback type only when no term was seen |
| TypeWriter.TermsJoined | tygo/write.go:257-280 | once a type-set term is left, the text starts with ` &` and a newline after an earlier term, or with a newline before the first |
| TypeWriter.InterfaceText | tygo/write.go:245-286 | an interface with only methods is the fallback type; one with a type-set term starts on a new line |
| TypeWriter.NumericMapRendering | tygo/write.go:107-112 | `map[uint16]*uint32` renders as an index signature from `number` to `number \| undefined`, each with its Go name in a comment |
| TypeWriter.SkippedFieldWritesNothing | tygo/write.go:296-340 | a skipped field writes nothing |
| TypeWriter.WriteStructField | tygo/write.go:288-391 | a field aborts iff its plan does; a skipped field writes nothing; a planned one ends in `;` and its line end |
| TypeWriter.StructFieldsConcatenated | tygo/write.go:288-391 | the fields loop succeeds iff every field from the start does, and then is the concatenation of the field lines in order |
| TypeWriter.AllFieldsSkipped | tygo/write.go:288-391 | a struct all of whose fields are skipped writes nothing |
| TypeWriter.PointerFieldRendersPointee | tygo/write.go:371-391 | a pointer field is written with its pointee type; its optionality goes into `?` or ` \| null`, never ` \| undefined` |
| TypeWriter.TstypeOverride | tygo/write.go:383-390 | a `tstype` override replaces the rendered type and is never marked ` \| null` |
| TypeWriter.TypeParamsAreJoined | tygo/write.go:229-243 | the type parameter list is `<` then every `name extends constraint` entry joined by `, ` then `>` |
| TypeWriter.WriteTypeParamsFields | tygo/write.go:229-243 | a type parameter list is written in angle brackets and aborts iff one of its constraints does |
| Enums.CandidateName | tygo/write_toplevel.go:82-106 | the name of a spec the first pass takes is its first exported name other than `_` |
| Enums.Candidates | tygo/write_toplevel.go:74-108 | the candidates are exactly the value specs holding such a name, in declaration order |
| Enums.PatternPrefixExported | tygo/write_toplevel.go:97-104 | a prefix set from an explicit type is that type's name and starts with an upper-case letter |
| Enums.FindCommonPrefix | tygo/write_toplevel.go:165-196 | the prefix is the LONGEST prefix of the first name that starts upper-case and begins every other name, or empty when none does |
| Enums.CommonPrefixOfAll | tygo/write_toplevel.go:165-196 | every candidate name starts with a found prefix |
| Enums.Matching | tygo/write_toplevel.go:124-148 | the second pass keeps a candidate iff it starts with the prefix and is untyped or of the common type |
| Enums.MatchingAll | tygo/write_toplevel.go:124-148 | when every candidate fits the prefix and the type, the second pass keeps them all |
| Enums.GroupKey | tygo/write_toplevel.go:97-130 | the type name and prefix of a group: when a prefix is set, the type name is that prefix and it starts upper-case |
| Enums.DetectEnumGroup | tygo/write_toplevel.go:59-161 | no group without the `enum` or `union` style, for non-constants, or with fewer than two specs or candidates; a group's name and prefix are the declaration's key, and its members are EXACTLY the candidates that match it, in declaration order; conversely, a constant declaration with a key and two matching candidates always forms a group |
| Enums.UntypedConstantsFormGroup | tygo/write_toplevel.go:59-161 | untyped constants whose names share an upper-case prefix form one group of every spec, under the longest such prefix |
| Enums.MembersExported | tygo/write_toplevel.go:213-217 | every member of a detected group is exported, so the writers never skip one |
| Enums.EnumIotaIsPosition | tygo/write_toplevel.go:211-256 | every enum member is written, with `iota` replaced by its position in the group, not in the declaration |
| Enums.UnionConstsFrom | tygo/write_toplevel.go:269-326 | the union loop records one value per referenced name; when every member is exported, the names are exactly the members' first names in order |
| Enums.TypeofRefsJoined | tygo/write_toplevel.go:338-347 | the union type is the `typeof` references joined by ` \| ` |
| Enums.UnionValuesCarry | tygo/write_toplevel.go:264-326 | each union member gets the last explicit value at or before it, with `iota` replaced by the member's position in the group; the names are the members' names in order |
| Enums.WriteTypeScriptEnum | tygo/write_toplevel.go:199-259 | the enum aborts when a member does, and otherwise ends with `export enum Name {`, the member lines and `}`; what the lines are is stated by `EnumMembersText` |
| Enums.EnumMemberLine | tygo/write_toplevel.go:219-252 | a member whose name is `prefix + short` is written under `short`: its doc one level in, the indent, `short`, ` = ` and its first value with iota substituted when it has one, `,` and its line end |
| Enums.EnumMembersText | tygo/write_toplevel.go:199-259 | in a detected group a written enum ends with `export enum Name {`, every member's expected line in group order, and `}`, and it fails when one of those lines does |
| Enums.EnumMembersLoopText | tygo/write_toplevel.go:213-256 | in a detected group the member loop writes exactly the expected lines: each member's name with the prefix stripped, and its first value with iota at the member's position |
| Enums.WriteTypeScriptUnion | tygo/write_toplevel.go:262-347 | the union aborts when a member does, and otherwise starts with the constants and ends with `export type Name = ` and the `typeof` references joined by ` \| `; what the constants are is stated by `UnionConstsText` |
| Enums.UnionConstsText | tygo/write_toplevel.go:264-326 | in a detected group a written union starts with the expected constants: one line per member, in order, made of its doc, `export const`, its name, ` = `, the value `ExpectedValue` gives it, `;` and its line end |
| Enums.UnionConstsLoopText | tygo/write_toplevel.go:264-324 | in a detected group the union's constant loop, when it succeeds, writes exactly those expected lines |
| Enums.UnionReferencesEveryMember | tygo/write_toplevel.go:262-347 | the union type of a detected group references every member of the group, in order |
| TopLevel.HasEmitDirective | tygo/write_toplevel.go:26-35 | the doc comment holds an emit directive iff some line starts with the prefix |
| TopLevel.IsEmitVar | tygo/write_toplevel.go:21-37 | a declaration is an emitted variable iff it is a `var` with an emit directive whose first value is a string literal; without a first value it aborts |
| TopLevel.EmitVar | tygo/write_toplevel.go:41-47 | a literal of two or more characters emits one character fewer than it has, ending in a newline; a shorter literal emits nothing; anything but a literal aborts |
| TopLevel.EmitVarUnquotes | tygo/write_toplevel.go:41-47 | a quoted string literal gives back exactly the text between its quotes |
| TopLevel.SpecDoc | tygo/write_toplevel.go:445-450 | a spec's own doc overrides the group doc, which is used only for grouped declarations; nothing unless type comments are kept |
| TopLevel.ExtendsEntry | tygo/write_toplevel.go:508-517 | only a `tstype` entry with the `extends` option marks a base |
| TopLevel.MappedBase | tygo/write_toplevel.go:519-528 | a base name with a type mapping becomes the mapped name, else is kept, never the fallback type |
| TopLevel.DeclaredBasesMembers | tygo/write_toplevel.go:505-531 | the declared bases are exactly the texts of the base fields; no base field means no bases |
| TopLevel.InheritedBasesFrom | tygo/write_toplevel.go:506-531 | the base loop aborts iff a tag is malformed or a base cannot be computed, and otherwise yields the declared bases in field order |
| TopLevel.WriteTypeInheritanceSpec | tygo/write_toplevel.go:505-536 | the clause is ` extends ` and the declared bases joined by `, `, or nothing when there are none |
| TopLevel.NoBaseNoClause | tygo/write_toplevel.go:532-535 | a struct with no `extends` field writes no clause |
| TopLevel.OneBaseClause | tygo/write_toplevel.go:505-536 | one base gives ` extends` and its mapped name |
| TopLevel.InterfaceHeader | tygo/write_toplevel.go:453-466 | corrected header: `export interface`, the name, the type parameters, then one `extends` list with the configured base (if any) followed by the inherited ones |
| TopLevel.HeadersAgreeWithoutExtends | tygo/write_toplevel.go:453-466 | without a configured `Extends`, the header as written is the corrected header |
| TopLevel.HeaderAsWrittenMisplacesExtends | tygo/write_toplevel.go:453-466 | with `Extends` configured, the header as written separates the name from its type parameters, and with bases it holds `extends` twice |
| TopLevel.TypeSpecBody | tygo/write_toplevel.go:452-491 | a struct becomes `export interface Name ... }`, any other type `export type Name = ...;`; an identifier alias never aborts; a struct aborts iff its type parameters, bases or fields do; any other type iff its type parameters or type do |
| TopLevel.TypeParamsText | tygo/write_toplevel.go:460-462 | no type parameters write nothing; present ones are written in angle brackets |
| TopLevel.TypeLineEnd | tygo/write_toplevel.go:492-498 | without a kept comment a type ends with a newline; with a comment it ends with ` // ` and the text, ending the line when the text does |
| TopLevel.WriteTypeSpec | tygo/write_toplevel.go:435-499 | a type already generated as an enum writes nothing; otherwise the doc comment, the declaration and the line end, aborting iff one of them does |
| TopLevel.StructSpecFails | tygo/write_toplevel.go:435-466 | a struct type not generated as an enum aborts iff its doc, type parameters, bases or fields do |
| TopLevel.StructSpecText | tygo/write_toplevel.go:452-466 | a struct is its doc, `export interface`, name, type parameters, the `extends` list, then its fields in braces and the line end |
| TopLevel.AliasSpecText | tygo/write_toplevel.go:477-491 | any type but a struct or identifier is its doc, `export type`, name, type parameters, ` = `, the type with pointer parentheses, `;` and the line end |
| TopLevel.TopLevelPointerParenthesised | tygo/write_toplevel.go:480-491 | a top-level pointer alias is written parenthesised |
| TopLevel.NamedAlias | tygo/write_toplevel.go:471-478 | an alias of an identifier is written with the mapped name, without type parameters |
| TopLevel.ValueNamesFrom | tygo/write_toplevel.go:545-606 | every name advances the iota counter, written or not; a spec with only blank or unexported names writes nothing |
| TopLevel.ValueLine | tygo/write_toplevel.go:554-605 | an explicit value becomes the carried value and clears the carried type; a declared type becomes the carried type; a name with neither keeps both |
| TopLevel.WriteValueSpec | tygo/write_toplevel.go:540-607 | the counter advances by the number of names; the grouping and group doc are kept |
| TopLevel.CarriedValueAndType | tygo/write_toplevel.go:561-596 | a bare name repeats the carried value, with the counter for `iota`, under the carried type |
| TopLevel.ExplicitValueResetsType | tygo/write_toplevel.go:561-596 | an untyped name with a value drops the carried type and carries the new value |
| TopLevel.DeclaredTypeCarried | tygo/write_toplevel.go:566-580 | a declared type is written as the annotation and carried on |
| TopLevel.WriteSpec | tygo/write_toplevel.go:417-429 | an exported type spec or a value spec is written; unexported types and imports write nothing; only value specs change the group state |
| TopLevel.WriteSpecs | tygo/write_toplevel.go:408-414 | the counter advances by the names of the specs not skipped |
| TopLevel.SkippedSpecsRemoved | tygo/write_toplevel.go:400-414 | skipping specs is writing the declaration with them removed |
| TopLevel.MemberMask | tygo/write_toplevel.go:400-406 | a spec is skipped iff it is a member of the detected group |
| TopLevel.WriteGroupDeclAsWritten | tygo/write_toplevel.go:356-366 | as written, a declaration without specs aborts the run |
| TopLevel.WriteGroupDecl | tygo/write_toplevel.go:350-415 | a lone unexported type or constant writes nothing; a detected group's enum or union comes first; a declaration without specs writes nothing (corrected) |
| TopLevel.GroupDeclText | tygo/write_toplevel.go:350-415 | after the enum or union, a declaration writes exactly its non-member specs, in order, from a fresh group state; a grouped declaration writes nothing else and fails iff its enum or one of those specs does |
| TopLevel.IotaCountsFromZero | tygo/write_toplevel.go:392-414 | the iota counter starts one below 0: in `A = iota; B` the first constant gets iota 0 and the next repeats the value with iota 1 |
| TopLevel.MembersNotRepeated | tygo/write_toplevel.go:400-414 | the specs written after an enum are exactly the declaration's specs that are not members |
| TopLevel.BlankNameAdvancesCounter | tygo/write_toplevel.go:545-549 | a blank constant writes nothing but advances the counter for the constants after it |
| TopLevel.EmptyDeclaration | tygo/write_toplevel.go:356-366 | an empty declaration aborts as written and writes nothing once corrected |
| PackageGen.GenDecls | tygo/package_generator.go:13-17 | every visited declaration is a top-level declaration or one inside a function body |
| PackageGen.GenDeclsComplete | tygo/package_generator.go:13-17 | every top-level declaration and every declaration inside a function body is visited |
| PackageGen.GenDeclsInOrder | tygo/package_generator.go:13-17 | declarations are visited in source order: two lists of declarations visit the concatenation of their visits |
| PackageGen.GenDeclsSingle | tygo/package_generator.go:13-17 | a declaration is visited itself, and a function visits the declarations of its body |
| PackageGen.FileDeclsFrom | tygo/package_generator.go:10-44 | a file none of whose declarations is written gives no text, not even the header |
| PackageGen.ImportWritesNothing | tygo/package_generator.go:18-20 | an import writes nothing and leaves the header for later |
| PackageGen.VarOnlyWhenEmitted | tygo/package_generator.go:21-38 | a `var` that is not emitted writes nothing; an emitted one writes exactly its emitted text |
| PackageGen.HeaderNotRepeated | tygo/package_generator.go:29-34 | once a declaration is written, the header plays no further part |
| PackageGen.HeaderOnceAtStart | tygo/package_generator.go:29-34 | the source header is written once, at the start of the file's text, iff the file has a path and some declaration is written |
| PackageGen.GenerateFile | tygo/package_generator.go:10-44 | a file none of whose visited declarations is written gives no text; otherwise the source header, when the file has a path, followed by the written declarations |
| PackageGen.Included | tygo/package_generator.go:54-57 | the files generated are exactly those the configuration does not ignore |
| PackageGen.PackageText | tygo/package_generator.go:46-63 | the package text starts with the codegen header and frontmatter; it succeeds iff every included file does, and is then the headers followed by the included files' texts in order |
| PackageGen.FilesConcatenated | tygo/package_generator.go:54-60 | the file loop succeeds iff every file does and is then the concatenation of their texts |
| PackageGen.Generate | tygo/package_generator.go:46-63 | the package succeeds iff every file the configuration includes does, and is then the headers followed by those files' texts in order |
| PackageGen.IgnoredFilesSkipped | tygo/package_generator.go:54-60 | generating all files is generating only the files that are not ignored |
| PackageGen.FilesInOrder | tygo/package_generator.go:54-60 | files are written in order: two lists of files generate the concatenation of their texts |

## Left out

- Parsing Go source and type-checking a package are not modelled. The model starts from an abstract syntax tree whose identifiers already carry their resolved declaration.
- `structtag.Parse`: tags arrive parsed, as entries or as `Malformed`. A malformed tag aborts.
- `CommentGroup.Text()` is not computed. Its result is an input field of the comment group.
- Character-literal decoding: only hexadecimal escapes and plain JSON string bodies are handled. `\u` escapes inside JSON bodies, and surrogate pairs, are not modelled.
- Unicode letter classes are ASCII here. Letters in names, `IsExported` and `strings.ToLower` use the ASCII ranges. Blank-line detection follows `unicode.IsSpace`: `Text.IsSpace` is the full Unicode White_Space set.
- `replaceIotaValue` is a function-valued parameter of the generator, because its source is not part of this model.
- `writeFileSourceHeader`, `writeFileCodegenHeader` and `writeFileFrontmatter` are not modelled. The per-file header is an input field of each source file. The codegen header and frontmatter are parameters of `Generate`.
- `PackageConfig.Normalize` and the command-line entry points (`Tygo.Generate`, `cmd/`, `ConvertGoToTypescript`) are not modelled. Neither is the file writing they do.
- Writing into a `strings.Builder` is modelled by returning the text. A Go panic or `log.Fatalf` is a `Fail`.
- The in-place rewriting of literal nodes is not modelled. `writeType` is pure here, so a literal rendered twice is rewritten from its original text both times.
- `generatedEnums` is an input set of the generator. Nothing in the modelled code adds to it.
- The map of enum constants is modelled by the positions of the members in the declaration. The source keys it by node identity, which picks out the same specs.
- `allowedUnexportedFields` is carried in the configuration but read by no modelled code.
- The writers that `generateFile` and `writeGroupDecl` call are passed as a record of functions to the loop lemmas. This keeps each proof small. `PackageGen.Writers` and `Enums.ConstWriting` supply the model's own writers.
- Literals.JsonUnquote: states only length facts. The decoding itself is a reference for `DecodeCharLit` and not proved against `encoding/json`.
- Literals.NormalizeUnicode8: its own contract states only that the first character is kept. What the rewrite achieves is stated by `NormalizeLeavesNoUnicode8`, `NormalizeKeepsPlain` and `Unicode8KeepsCodePoint`.
- Enums.UnionConstsFrom: its own contract states only that names and values pair up. The values are stated by `UnionValuesCarry`.
- PackageGen.FileDeclsFrom: its own contract covers only files with nothing to write. Imports, variables and the header are covered by the lemmas about it.
- TypeWriter.WriteType: parenthesises binary expressions by the corrected table `JsPrecedence`. The table as written ranks `|` above `^` (see Findings). `BinaryNodeAsWritten` writes a node as the source does, and `CorrectionOnlyOrXor` shows the two agree except for `|` directly under `^` and `^` directly under `|`.
- Generator.Indent: its own contract states only the length. The text itself is fixed by `IndentOne` (one level is the configured indent) together with `IndentAdds`.
- Literals.DecodeCharLit: its own contract states only bounds. The decoded values are stated by `PlainCharValue`, `EscapedCharValue` and `HexEscapeRoundTrip`.
- PackageGen.GenDecls: its own contract states only that every visited declaration comes from the file. Completeness and order are stated by `GenDeclsComplete`, `GenDeclsInOrder` and `GenDeclsSingle`.
- TopLevel.WriteTypeSpec: its third clause unfolds the writer into its parts. What the parts are is stated per kind of type by `StructSpecText`, `AliasSpecText` and `NamedAlias`.
- Fields.PlanField: the package writer keys fields with the corrected `FieldKey`, which puts `readonly` before a quoted name. The key as written is `FieldKeyAsWritten` and is not used by the package writer.
- TopLevel.TypeSpecBody: the package writer uses the corrected `InterfaceHeader`, which puts the type parameters before the single `extends` list. The header as written is `InterfaceHeaderAsWritten` and is not used by the package writer.
- TopLevel.WriteGroupDecl: the package writer writes nothing for a declaration without specs. The code as written aborts there; that behaviour is `WriteGroupDeclAsWritten` and is not used by the package writer.
- Strings are sequences of characters here, while Go slices strings by byte. The slices `[1:]` after `//tygo:emit` (`write_comment.go:31`), the quote stripping of `emitVar` (`write_toplevel.go:41-47`) and the prefix candidates of `findCommonPrefix` (`write_toplevel.go:173-174`) agree with the model only for ASCII text.
- The rewrite `f.Type = t.X` of a pointer field (`write.go:374`) changes the syntax tree in place. The model leaves the tree unchanged and writes the pointee directly. The two agree as long as each field is written once.

## Findings

| source | as written | input that shows it | evidently intended | confidence | as-written member | corrected member |
|---|---|---|---|---|---|---|
| tygo/write.go:358-369 | the `readonly ` modifier is written inside the quotes of a quoted key | a field with json name `my-key` and `tstype:",readonly"` gives `'readonly my-key'` | `readonly 'my-key'`: a read-only property named `my-key` | not executed | Fields.FieldKeyAsWritten (shown by Fields.ReadonlyInsideQuotes) | Fields.FieldKey (Fields.FieldKeyReadsBack) |
| tygo/write_toplevel.go:356-366 | a declaration that is not grouped reads `decl.Specs[0]`, even when there are no specs | `const ()` or `type ()` in a package file: index out of range | an empty declaration writes nothing | not executed | TopLevel.WriteGroupDeclAsWritten (shown by TopLevel.EmptyDeclaration) | TopLevel.WriteGroupDecl (TopLevel.EmptyDeclaration) |
| tygo/write_toplevel.go:453-466 | the configured `Extends` is written right after the interface name, before the type parameters and before the inherited ` extends` clause | `Extends: "Base"` with `type Box[T any] struct{ ... }` gives `export interface Box extends Base<T extends any>`; with an embedded base it gives two `extends` keywords | `export interface Box<T extends any> extends Base, Other` | not executed | TopLevel.InterfaceHeaderAsWritten (shown by TopLevel.HeaderAsWrittenMisplacesExtends) | TopLevel.InterfaceHeader (TopLevel.HeadersAgreeWithoutExtends) |
| tygo/write.go:20-33 | the precedence table ranks `\|` (2) above `^` (1), although JavaScript binds `^` tighter than `\|` | Go's `x \| y ^ z`, which Go groups `(x \| y) ^ z`, is written `x \| y ^ z`, which JavaScript reads as `x \| (y ^ z)`; for 1, 1, 1 Go gives 0 and the TypeScript constant 1 | the table in JavaScript's order, `^` above `\|`, so the inner `\|` is parenthesised | not executed | TypeWriter.BinaryNodeAsWritten (shown by TypeWriter.OrUnderXorAsWritten) | Idents.JsPrecedence (Idents.JsPrecedenceOrder, TypeWriter.OrUnderXorGrouped) |

=== FILE: comments.dfy ===
/** The comment policy: which comments are kept, `//tygo:emit` directives, JSDoc
    blocks and trailing line comments. */
module Comments {
  import opened Results
  import opened Text
  import opened GoAst
  import opened Generator

  const EmitPrefix := "//tygo:emit"

  /** Comments that are not about a type: kept only at the `default` level. */
  predicate PreserveDocComments(g: PackageGenerator) {
    g.conf.preserveComments == "default"
  }

  /** Comments about types: kept at the `types` and `default` levels. */
  predicate PreserveTypeComments(g: PackageGenerator) {
    g.conf.preserveComments == "types" || g.conf.preserveComments == "default"
  }

  /** The three levels nest: `default` keeps both kinds, `types` only type comments,
      `none` neither. */
  lemma PreserveLevels(g: PackageGenerator)
    ensures PreserveDocComments(g) ==> PreserveTypeComments(g)
    ensures g.conf.preserveComments == "default" ==> PreserveDocComments(g) && PreserveTypeComments(g)
    ensures g.conf.preserveComments == "types" ==> !PreserveDocComments(g) && PreserveTypeComments(g)
    ensures g.conf.preserveComments == "none" ==> !PreserveDocComments(g) && !PreserveTypeComments(g)
  {
  }

  // ----- directives -----

  predicate IsEmitDirective(c: string) {
    StartsWith(c, EmitPrefix)
  }

  /** The text a directive emits: what follows the prefix, minus one separator. */
  function EmitPayloads(list: seq<string>): seq<string>
    requires forall i :: 0 <= i < |list| && IsEmitDirective(list[i]) ==> |list[i]| > |EmitPrefix|
  {
    if |list| == 0 then []
    else if IsEmitDirective(list[0]) then [list[0][|EmitPrefix| + 1..]] + EmitPayloads(list[1..])
    else EmitPayloads(list[1..])
  }

  /** `writeDirective`: each `//tygo:emit` comment's text after the prefix, with the
      first character (the separator) dropped, on a line of its own. A directive with
      nothing after the prefix aborts the run. */
  function WriteDirective(list: seq<string>): (r: Result<string>)
    ensures r.Ok? <==> forall i :: 0 <= i < |list| && IsEmitDirective(list[i]) ==> |list[i]| > |EmitPrefix|
    ensures (forall i :: 0 <= i < |list| ==> !IsEmitDirective(list[i])) ==> r == Ok("")
    decreases |list|
  {
    if |list| == 0 then Ok("")
    else
      assert forall i :: 1 <= i < |list| ==> list[i] == list[1..][i - 1];
      var head :- DirectiveLine(list[0]);
      var rest :- WriteDirective(list[1..]);
      assert head == "" ==> head + rest == rest;
      Ok(head + rest)
  }

  /** The output of one comment of the group: empty unless it is a directive. */
  function DirectiveLine(c: string): (r: Result<string>)
    ensures r.Ok? <==> !IsEmitDirective(c) || |c| > |EmitPrefix|
    ensures !IsEmitDirective(c) ==> r == Ok("")
    ensures IsEmitDirective(c) && |c| > |EmitPrefix| ==> r == Ok(c[|EmitPrefix| + 1..] + "\n")
  {
    if IsEmitDirective(c) then
      var after := TrimPrefix(c, EmitPrefix);
      assert |after| == |c| - |EmitPrefix|;
      if |after| == 0 then Fail("slice bounds out of range")
      else
        assert after[1..] == c[|EmitPrefix| + 1..];
        Ok(after[1..] + "\n")
    else Ok("")
  }

  /** Reading the directive output back line by line gives the directives' texts, in
      order, as long as no comment text holds a line break. */
  lemma {:induction false} DirectiveLinesRoundTrip(list: seq<string>)
    requires WriteDirective(list).Ok?
    requires forall i, k :: 0 <= i < |list| && 0 <= k < |list[i]| ==> list[i][k] != '\n'
    ensures Split(WriteDirective(list).value, "\n") == EmitPayloads(list) + [""]
    decreases |list|
  {
    if |list| == 0 {
      SplitAbsent("", "\n");
    } else {
      assert forall i :: 1 <= i < |list| ==> list[i] == list[1..][i - 1];
      DirectiveLinesRoundTrip(list[1..]);
      var rest := WriteDirective(list[1..]).value;
      if IsEmitDirective(list[0]) {
        var p := list[0][|EmitPrefix| + 1..];
        assert forall k :: 0 <= k < |p| ==> p[k] == list[0][|EmitPrefix| + 1 + k];
        SplitAfterAbsent(p, "\n", rest);
        assert WriteDirective(list).value == p + "\n" + rest;
      } else {
        assert WriteDirective(list).value == rest;
      }
    }
  }

  // ----- doc blocks -----

  /** No `*` is directly followed by `/`: the text cannot end a block comment. */
  predicate NoCommentClose(s: string) {
    forall i :: 0 <= i < |s| - 1 ==> !(s[i] == '*' && s[i + 1] == '/')
  }

  /** A doc line with every `*\/` written as `*\\/`. */
  function EscapeCommentClose(c: string): (r: string)
    ensures NoCommentClose(r)
  {
    EscapeCloserGone(c);
    ReplaceAll(c, "*/", "*\\/")
  }

  lemma {:induction false} EscapeCloserGone(c: string)
    ensures NoCommentClose(ReplaceAll(c, "*/", "*\\/"))
    ensures |c| > 0 ==> |ReplaceAll(c, "*/", "*\\/")| > 0 && ReplaceAll(c, "*/", "*\\/")[0] == c[0]
    decreases |c|
  {
    if |c| > 0 {
      var r := ReplaceAll(c, "*/", "*\\/");
      if StartsWith(c, "*/") {
        EscapeCloserGone(c[2..]);
        var rest := ReplaceAll(c[2..], "*/", "*\\/");
        assert r == "*\\/" + rest;
        forall i | 0 <= i < |r| - 1
          ensures !(r[i] == '*' && r[i + 1] == '/')
        {
          if i >= 3 {
            assert r[i] == rest[i - 3] && r[i + 1] == rest[i - 2];
          }
        }
      } else {
        EscapeCloserGone(c[1..]);
        var rest := ReplaceAll(c[1..], "*/", "*\\/");
        assert r == [c[0]] + rest;
        forall i | 0 <= i < |r| - 1
          ensures !(r[i] == '*' && r[i + 1] == '/')
        {
          if i >= 1 {
            assert r[i] == rest[i - 1] && r[i + 1] == rest[i];
          } else {
            assert r[1] == rest[0] == c[1];
            assert c[..2] == [c[0], c[1]];
          }
        }
      }
    }
  }

  /** The lines of a doc block between `/**` and ` */`: one per non-blank line of the
      comment text, escaped. */
  function DocBody(g: PackageGenerator, lines: seq<string>, depth: nat): string {
    if |lines| == 0 then ""
    else if IsBlank(lines[0]) then DocBody(g, lines[1..], depth)
    else Indent(g, depth) + " * " + EscapeCommentClose(lines[0]) + "\n" + DocBody(g, lines[1..], depth)
  }

  /** The escaped non-blank lines, in order. */
  function DocLines(lines: seq<string>): (r: seq<string>)
    ensures forall i :: 0 <= i < |r| ==> NoCommentClose(r[i])
    ensures |r| <= |lines|
  {
    if |lines| == 0 then []
    else if IsBlank(lines[0]) then DocLines(lines[1..])
    else [EscapeCommentClose(lines[0])] + DocLines(lines[1..])
  }

  /** Prefix every line with the indent and ` * ` and end it with a newline. */
  function Framed(g: PackageGenerator, ls: seq<string>, depth: nat): string {
    if |ls| == 0 then "" else Indent(g, depth) + " * " + ls[0] + "\n" + Framed(g, ls[1..], depth)
  }

  /** The doc block holds exactly the comment's non-blank lines, each with its closing
      sequences escaped, so none of them can end the block early. */
  lemma {:induction false} DocBodyLines(g: PackageGenerator, lines: seq<string>, depth: nat)
    ensures DocBody(g, lines, depth) == Framed(g, DocLines(lines), depth)
    ensures forall l :: l in DocLines(lines) ==> NoCommentClose(l)
    decreases |lines|
  {
    if |lines| > 0 {
      DocBodyLines(g, lines[1..], depth);
      if !IsBlank(lines[0]) {
        var ls := DocLines(lines);
        assert ls[1..] == DocLines(lines[1..]);
      }
    }
  }

  /** `writeCommentGroup`: the group's directives, then either a bare newline (a
      group that holds only directives) or a `/** ... */` block indented `depth`
      times. */
  function WriteCommentGroup(g: PackageGenerator, cg: CommentGroup, depth: nat): (r: Result<string>)
    ensures r.Ok? <==> WriteDirective(cg.list).Ok?
    ensures r.Ok? ==> StartsWith(r.value, WriteDirective(cg.list).value)
    ensures r.Ok? && |cg.list| > 0 && cg.text == "" ==> r.value == WriteDirective(cg.list).value + "\n"
    ensures r.Ok? && !(|cg.list| > 0 && cg.text == "") ==>
      r.value == WriteDirective(cg.list).value + Indent(g, depth) + "/**\n"
                 + Framed(g, DocLines(Split(cg.text, "\n")), depth) + Indent(g, depth) + " */\n"
  {
    var directives :- WriteDirective(cg.list);
    if |cg.list| > 0 && cg.text == "" then Ok(directives + "\n")
    else
      DocBodyLines(g, Split(cg.text, "\n"), depth);
      Ok(directives + Indent(g, depth) + "/**\n" + DocBody(g, Split(cg.text, "\n"), depth) + Indent(g, depth) + " */\n")
  }

  /** `writeCommentGroupIfNotNil`. */
  function WriteCommentGroupIfPresent(g: PackageGenerator, cg: Option<CommentGroup>, depth: nat): Result<string> {
    if cg.Some? then WriteCommentGroup(g, cg.value, depth) else Ok("")
  }

  // ----- trailing comments -----

  /** `writeSingleLineComment`: ` // ` and the text, or just a newline for a group
      holding only directives; a newline is added only when the text is empty. */
  function WriteSingleLineComment(cg: CommentGroup): (r: string)
    ensures |cg.list| > 0 && cg.text == "" ==> r == "\n"
    ensures !(|cg.list| > 0 && cg.text == "") ==> StartsWith(r, " // " + cg.text)
    ensures cg.text != "" ==> r == " // " + cg.text
    ensures |cg.list| == 0 && cg.text == "" ==> r == " // \n"
  {
    if |cg.list| > 0 && cg.text == "" then "\n"
    else " // " + cg.text + (if cg.text == "" then "\n" else "")
  }

  /** A trailing comment always ends its line: the text a comment group returns ends in
      a newline when it is not empty, and otherwise the writer supplies one. */
  lemma SingleLineCommentEndsLine(cg: CommentGroup)
    requires cg.text == "" || EndsWith(cg.text, "\n")
    ensures EndsWith(WriteSingleLineComment(cg), "\n")
  {
    var r := WriteSingleLineComment(cg);
    if cg.text != "" {
      assert r[|r| - 1..] == cg.text[|cg.text| - 1..];
    }
  }
}

=== FILE: config.dfy ===
/** Per-package configuration: its normalisation when a package's configuration is
    looked up, the include/exclude file filter and the output-path resolution. */
module Config {
  import opened Results
  import opened Text
  import opened FilePaths

  const DefaultOutputFilename := "index.ts"

  /** `PackageConfig`. `EnumStyle`, `OptionalType` and `Extends` are read by the
      writers; they are part of the record here. */
  datatype PackageConfig = PackageConfig(
    path: string,
    outputPath: string,
    indent: string,
    typeMappings: map<string, string>,
    frontmatter: string,
    excludeFiles: seq<string>,
    includeFiles: seq<string>,
    fallbackType: string,
    flavor: string,
    preserveComments: string,
    allowedUnexportedFields: seq<string>,
    enumStyle: string,
    optionalType: string,
    extendsClause: string)

  /** The accepted spellings of the key-naming flavor and their canonical form. */
  function NormalizeFlavor(flavor: string): (r: Result<string>)
    ensures r.Ok? <==> flavor in {"", "default", "yaml"}
    ensures r.Ok? ==> r.value in {"default", "yaml"}
    ensures r.Ok? && flavor != "" ==> r.value == flavor
  {
    match flavor
    case "" => Ok("default")
    case "default" => Ok("default")
    case "yaml" => Ok("yaml")
    case _ => Fail("unsupported flavor: " + flavor)
  }

  /** The accepted spellings of the comment-preservation level and their canonical form. */
  function NormalizePreserveComments(level: string): (r: Result<string>)
    ensures r.Ok? <==> level in {"", "default", "types", "none"}
    ensures r.Ok? ==> r.value in {"default", "types", "none"}
    ensures r.Ok? && level != "" ==> r.value == level
  {
    match level
    case "" => Ok("default")
    case "default" => Ok("default")
    case "types" => Ok("types")
    case "none" => Ok("none")
    case _ => Fail("unsupported preserve_comments: " + level)
  }

  /** Normalisation is a projection: a canonical value normalises to itself. */
  lemma NormalizeIdempotent(flavor: string, level: string)
    ensures NormalizeFlavor(flavor).Ok? ==>
      NormalizeFlavor(NormalizeFlavor(flavor).value) == NormalizeFlavor(flavor)
    ensures NormalizePreserveComments(level).Ok? ==>
      NormalizePreserveComments(NormalizePreserveComments(level).value) == NormalizePreserveComments(level)
  {
  }

  /** The package's entry after the in-place defaulting `Config.PackageConfig` does. */
  function NormalizeEntry(pc: PackageConfig): (r: Result<PackageConfig>)
    ensures r.Ok? <==> NormalizeFlavor(pc.flavor).Ok? && NormalizePreserveComments(pc.preserveComments).Ok?
    ensures r.Ok? ==> r.value.indent == (if pc.indent == "" then "  " else pc.indent)
    ensures r.Ok? ==> r.value.flavor in {"default", "yaml"}
    ensures r.Ok? ==> r.value.preserveComments in {"default", "types", "none"}
    ensures r.Ok? ==> r.value.flavor == NormalizeFlavor(pc.flavor).value
                      && r.value.preserveComments == NormalizePreserveComments(pc.preserveComments).value
    ensures r.Ok? ==> r.value.path == pc.path && r.value.typeMappings == pc.typeMappings
                      && r.value.fallbackType == pc.fallbackType && r.value.enumStyle == pc.enumStyle
                      && r.value.optionalType == pc.optionalType && r.value.extendsClause == pc.extendsClause
                      && r.value.outputPath == pc.outputPath && r.value.excludeFiles == pc.excludeFiles
                      && r.value.includeFiles == pc.includeFiles && r.value.frontmatter == pc.frontmatter
                      && r.value.allowedUnexportedFields == pc.allowedUnexportedFields
  {
    var indent := if pc.indent == "" then "  " else pc.indent;
    var flavor :- NormalizeFlavor(pc.flavor);
    var level :- NormalizePreserveComments(pc.preserveComments);
    Ok(pc.(indent := indent, flavor := flavor, preserveComments := level))
  }

  /** `i` is the first entry of `packages` configured for `packagePath`. */
  predicate IsFirstEntryFor(packages: seq<PackageConfig>, packagePath: string, i: int) {
    && 0 <= i < |packages|
    && packages[i].path == packagePath
    && forall j :: 0 <= j < i ==> packages[j].path != packagePath
  }

  /** `Config.PackageConfig(path)`: the first entry for the package, normalised; a
      missing entry or an unsupported setting aborts the run. */
  function LookupPackageConfig(packages: seq<PackageConfig>, packagePath: string): (r: Result<PackageConfig>)
    ensures r.Ok? ==> (exists i :: IsFirstEntryFor(packages, packagePath, i) && NormalizeEntry(packages[i]) == r)
    ensures forall i :: IsFirstEntryFor(packages, packagePath, i) ==> r == NormalizeEntry(packages[i])
    ensures (forall i :: 0 <= i < |packages| ==> packages[i].path != packagePath) ==> r.Fail?
  {
    if |packages| == 0 then Fail("Config not found for package " + packagePath)
    else if packages[0].path == packagePath then
      assert IsFirstEntryFor(packages, packagePath, 0);
      NormalizeEntry(packages[0])
    else
      var r := LookupPackageConfig(packages[1..], packagePath);
      forall i | IsFirstEntryFor(packages, packagePath, i)
        ensures r == NormalizeEntry(packages[i])
      {
        FirstEntryUnshift(packages, packagePath, i);
      }
      assert r.Ok? ==> (exists i :: IsFirstEntryFor(packages, packagePath, i) && NormalizeEntry(packages[i]) == r) by {
        if r.Ok? {
          var i :| IsFirstEntryFor(packages[1..], packagePath, i) && NormalizeEntry(packages[1..][i]) == r;
          FirstEntryShift(packages, packagePath, i);
        }
      }
      r
  }

  /** The first entry in the tail is the first entry overall when the head does not match. */
  lemma FirstEntryShift(packages: seq<PackageConfig>, packagePath: string, i: int)
    requires |packages| > 0 && packages[0].path != packagePath
    requires IsFirstEntryFor(packages[1..], packagePath, i)
    ensures IsFirstEntryFor(packages, packagePath, i + 1) && packages[i + 1] == packages[1..][i]
  {
    forall j | 1 <= j < i + 1 ensures packages[j].path != packagePath {
      assert packages[j] == packages[1..][j - 1];
    }
  }

  /** The first entry overall is the first entry in the tail when the head does not match. */
  lemma FirstEntryUnshift(packages: seq<PackageConfig>, packagePath: string, i: int)
    requires |packages| > 0 && packages[0].path != packagePath
    requires IsFirstEntryFor(packages, packagePath, i)
    ensures i >= 1 && IsFirstEntryFor(packages[1..], packagePath, i - 1) && packages[1..][i - 1] == packages[i]
  {
    forall j | 0 <= j < i - 1 ensures packages[1..][j].path != packagePath {
      assert packages[1..][j] == packages[j + 1];
    }
  }

  /** A looked-up configuration is already normal: looking it up again returns it unchanged. */
  lemma LookupIsIdempotent(packages: seq<PackageConfig>, packagePath: string)
    requires LookupPackageConfig(packages, packagePath).Ok?
    ensures LookupPackageConfig([LookupPackageConfig(packages, packagePath).value], packagePath)
            == LookupPackageConfig(packages, packagePath)
  {
    var pc := LookupPackageConfig(packages, packagePath).value;
    assert NormalizeEntry(pc) == Ok(pc);
  }

  /** The file-name filter: an excluded base name is always ignored; a non-empty
      include list admits only the names it lists. */
  function IsFileIgnored(conf: PackageConfig, pathToFile: string): (r: bool)
    ensures r <==> Base(pathToFile) in conf.excludeFiles
                   || (|conf.includeFiles| > 0 && Base(pathToFile) !in conf.includeFiles)
  {
    var basename := Base(pathToFile);
    if ListContains(conf.excludeFiles, basename) then true
    else if |conf.includeFiles| > 0 then !ListContains(conf.includeFiles, basename)
    else false
  }

  /** The `for ... range` loop comparing `basename` with each listed name. */
  function ListContains(names: seq<string>, basename: string): (r: bool)
    ensures r <==> basename in names
  {
    if |names| == 0 then false
    else if names[0] == basename then true
    else ListContains(names[1..], basename)
  }

  /** An excluded file stays ignored whatever the include list says. */
  lemma ExcludeWinsOverInclude(conf: PackageConfig, pathToFile: string)
    requires Base(pathToFile) in conf.excludeFiles
    ensures IsFileIgnored(conf, pathToFile)
    ensures IsFileIgnored(conf.(includeFiles := conf.includeFiles + [Base(pathToFile)]), pathToFile)
  {
  }

  /** Where the package's TypeScript is written: `index.ts` inside the package directory
      or inside `OutputPath`, unless `OutputPath` already names a `.ts` file. */
  function ResolvedOutputPath(conf: PackageConfig, packageDir: string): (r: string)
    ensures EndsWith(r, ".ts")
    ensures EndsWith(conf.outputPath, ".ts") ==> r == conf.outputPath
    ensures conf.outputPath == "" ==> EndsWith(r, "/" + DefaultOutputFilename) || r == DefaultOutputFilename
    ensures conf.outputPath == "" ==> r == JoinPath(packageDir, DefaultOutputFilename)
    ensures conf.outputPath != "" && !EndsWith(conf.outputPath, ".ts") ==> r == JoinPath(conf.outputPath, DefaultOutputFilename)
  {
    if conf.outputPath == "" then
      IndexFileUnder(packageDir)
    else if !EndsWith(conf.outputPath, ".ts") then
      IndexFileUnder(conf.outputPath)
    else conf.outputPath
  }

  /** A resolved output path is final: configuring it as the output path resolves
      to itself, whatever the package directory. */
  lemma ResolvedPathIsFixed(conf: PackageConfig, packageDir: string, otherDir: string)
    ensures var r := ResolvedOutputPath(conf, packageDir);
      ResolvedOutputPath(conf.(outputPath := r), otherDir) == r
  {
    var r := ResolvedOutputPath(conf, packageDir);
    assert EndsWith(r, ".ts");
    assert r != "" by { assert |r| >= 3; }
  }

  /** `filepath.Join(dir, "index.ts")`. */
  function IndexFileUnder(dir: string): (r: string)
    ensures EndsWith(r, ".ts")
    ensures EndsWith(r, "/" + DefaultOutputFilename) || r == DefaultOutputFilename
  {
    DefaultNameIsPlain();
    JoinPathEndsWithName(dir, DefaultOutputFilename);
    EndsWithTrans(JoinPath(dir, DefaultOutputFilename), DefaultOutputFilename, ".ts");
    JoinPathSlashBeforeName(dir, DefaultOutputFilename);
    JoinPath(dir, DefaultOutputFilename)
  }

  lemma DefaultNameIsPlain()
    ensures DefaultOutputFilename != "" && DefaultOutputFilename != "." && DefaultOutputFilename != ".."
    ensures forall k :: 0 <= k < |DefaultOutputFilename| ==> DefaultOutputFilename[k] != '/'
    ensures EndsWith(DefaultOutputFilename, ".ts")
  {
    assert DefaultOutputFilename[5..] == ".ts";
  }
}

=== FILE: embedding.dfy ===
/** Embedded struct fields: the name an anonymous field is emitted under, and the
    base type an embedded field marked `tstype:",extends"` contributes to an
    interface's `extends` clause. */
module Embedding {
  import opened Results
  import opened Text
  import opened GoAst
  import opened Idents

  /** Every identifier the parser resolved to a local type declaration names that
      declaration. */
  predicate WellResolved(e: Expr) {
    match e
    case Ident(name, obj) => obj.Some? && obj.value.TypeDecl? ==> obj.value.declName == name
    case Index(x, _) => WellResolved(x)
    case IndexList(x, _) => WellResolved(x)
    case Star(x) => WellResolved(x)
    case _ => true
  }

  /** `getAnonymousFieldName`: the name an embedded field is known by, and whether
      it is usable (exported). Pointers and generic instantiations are looked
      through; every other node kind gives no name. */
  function GetAnonymousFieldName(e: Expr): (r: (string, bool))
    ensures e.Ident? ==> r.0 == e.name
    ensures e.Selector? ==> r == (e.sel, IsExported(e.sel))
    ensures !(e.Ident? || e.Selector? || e.Star? || e.Index? || e.IndexList?) ==> r == ("", false)
  {
    match e
    case Ident(name, obj) =>
      if obj.Some? then (name, obj.value.TypeDecl? && IsExported(obj.value.declName))
      else (name, IsExported(name))
    case Index(x, _) => GetAnonymousFieldName(x)
    case IndexList(x, _) => GetAnonymousFieldName(x)
    case Selector(_, sel) => (sel, IsExported(sel))
    case Star(x) => GetAnonymousFieldName(x)
    case _ => ("", false)
  }

  /** A usable anonymous name is an exported one, so it passes the struct writer's
      exported-name filter. */
  lemma {:induction false} AnonymousNameExported(e: Expr)
    requires WellResolved(e)
    ensures GetAnonymousFieldName(e).1 ==> IsExported(GetAnonymousFieldName(e).0)
  {
    match e
    case Index(x, _) => AnonymousNameExported(x);
    case IndexList(x, _) => AnonymousNameExported(x);
    case Star(x) => AnonymousNameExported(x);
    case _ =>
  }

  /** The type arguments of an inherited generic base, each followed by ", " as the
      loop builds them; a non-identifier argument aborts the run. */
  function GenericArgs(indices: seq<Expr>): (r: Result<string>)
    ensures r.Ok? <==> forall i :: 0 <= i < |indices| ==> indices[i].Ident?
  {
    if |indices| == 0 then Ok("")
    else if !indices[0].Ident? then Fail("interface conversion: ast.Expr is not *ast.Ident")
    else
      var rest :- GenericArgs(indices[1..]);
      assert forall i :: 1 <= i < |indices| ==> indices[i] == indices[1..][i - 1];
      Ok(GetIdent(indices[0].name) + ", " + rest)
  }

  /** The mapped names of identifier arguments. */
  function ArgNames(indices: seq<Expr>): seq<string>
    requires forall i :: 0 <= i < |indices| ==> indices[i].Ident?
  {
    if |indices| == 0 then [] else [GetIdent(indices[0].name)] + ArgNames(indices[1..])
  }

  /** Dropping the last ", " of the argument text gives the arguments joined by ", ". */
  lemma {:induction false} GenericArgsJoin(indices: seq<Expr>)
    requires |indices| > 0
    requires forall i :: 0 <= i < |indices| ==> indices[i].Ident?
    ensures var a := GenericArgs(indices).value;
      |a| >= 2 && a[..|a| - 2] == Join(ArgNames(indices), ", ")
  {
    var a := GenericArgs(indices).value;
    var n := GetIdent(indices[0].name);
    if |indices| == 1 {
      assert GenericArgs(indices[1..]) == Ok("");
      assert a == n + ", ";
      assert a[..|a| - 2] == n;
    } else {
      GenericArgsJoin(indices[1..]);
      var rest := GenericArgs(indices[1..]).value;
      assert a == n + ", " + rest;
      assert a[..|a| - 2] == n + ", " + rest[..|rest| - 2];
    }
  }

  /** `getInheritedType`: the base type an embedded `extends` field names, and
      whether it can be extended. A resolved local type must be an exported struct;
      a pointer that is not `required` becomes `Partial<...>`; a generic base keeps
      its (identifier) type arguments. Other node kinds give no base. */
  function GetInheritedType(e: Expr, tag: TagEntry): (r: Result<(string, bool)>)
    ensures e.Selector? ==> r == Ok((e.pkg + "." + e.sel, IsExported(e.sel)))
    ensures e.Ident? && e.obj.None? ==> r == Ok((e.name, IsExported(e.name)))
    ensures e.Ident? && e.obj.Some? && e.obj.value.TypeDecl? ==>
      r == Ok((e.obj.value.declName, e.obj.value.isStruct && IsExported(e.obj.value.declName)))
    ensures !(e.Ident? || e.Selector? || e.Star? || e.Index? || e.IndexList?) ==> r == Ok(("", false))
  {
    match e
    case Ident(name, obj) =>
      if obj.None? then Ok((name, IsExported(name)))
      else if obj.value.TypeDecl? then
        Ok((obj.value.declName, obj.value.isStruct && IsExported(obj.value.declName)))
      else Ok(("", false))
    case Index(x, index) =>
      var base :- GetInheritedType(x, tag);
      if !base.1 then Ok(base)
      else if !index.Ident? then Fail("interface conversion: ast.Expr is not *ast.Ident")
      else Ok((base.0 + "<" + GetIdent(index.name) + ">", true))
    case IndexList(x, indices) =>
      var base :- GetInheritedType(x, tag);
      if !base.1 then Ok(base)
      else
        var generic :- GenericArgs(indices);
        if |generic| < 2 then Fail("slice bounds out of range")
        else Ok((base.0 + "<" + generic[..|generic| - 2] + ">", true))
    case Selector(pkg, sel) => Ok((pkg + "." + sel, IsExported(sel)))
    case Star(x) =>
      var base :- GetInheritedType(x, tag);
      if base.1 && !HasOption(tag, "required") then Ok(("Partial<" + base.0 + ">", true))
      else Ok(base)
    case _ => Ok(("", false))
  }

  /** An embedded pointer base is optional unless tagged `required`: it is wrapped in
      `Partial<...>` exactly then, and is otherwise the pointee's base. */
  lemma PointerBase(x: Expr, tag: TagEntry)
    requires GetInheritedType(x, tag).Ok? && GetInheritedType(x, tag).value.1
    ensures !HasOption(tag, "required") ==>
      GetInheritedType(Star(x), tag) == Ok(("Partial<" + GetInheritedType(x, tag).value.0 + ">", true))
    ensures HasOption(tag, "required") ==> GetInheritedType(Star(x), tag) == GetInheritedType(x, tag)
  {
  }

  /** A generic base with identifier arguments lists them joined by ", ". */
  lemma GenericBase(x: Expr, indices: seq<Expr>, tag: TagEntry)
    requires GetInheritedType(x, tag).Ok? && GetInheritedType(x, tag).value.1
    requires |indices| > 0 && forall i :: 0 <= i < |indices| ==> indices[i].Ident?
    ensures GetInheritedType(IndexList(x, indices), tag)
            == Ok((GetInheritedType(x, tag).value.0 + "<" + Join(ArgNames(indices), ", ") + ">", true))
  {
    GenericArgsJoin(indices);
  }

  /** Every base that can be extended could also be embedded as a usable field. */
  lemma {:induction false} InheritedIsUsableField(e: Expr, tag: TagEntry)
    requires WellResolved(e)
    requires GetInheritedType(e, tag).Ok? && GetInheritedType(e, tag).value.1
    ensures GetAnonymousFieldName(e).1
  {
    match e
    case Index(x, _) => InheritedIsUsableField(x, tag);
    case IndexList(x, _) => InheritedIsUsableField(x, tag);
    case Star(x) => InheritedIsUsableField(x, tag);
    case _ =>
  }
}

=== FILE: enums.dfy ===
/** Enum and union synthesis for `const` groups: recognising a group of constants
    that share a type-name prefix, and writing it as a TypeScript `enum` or as a
    union of `typeof` references. */
module Enums {
  import opened Results
  import opened Text
  import opened GoAst
  import opened Config
  import opened Generator
  import opened Iota
  import opened Comments
  import opened TypeWriter

  /** `enumGroup`: the type name, the prefix stripped from member names, the member
      specs and their positions in the declaration, and the group's doc comment. */
  datatype EnumGroup = EnumGroup(
    typeName: string,
    typePrefix: string,
    constants: seq<ValueSpec>,
    indices: seq<nat>,
    doc: Option<CommentGroup>)

  /** A name the first pass accepts: exported and not the blank identifier. */
  predicate IsCandidateName(n: string) {
    IsExported(n) && n != "_"
  }

  /** The first acceptable name of a spec; only this name is considered. */
  function CandidateName(names: seq<string>): (r: Option<string>)
    ensures r.None? <==> forall i :: 0 <= i < |names| ==> !IsCandidateName(names[i])
    ensures r.Some? ==> exists i :: 0 <= i < |names| && names[i] == r.value && IsCandidateName(names[i])
                                    && forall k :: 0 <= k < i ==> !IsCandidateName(names[k])
  {
    if |names| == 0 then None
    else if IsCandidateName(names[0]) then Some(names[0])
    else
      var r := CandidateName(names[1..]);
      assert forall k :: 1 <= k < |names| ==> names[k] == names[1..][k - 1];
      if r.Some? then
        var i :| 0 <= i < |names[1..]| && names[1..][i] == r.value && IsCandidateName(names[1..][i])
                 && forall k :: 0 <= k < i ==> !IsCandidateName(names[1..][k]);
        assert names[i + 1] == r.value;
        r
      else r
  }

  /** The spec at position `i` is a candidate: a value spec with an acceptable name. */
  predicate IsCandidateSpec(specs: seq<Spec>, i: int) {
    0 <= i < |specs| && specs[i].ValueS? && |specs[i].v.names| > 0 && CandidateName(specs[i].v.names).Some?
  }

  predicate StrictlyIncreasing(xs: seq<nat>) {
    forall a, b :: 0 <= a < b < |xs| ==> xs[a] < xs[b]
  }

  /** The positions of the candidate specs from position `i` on, in order. */
  function Candidates(specs: seq<Spec>, i: nat): (r: seq<nat>)
    requires i <= |specs|
    ensures forall k :: 0 <= k < |r| ==> i <= r[k] && IsCandidateSpec(specs, r[k])
    ensures forall j :: i <= j < |specs| && IsCandidateSpec(specs, j) ==> j in r
    ensures StrictlyIncreasing(r)
    decreases |specs| - i
  {
    if i == |specs| then []
    else if IsCandidateSpec(specs, i) then [i] + Candidates(specs, i + 1)
    else Candidates(specs, i + 1)
  }

  /** The name of an explicit identifier type, or "" for none or another type form. */
  function ExplicitTypeName(vs: ValueSpec): string {
    if vs.typ.Some? && vs.typ.value.Ident? then vs.typ.value.name else ""
  }

  /** The first candidate with an explicit type sets the pattern: that type, and as
      prefix the type name when the candidate's name starts with it (else ""). */
  function Pattern(specs: seq<Spec>, cands: seq<nat>): (string, string)
    requires forall k :: 0 <= k < |cands| ==> IsCandidateSpec(specs, cands[k])
  {
    if |cands| == 0 then ("", "")
    else
      assert IsCandidateSpec(specs, cands[0]);
      var vs := specs[cands[0]].v;
      var typeName := ExplicitTypeName(vs);
      if typeName != "" then
        (typeName, if StartsWith(CandidateName(vs.names).value, typeName) then typeName else "")
      else Pattern(specs, cands[1..])
  }

  /** A prefix set by the pattern starts with an upper-case letter: it starts the
      exported name of a candidate. */
  lemma {:induction false} PatternPrefixExported(specs: seq<Spec>, cands: seq<nat>)
    requires forall k :: 0 <= k < |cands| ==> IsCandidateSpec(specs, cands[k])
    ensures Pattern(specs, cands).1 != "" ==> IsUpperAscii(Pattern(specs, cands).1[0])
    ensures Pattern(specs, cands).1 != "" ==> Pattern(specs, cands).1 == Pattern(specs, cands).0
  {
    if |cands| > 0 {
      var vs := specs[cands[0]].v;
      var typeName := ExplicitTypeName(vs);
      if typeName == "" {
        PatternPrefixExported(specs, cands[1..]);
      } else {
        var n := CandidateName(vs.names).value;
        assert IsExported(n);
        if StartsWith(n, typeName) {
          assert n[0] == n[..|typeName|][0];
        }
      }
    }
  }

  /** The first names of the candidate specs. */
  function FirstNames(specs: seq<Spec>, cands: seq<nat>): (r: seq<string>)
    requires forall k :: 0 <= k < |cands| ==> IsCandidateSpec(specs, cands[k])
    ensures |r| == |cands|
    ensures forall k :: 0 <= k < |r| ==> IsCandidateSpec(specs, cands[k]) && r[k] == specs[cands[k]].v.names[0]
  {
    if |cands| == 0 then []
    else
      assert IsCandidateSpec(specs, cands[0]);
      var n := CandidateName(specs[cands[0]].v.names);
      [specs[cands[0]].v.names[0]] + FirstNames(specs, cands[1..])
  }

  // ----- findCommonPrefix -----

  /** The first `k` characters of `first` could name the enum type: they start with
      an upper-case letter and begin every other name. */
  predicate Admissible(first: string, others: seq<string>, k: int) {
    && 1 <= k <= |first|
    && IsUpperAscii(first[0])
    && forall i :: 0 <= i < |others| ==> StartsWith(others[i], first[..k])
  }

  /** The longest-first search over prefix lengths `k`, `k - 1`, ..., 1. */
  function PrefixSearch(first: string, others: seq<string>, k: nat): (r: string)
    requires k <= |first|
    ensures r != "" ==> Admissible(first, others, |r|) && r == first[..|r|]
    ensures r == "" ==> forall j :: 1 <= j <= k ==> !Admissible(first, others, j)
    ensures forall j :: |r| < j <= k ==> !Admissible(first, others, j)
    decreases k
  {
    if k == 0 then ""
    else
      var candidate := first[..k];
      if !IsUpperAscii(candidate[0]) then PrefixSearch(first, others, k - 1)
      else if forall i :: 0 <= i < |others| ==> StartsWith(others[i], candidate) then candidate
      else PrefixSearch(first, others, k - 1)
  }

  /** `findCommonPrefix`: the longest prefix of the first name that starts with an
      upper-case letter and begins every other name, or "" when there is none. */
  function FindCommonPrefix(names: seq<string>): (r: string)
    ensures |names| == 0 ==> r == ""
    ensures |names| > 0 && r != "" ==> Admissible(names[0], names[1..], |r|) && r == names[0][..|r|]
    ensures |names| > 0 ==> forall k :: |r| < k <= |names[0]| ==> !Admissible(names[0], names[1..], k)
  {
    if |names| == 0 then "" else PrefixSearch(names[0], names[1..], |names[0]|)
  }

  /** Every name starts with the common prefix, which starts with an upper-case
      letter. */
  lemma CommonPrefixOfAll(names: seq<string>)
    requires |names| > 0 && FindCommonPrefix(names) != ""
    ensures var p := FindCommonPrefix(names);
      IsUpperAscii(p[0]) && forall i :: 0 <= i < |names| ==> StartsWith(names[i], p)
  {
    var p := FindCommonPrefix(names);
    forall i | 0 <= i < |names|
      ensures StartsWith(names[i], p)
    {
      if i > 0 {
        assert names[i] == names[1..][i - 1];
      }
    }
  }

  // ----- detectEnumGroup -----

  /** The positions of `xs` that satisfy `keep`, in order. */
  function Filter(xs: seq<nat>, keep: nat -> bool): (r: seq<nat>)
    ensures forall k :: 0 <= k < |r| ==> r[k] in xs && keep(r[k])
    ensures forall k :: 0 <= k < |xs| && keep(xs[k]) ==> xs[k] in r
  {
    if |xs| == 0 then [] else (if keep(xs[0]) then [xs[0]] else []) + Filter(xs[1..], keep)
  }

  /** Filtering never lengthens. */
  lemma {:induction false} FilterShorter(xs: seq<nat>, keep: nat -> bool)
    ensures |Filter(xs, keep)| <= |xs|
  {
    if |xs| > 0 {
      FilterShorter(xs[1..], keep);
    }
  }

  /** Filtering with a test every element passes keeps everything. */
  lemma {:induction false} FilterAll(xs: seq<nat>, keep: nat -> bool)
    requires forall k :: 0 <= k < |xs| ==> keep(xs[k])
    ensures Filter(xs, keep) == xs
  {
    if |xs| > 0 {
      assert keep(xs[0]);
      FilterAll(xs[1..], keep);
      assert [xs[0]] + xs[1..] == xs;
    }
  }

  /** Filtering keeps positions in increasing order. */
  lemma {:induction false} FilterIncreasing(xs: seq<nat>, keep: nat -> bool)
    requires StrictlyIncreasing(xs)
    ensures StrictlyIncreasing(Filter(xs, keep))
  {
    if |xs| > 0 {
      var rest := Filter(xs[1..], keep);
      FilterIncreasing(xs[1..], keep);
      FilterAbove(xs, keep);
      if keep(xs[0]) {
        assert Filter(xs, keep) == [xs[0]] + rest;
        ConsIncreasing(xs[0], rest);
      } else {
        assert Filter(xs, keep) == rest;
      }
    }
  }

  /** What filtering keeps after the head of an increasing sequence lies above it. */
  lemma FilterAbove(xs: seq<nat>, keep: nat -> bool)
    requires |xs| > 0 && StrictlyIncreasing(xs)
    ensures forall k :: 0 <= k < |Filter(xs[1..], keep)| ==> xs[0] < Filter(xs[1..], keep)[k]
  {
    var rest := Filter(xs[1..], keep);
    forall k | 0 <= k < |rest|
      ensures xs[0] < rest[k]
    {
      var j :| 0 <= j < |xs[1..]| && xs[1..][j] == rest[k];
      assert xs[j + 1] == rest[k];
    }
  }

  /** An element below every element of an increasing sequence extends it. */
  lemma ConsIncreasing(x: nat, rest: seq<nat>)
    requires StrictlyIncreasing(rest)
    requires forall k :: 0 <= k < |rest| ==> x < rest[k]
    ensures StrictlyIncreasing([x] + rest)
  {
    forall a, b | 0 <= a < b < |rest| + 1
      ensures ([x] + rest)[a] < ([x] + rest)[b]
    {
      assert ([x] + rest)[b] == rest[b - 1];
      if a > 0 {
        assert ([x] + rest)[a] == rest[a - 1];
      }
    }
  }

  /** Spec `j` is a candidate whose first name starts with `prefix` and whose declared
      type, if any, is `typeName`. */
  predicate FitsGroup(specs: seq<Spec>, j: nat, prefix: string, typeName: string) {
    && IsCandidateSpec(specs, j)
    && StartsWith(specs[j].v.names[0], prefix)
    && (ExplicitTypeName(specs[j].v) == "" || ExplicitTypeName(specs[j].v) == typeName)
  }

  /** The candidates whose first name starts with the prefix and whose explicit type,
      if any, is the common type. */
  function Matching(specs: seq<Spec>, cands: seq<nat>, prefix: string, typeName: string): (r: seq<nat>)
    ensures forall k :: 0 <= k < |r| ==> r[k] in cands && FitsGroup(specs, r[k], prefix, typeName)
    ensures forall k :: 0 <= k < |cands| && FitsGroup(specs, cands[k], prefix, typeName) ==> cands[k] in r
  {
    Filter(cands, (j: nat) => FitsGroup(specs, j, prefix, typeName))
  }

  /** No more positions match than there are candidates. */
  lemma MatchingShorter(specs: seq<Spec>, cands: seq<nat>, prefix: string, typeName: string)
    ensures |Matching(specs, cands, prefix, typeName)| <= |cands|
  {
    FilterShorter(cands, (j: nat) => FitsGroup(specs, j, prefix, typeName));
  }

  /** When every candidate fits, every candidate matches. */
  lemma MatchingAll(specs: seq<Spec>, cands: seq<nat>, prefix: string, typeName: string)
    requires forall k :: 0 <= k < |cands| ==> FitsGroup(specs, cands[k], prefix, typeName)
    ensures Matching(specs, cands, prefix, typeName) == cands
  {
    FilterAll(cands, (j: nat) => FitsGroup(specs, j, prefix, typeName));
  }

  /** `eg` is a group of constants of `decl`: at least two, in declaration order,
      each the value spec at its recorded position, each starting with a non-empty
      prefix that starts with an upper-case letter, and each either untyped or of
      the group's type. */
  predicate GroupOf(decl: GenDecl, eg: EnumGroup) {
    && |eg.constants| >= 2
    && |eg.indices| == |eg.constants|
    && StrictlyIncreasing(eg.indices)
    && eg.typePrefix != "" && IsUpperAscii(eg.typePrefix[0])
    && eg.doc == decl.doc
    && forall k :: 0 <= k < |eg.constants| ==>
         && eg.indices[k] < |decl.specs|
         && decl.specs[eg.indices[k]] == ValueS(eg.constants[k])
         && |eg.constants[k].names| > 0
         && StartsWith(eg.constants[k].names[0], eg.typePrefix)
         && (ExplicitTypeName(eg.constants[k]) == "" || ExplicitTypeName(eg.constants[k]) == eg.typeName)
  }

  /** The type name and prefix a group is detected under: the pattern the first
      typed candidate sets, when it yields a prefix; otherwise the common prefix of
      the candidates' first names, as both. */
  function GroupKey(specs: seq<Spec>): (r: (string, string))
    ensures r.1 != "" ==> r.0 == r.1 && IsUpperAscii(r.1[0])
  {
    var cands := Candidates(specs, 0);
    var pattern := Pattern(specs, cands);
    PatternPrefixExported(specs, cands);
    if pattern.0 == "" || pattern.1 == "" then
      var p := FindCommonPrefix(FirstNames(specs, cands));
      assert p != "" ==> p[0] == FirstNames(specs, cands)[0][0];
      (p, p)
    else pattern
  }

  /** `detectEnumGroup`: a `const` declaration of at least two specs, under the
      `enum` or `union` style, whose candidates share a type-name prefix. The group
      holds every candidate that fits the prefix and type, and it is found whenever
      at least two do. */
  function DetectEnumGroup(g: PackageGenerator, decl: GenDecl): (r: Option<EnumGroup>)
    ensures decl.tok != ConstTok || |decl.specs| < 2 ==> r.None?
    ensures g.conf.enumStyle != "enum" && g.conf.enumStyle != "union" ==> r.None?
    ensures |Candidates(decl.specs, 0)| < 2 ==> r.None?
    ensures r.Some? ==> GroupOf(decl, r.value)
    ensures r.Some? ==> (r.value.typeName, r.value.typePrefix) == GroupKey(decl.specs)
    ensures r.Some? ==> r.value.typeName == r.value.typePrefix
    ensures r.Some? ==>
      r.value.indices == Matching(decl.specs, Candidates(decl.specs, 0), GroupKey(decl.specs).1, GroupKey(decl.specs).0)
    ensures && decl.tok == ConstTok && |decl.specs| >= 2
            && (g.conf.enumStyle == "enum" || g.conf.enumStyle == "union")
            && GroupKey(decl.specs).1 != ""
            && |Matching(decl.specs, Candidates(decl.specs, 0), GroupKey(decl.specs).1, GroupKey(decl.specs).0)| >= 2
            ==> r.Some?
  {
    if decl.tok != ConstTok || |decl.specs| < 2 then None
    else if g.conf.enumStyle != "enum" && g.conf.enumStyle != "union" then None
    else
      var cands := Candidates(decl.specs, 0);
      if |cands| < 2 then
        MatchingShorter(decl.specs, cands, GroupKey(decl.specs).1, GroupKey(decl.specs).0);
        None
      else
        var common := GroupKey(decl.specs);
        if common.1 == "" then None
        else
          var valid := Matching(decl.specs, cands, common.1, common.0);
          FilterIncreasing(cands, (j: nat) => FitsGroup(decl.specs, j, common.1, common.0));
          if |valid| < 2 then None
          else
            var constants := seq(|valid|, k requires 0 <= k < |valid| => decl.specs[valid[k]].v);
            Some(EnumGroup(common.0, common.1, constants, valid, decl.doc))
  }

  /** A `const` declaration whose specs are all untyped, each named first by an
      exported name, and whose names share a prefix starting with an upper-case
      letter is an enum group of all its specs under that prefix. */
  lemma UntypedConstantsFormGroup(g: PackageGenerator, decl: GenDecl, names: seq<string>)
    requires decl.tok == ConstTok && |decl.specs| >= 2
    requires g.conf.enumStyle == "enum" || g.conf.enumStyle == "union"
    requires |names| == |decl.specs|
    requires forall k :: 0 <= k < |decl.specs| ==>
      && decl.specs[k].ValueS? && |decl.specs[k].v.names| > 0 && decl.specs[k].v.names[0] == names[k]
      && IsCandidateName(names[k]) && ExplicitTypeName(decl.specs[k].v) == ""
    requires FindCommonPrefix(names) != ""
    ensures var r := DetectEnumGroup(g, decl);
      && r.Some?
      && r.value.typePrefix == FindCommonPrefix(names)
      && |r.value.indices| == |decl.specs|
      && forall k :: 0 <= k < |decl.specs| ==> r.value.indices[k] == k
  {
    var specs := decl.specs;
    var p := FindCommonPrefix(names);
    var cands := UntypedKey(specs, names);
    CommonPrefixOfAll(names);
    forall k | 0 <= k < |cands|
      ensures FitsGroup(specs, cands[k], p, p)
    {
      assert cands[k] == k;
    }
    MatchingAll(specs, cands, p, p);
  }

  /** For such specs every position is a candidate, and the key is the common prefix
      of the names. */
  lemma UntypedKey(specs: seq<Spec>, names: seq<string>) returns (cands: seq<nat>)
    requires |names| == |specs|
    requires forall k :: 0 <= k < |specs| ==>
      && specs[k].ValueS? && |specs[k].v.names| > 0 && specs[k].v.names[0] == names[k]
      && IsCandidateName(names[k]) && ExplicitTypeName(specs[k].v) == ""
    ensures cands == Candidates(specs, 0)
    ensures |cands| == |specs| && forall k :: 0 <= k < |cands| ==> cands[k] == k
    ensures GroupKey(specs) == (FindCommonPrefix(names), FindCommonPrefix(names))
  {
    EveryCandidate(specs, names);
    AllCandidates(specs, 0);
    cands := Candidates(specs, 0);
    UntypedPattern(specs, cands);
    FirstNamesInOrder(specs, cands, names);
  }

  lemma EveryCandidate(specs: seq<Spec>, names: seq<string>)
    requires |names| == |specs|
    requires forall k :: 0 <= k < |specs| ==>
      && specs[k].ValueS? && |specs[k].v.names| > 0 && specs[k].v.names[0] == names[k]
      && IsCandidateName(names[k])
    ensures forall k :: 0 <= k < |specs| ==> IsCandidateSpec(specs, k)
  {
    forall k | 0 <= k < |specs|
      ensures IsCandidateSpec(specs, k)
    {
      assert specs[k].v.names[0] == names[k];
      assert CandidateName(specs[k].v.names).Some?;
    }
  }

  /** When every position is a candidate, the first names are the names in order. */
  lemma FirstNamesInOrder(specs: seq<Spec>, cands: seq<nat>, names: seq<string>)
    requires |names| == |specs| && cands == Upto(0, |specs|)
    requires forall k :: 0 <= k < |specs| ==> IsCandidateSpec(specs, k) && specs[k].v.names[0] == names[k]
    ensures FirstNames(specs, cands) == names
  {
    var firsts := FirstNames(specs, cands);
    assert forall k :: 0 <= k < |firsts| ==> firsts[k] == names[k];
  }

  /** The positions `lo`, `lo + 1`, ..., `hi - 1`. */
  function Upto(lo: nat, hi: nat): (r: seq<nat>)
    requires lo <= hi
    ensures |r| == hi - lo
    ensures forall k :: 0 <= k < |r| ==> r[k] == lo + k
    decreases hi - lo
  {
    if lo == hi then [] else [lo] + Upto(lo + 1, hi)
  }

  /** When every spec from `i` on is a candidate, the candidates are exactly those
      positions. */
  lemma {:induction false} AllCandidates(specs: seq<Spec>, i: nat)
    requires i <= |specs|
    requires forall k :: i <= k < |specs| ==> IsCandidateSpec(specs, k)
    ensures Candidates(specs, i) == Upto(i, |specs|)
    decreases |specs| - i
  {
    if i < |specs| {
      AllCandidates(specs, i + 1);
      CandidateKept(specs, i);
      assert Upto(i, |specs|) == [i] + Upto(i + 1, |specs|);
    } else {
      assert Candidates(specs, i) == [];
    }
  }

  /** A candidate position opens the candidates from it. */
  lemma CandidateKept(specs: seq<Spec>, i: nat)
    requires i < |specs| && IsCandidateSpec(specs, i)
    ensures Candidates(specs, i) == [i] + Candidates(specs, i + 1)
  {
  }

  /** Without an explicitly typed candidate there is no pattern. */
  lemma {:induction false} UntypedPattern(specs: seq<Spec>, cands: seq<nat>)
    requires forall k :: 0 <= k < |cands| ==>
      IsCandidateSpec(specs, cands[k]) && ExplicitTypeName(specs[cands[k]].v) == ""
    ensures Pattern(specs, cands) == ("", "")
  {
    if |cands| > 0 {
      UntypedPattern(specs, cands[1..]);
    }
  }

  /** Every member of a detected group has an exported first name, so neither writer
      ever skips one. */
  lemma MembersExported(decl: GenDecl, eg: EnumGroup)
    requires GroupOf(decl, eg)
    ensures forall k :: 0 <= k < |eg.constants| ==> IsExported(eg.constants[k].names[0])
  {
    forall k | 0 <= k < |eg.constants|
      ensures IsExported(eg.constants[k].names[0])
    {
      var n := eg.constants[k].names[0];
      assert n[..|eg.typePrefix|][0] == n[0];
    }
  }

  // ----- writeTypeScriptEnum -----

  /** How the constant writers turn values, types and comments into text: `render`
      is `writeType` at depth 0 without parent operator or pointer parentheses (used
      for values), `annotate` the same with pointer parentheses (used for a declared
      type), `isIota` the iota recogniser, `doc` the doc comment above a constant at a
      depth and `lineEnd` the end of its line. The loops over constants take them as a
      parameter, so their lemmas hold for any such writers. */
  datatype ValueWriting = ValueWriting(
    render: Expr -> Result<string>,
    annotate: Expr -> Result<string>,
    isIota: string -> bool,
    doc: (ValueSpec, nat) -> Result<string>,
    lineEnd: ValueSpec -> string)

  /** The writers of this model. */
  function ConstWriting(g: PackageGenerator): ValueWriting {
    ValueWriting(
      e => WriteType(g, e, None, 0, false),
      e => WriteType(g, e, None, 0, true),
      IsProbablyIotaType,
      (c: ValueSpec, depth: nat) => ConstDoc(g, c, depth),
      c => ConstLineEnd(g, c))
  }

  /** A rendered value with `iota` replaced by the given counter when it looks like
      an iota expression. */
  function IotaSubstituted(g: PackageGenerator, vw: ValueWriting, raw: string, iota: int): string {
    if vw.isIota(raw) then g.replaceIota(raw, iota) else raw
  }

  /** The end of a constant's line: its trailing comment when doc comments are kept,
      otherwise a newline. */
  function ConstLineEnd(g: PackageGenerator, c: ValueSpec): string {
    if c.comment.Some? && PreserveDocComments(g) then WriteSingleLineComment(c.comment.value) else "\n"
  }

  /** The doc comment written above a constant, at the given depth. */
  function ConstDoc(g: PackageGenerator, c: ValueSpec, depth: nat): Result<string> {
    if c.doc.Some? && PreserveTypeComments(g) then WriteCommentGroup(g, c.doc.value, depth) else Ok("")
  }

  /** One enum member: the name without the prefix, ` = ` and the first value when
      there is one (with `iota` replaced by the member's counter), and `,`. */
  function EnumMember(g: PackageGenerator, vw: ValueWriting, prefix: string, c: ValueSpec, iota: int): Result<string>
    requires |c.names| > 0
  {
    var doc :- vw.doc(c, 1);
    var value :-
      if |c.values| > 0 then
        var raw :- vw.render(c.values[0]);
        Ok(" = " + IotaSubstituted(g, vw, raw, iota))
      else Ok("");
    Ok(doc + g.conf.indent + TrimPrefix(c.names[0], prefix) + value + "," + vw.lineEnd(c))
  }

  /** The member loop from constant `i` on; the counter advances only for members
      that are written. */
  function EnumMembersFrom(g: PackageGenerator, vw: ValueWriting, prefix: string, cs: seq<ValueSpec>, i: nat, iota: int): Result<string>
    requires i <= |cs| && forall k :: 0 <= k < |cs| ==> |cs[k].names| > 0
    decreases |cs| - i
  {
    if i == |cs| then Ok("")
    else if !IsExported(cs[i].names[0]) then EnumMembersFrom(g, vw, prefix, cs, i + 1, iota)
    else
      var line :- EnumMember(g, vw, prefix, cs[i], iota);
      var rest :- EnumMembersFrom(g, vw, prefix, cs, i + 1, iota + 1);
      Ok(line + rest)
  }

  /** `writeTypeScriptEnum`. */
  function WriteTypeScriptEnum(g: PackageGenerator, eg: EnumGroup): (r: Result<string>)
    requires forall k :: 0 <= k < |eg.constants| ==> |eg.constants[k].names| > 0
    ensures EnumMembersFrom(g, ConstWriting(g), eg.typePrefix, eg.constants, 0, 0).Fail? ==> r.Fail?
    ensures r.Ok? ==>
      EndsWith(r.value, "export enum " + eg.typeName + " {\n"
                        + EnumMembersFrom(g, ConstWriting(g), eg.typePrefix, eg.constants, 0, 0).value + "}\n")
  {
    var doc :- if eg.doc.Some? && PreserveTypeComments(g) then WriteCommentGroup(g, eg.doc.value, 0) else Ok("");
    var members :- EnumMembersFrom(g, ConstWriting(g), eg.typePrefix, eg.constants, 0, 0);
    var tail := "export enum " + eg.typeName + " {\n" + members + "}\n";
    assert (doc + tail)[|doc|..] == tail;
    Ok(doc + tail)
  }

  /** Member `k` written with its position `k` as the iota counter, and the ones after it. */
  function MembersAt(g: PackageGenerator, vw: ValueWriting, prefix: string, cs: seq<ValueSpec>, k: nat): Result<string>
    requires k <= |cs| && forall j :: 0 <= j < |cs| ==> |cs[j].names| > 0
    decreases |cs| - k
  {
    if k == |cs| then Ok("")
    else
      var line :- EnumMember(g, vw, prefix, cs[k], k);
      var rest :- MembersAt(g, vw, prefix, cs, k + 1);
      Ok(line + rest)
  }

  /** In a detected group every member is written, and the iota substitute of each is
      its position in the group, not its position in the declaration. */
  lemma EnumIotaIsPosition(g: PackageGenerator, decl: GenDecl, eg: EnumGroup)
    requires GroupOf(decl, eg)
    ensures WriteTypeScriptEnum(g, eg).Ok? ==> EnumMembersFrom(g, ConstWriting(g), eg.typePrefix, eg.constants, 0, 0).Ok?
    ensures EnumMembersFrom(g, ConstWriting(g), eg.typePrefix, eg.constants, 0, 0) == MembersAt(g, ConstWriting(g), eg.typePrefix, eg.constants, 0)
  {
    MembersExported(decl, eg);
    CounterIsPosition(g, ConstWriting(g), eg.typePrefix, eg.constants, 0);
  }

  lemma {:induction false} CounterIsPosition(g: PackageGenerator, vw: ValueWriting, prefix: string, cs: seq<ValueSpec>, i: nat)
    requires i <= |cs| && forall k :: 0 <= k < |cs| ==> |cs[k].names| > 0 && IsExported(cs[k].names[0])
    ensures EnumMembersFrom(g, vw, prefix, cs, i, i) == MembersAt(g, vw, prefix, cs, i)
    decreases |cs| - i
  {
    if i < |cs| {
      assert IsExported(cs[i].names[0]);
      CounterIsPosition(g, vw, prefix, cs, i + 1);
      var line := EnumMember(g, vw, prefix, cs[i], i);
      var rest := MembersAt(g, vw, prefix, cs, i + 1);
      assert MembersAt(g, vw, prefix, cs, i) == if line.Fail? then Fail(line.msg) else if rest.Fail? then Fail(rest.msg) else Ok(line.value + rest.value);
      assert EnumMembersFrom(g, vw, prefix, cs, i, i) == if line.Fail? then Fail(line.msg) else if rest.Fail? then Fail(rest.msg) else Ok(line.value + rest.value);
    }
  }

  /** The line an enum member at group position `k` is expected to get: its doc comment
      one level in, the indent, its `short` name, ` = ` and its first value with
      `iota` standing for `k` when it has one, `,` and its line end. */
  function ExpectedMember(g: PackageGenerator, vw: ValueWriting, c: ValueSpec, short: string, k: nat): Result<string> {
    var doc :- vw.doc(c, 1);
    if |c.values| == 0 then Ok(doc + g.conf.indent + short + "," + vw.lineEnd(c))
    else
      var raw :- vw.render(c.values[0]);
      Ok(doc + g.conf.indent + short + " = " + IotaSubstituted(g, vw, raw, k) + "," + vw.lineEnd(c))
  }

  /** The name of a group member without the group's prefix. */
  function ShortName(name: string, prefix: string): (r: string)
    requires StartsWith(name, prefix)
    ensures prefix + r == name
  {
    name[|prefix|..]
  }

  /** The expected enum members from group position `k` on, one line each. */
  function ExpectedMembersFrom(g: PackageGenerator, vw: ValueWriting, prefix: string, cs: seq<ValueSpec>, k: nat): Result<string>
    requires k <= |cs| && forall j :: 0 <= j < |cs| ==> |cs[j].names| > 0 && StartsWith(cs[j].names[0], prefix)
    decreases |cs| - k
  {
    if k == |cs| then Ok("")
    else
      var line :- ExpectedMember(g, vw, cs[k], ShortName(cs[k].names[0], prefix), k);
      var rest :- ExpectedMembersFrom(g, vw, prefix, cs, k + 1);
      Ok(line + rest)
  }

  /** A member is written under the name that follows the prefix: when `prefix + short`
      is its name, its line is the expected one with `short`. */
  lemma EnumMemberLine(g: PackageGenerator, vw: ValueWriting, prefix: string, c: ValueSpec, short: string, k: nat)
    requires |c.names| > 0 && prefix + short == c.names[0]
    ensures EnumMember(g, vw, prefix, c, k) == ExpectedMember(g, vw, c, short, k)
  {
    assert (prefix + short)[..|prefix|] == prefix;
    var t := TrimPrefix(c.names[0], prefix);
    assert t == (prefix + t)[|prefix|..] && short == (prefix + short)[|prefix|..];
    var doc := vw.doc(c, 1);
    if doc.Ok? {
      var head := doc.value + g.conf.indent + short;
      if |c.values| > 0 {
        var raw := vw.render(c.values[0]);
        if raw.Ok? {
          var v := IotaSubstituted(g, vw, raw.value, k);
          AppendAssoc(head, " = ", v);
          assert EnumMember(g, vw, prefix, c, k) == Ok(head + (" = " + v) + "," + vw.lineEnd(c));
        }
      } else {
        assert head + "" == head;
        assert EnumMember(g, vw, prefix, c, k) == Ok(head + "" + "," + vw.lineEnd(c));
      }
    }
  }

  /** In a detected group, a written enum ends with every member's expected line,
      in group order, inside `export enum Name { ... }`; the enum fails when one of
      those lines does. */
  lemma EnumMembersText(g: PackageGenerator, decl: GenDecl, eg: EnumGroup)
    requires GroupOf(decl, eg)
    ensures WriteTypeScriptEnum(g, eg).Ok? ==>
      && ExpectedMembersFrom(g, ConstWriting(g), eg.typePrefix, eg.constants, 0).Ok?
      && EndsWith(WriteTypeScriptEnum(g, eg).value, "export enum " + eg.typeName + " {\n"
                  + ExpectedMembersFrom(g, ConstWriting(g), eg.typePrefix, eg.constants, 0).value + "}\n")
    ensures ExpectedMembersFrom(g, ConstWriting(g), eg.typePrefix, eg.constants, 0).Fail? ==> WriteTypeScriptEnum(g, eg).Fail?
  {
    EnumMembersLoopText(g, decl, eg);
  }

  /** In a detected group, the enum's member loop writes every member's expected
      line in group order: the name after the group prefix, and the first value with
      iota at the member's position. */
  lemma EnumMembersLoopText(g: PackageGenerator, decl: GenDecl, eg: EnumGroup)
    requires GroupOf(decl, eg)
    ensures EnumMembersFrom(g, ConstWriting(g), eg.typePrefix, eg.constants, 0, 0)
      == ExpectedMembersFrom(g, ConstWriting(g), eg.typePrefix, eg.constants, 0)
  {
    EnumIotaIsPosition(g, decl, eg);
    MembersAsExpected(g, ConstWriting(g), eg.typePrefix, eg.constants, 0);
  }

  lemma {:induction false} MembersAsExpected(g: PackageGenerator, vw: ValueWriting, prefix: string, cs: seq<ValueSpec>, k: nat)
    requires k <= |cs| && forall j :: 0 <= j < |cs| ==> |cs[j].names| > 0 && StartsWith(cs[j].names[0], prefix)
    ensures MembersAt(g, vw, prefix, cs, k) == ExpectedMembersFrom(g, vw, prefix, cs, k)
    decreases |cs| - k
  {
    if k < |cs| {
      MembersAsExpected(g, vw, prefix, cs, k + 1);
      EnumMemberLine(g, vw, prefix, cs[k], ShortName(cs[k].names[0], prefix), k);
    }
  }

  // ----- writeTypeScriptUnion -----

  /** The union writer's state between constants. */
  datatype UnionState = UnionState(iota: int, lastRaw: string, isIota: bool)

  /** The value of one union constant and the state after it: an explicit value is
      rendered (and, if it looks like iota, substituted); a missing one repeats the
      last rendered value, continuing an iota sequence with the current counter. */
  function UnionValue(g: PackageGenerator, vw: ValueWriting, c: ValueSpec, st: UnionState): Result<(string, UnionState)> {
    if |c.values| > 0 then
      var raw :- vw.render(c.values[0]);
      if vw.isIota(raw) then Ok((g.replaceIota(raw, st.iota), UnionState(st.iota, raw, true)))
      else Ok((raw, UnionState(st.iota, raw, false)))
    else if st.lastRaw != "" then
      Ok((if st.isIota then g.replaceIota(st.lastRaw, st.iota) else st.lastRaw, st))
    else Ok(("", st))
  }

  /** What the constant loop produces: the `export const` lines, the names referenced
      by the union type, and the value written for each of them. */
  datatype UnionParts = UnionParts(text: string, names: seq<string>, values: seq<string>)

  /** The constant loop from constant `i` on. */
  function UnionConstsFrom(g: PackageGenerator, vw: ValueWriting, cs: seq<ValueSpec>, i: nat, st: UnionState): (r: Result<UnionParts>)
    requires i <= |cs| && forall k :: 0 <= k < |cs| ==> |cs[k].names| > 0
    ensures r.Ok? ==> |r.value.names| == |r.value.values|
    ensures r.Ok? && (forall k :: i <= k < |cs| ==> IsExported(cs[k].names[0])) ==>
      |r.value.names| == |cs| - i && forall k :: 0 <= k < |r.value.names| ==> r.value.names[k] == cs[i + k].names[0]
    decreases |cs| - i
  {
    if i == |cs| then Ok(UnionParts("", [], []))
    else if !IsExported(cs[i].names[0]) then UnionConstsFrom(g, vw, cs, i + 1, st.(iota := st.iota + 1))
    else
      var c := cs[i];
      var doc :- vw.doc(c, 0);
      var step :- UnionValue(g, vw, c, st);
      var line := doc + "export const " + c.names[0] + " = " + step.0 + ";" + vw.lineEnd(c);
      var rest :- UnionConstsFrom(g, vw, cs, i + 1, step.1.(iota := step.1.iota + 1));
      Ok(UnionParts(line + rest.text, [c.names[0]] + rest.names, [step.0] + rest.values))
  }

  /** `writeTypeScriptUnion`: one `export const` per member, then the union type of
      their `typeof`s. */
  function WriteTypeScriptUnion(g: PackageGenerator, eg: EnumGroup): (r: Result<string>)
    requires forall k :: 0 <= k < |eg.constants| ==> |eg.constants[k].names| > 0
    ensures UnionConstsFrom(g, ConstWriting(g), eg.constants, 0, UnionState(0, "", false)).Fail? ==> r.Fail?
    ensures r.Ok? ==>
      var parts := UnionConstsFrom(g, ConstWriting(g), eg.constants, 0, UnionState(0, "", false)).value;
      && StartsWith(r.value, parts.text)
      && EndsWith(r.value, "export type " + eg.typeName + " = " + Join(TypeofEach(parts.names), " | ") + ";\n")
  {
    var parts :- UnionConstsFrom(g, ConstWriting(g), eg.constants, 0, UnionState(0, "", false));
    var doc :- if eg.doc.Some? && PreserveTypeComments(g) then WriteCommentGroup(g, eg.doc.value, 0) else Ok("");
    TypeofRefsJoined(parts.names);
    var tail := "export type " + eg.typeName + " = " + SeparatedFrom(TypeofEach(parts.names), 0, " | ") + ";\n";
    var r := parts.text + doc + tail;
    assert r[..|parts.text|] == parts.text;
    assert r[|parts.text + doc|..] == tail;
    Ok(r)
  }

  /** The union type of a detected group references every member, in order. */
  lemma UnionReferencesEveryMember(g: PackageGenerator, decl: GenDecl, eg: EnumGroup)
    requires GroupOf(decl, eg)
    ensures var p := UnionConstsFrom(g, ConstWriting(g), eg.constants, 0, UnionState(0, "", false));
      p.Ok? ==> |p.value.names| == |eg.constants|
                && forall k :: 0 <= k < |eg.constants| ==> p.value.names[k] == eg.constants[k].names[0]
  {
    MembersExported(decl, eg);
  }

  function TypeofEach(names: seq<string>): (r: seq<string>)
    ensures |r| == |names|
    ensures forall k :: 0 <= k < |r| ==> r[k] == "typeof " + names[k]
  {
    if |names| == 0 then [] else ["typeof " + names[0]] + TypeofEach(names[1..])
  }

  /** The union type is the `typeof` references joined by ` | `. */
  lemma TypeofRefsJoined(names: seq<string>)
    ensures SeparatedFrom(TypeofEach(names), 0, " | ") == Join(TypeofEach(names), " | ")
  {
    SeparatedIsJoin(TypeofEach(names), " | ");
  }

  /** The constant with the last explicit value at or before position `k`. */
  function LastValued(cs: seq<ValueSpec>, k: nat): (r: Option<nat>)
    requires k < |cs|
    ensures r.Some? ==> r.value <= k && |cs[r.value].values| > 0
                        && forall j :: r.value < j <= k ==> |cs[j].values| == 0
    ensures r.None? ==> forall j :: 0 <= j <= k ==> |cs[j].values| == 0
  {
    if |cs[k].values| > 0 then Some(k) else if k == 0 then None else LastValued(cs, k - 1)
  }

  /** The value a union member at position `k` should get: the last explicit value at
      or before it, with `iota` standing for `k`. */
  function ExpectedValue(g: PackageGenerator, vw: ValueWriting, cs: seq<ValueSpec>, k: nat): Result<string>
    requires k < |cs|
  {
    match LastValued(cs, k)
    case None => Ok("")
    case Some(j) =>
      var raw :- vw.render(cs[j].values[0]);
      Ok(IotaSubstituted(g, vw, raw, k))
  }

  /** The union writer's state after the members before position `i` agrees with
      the last explicit value before `i`. */
  predicate StateAgrees(g: PackageGenerator, vw: ValueWriting, cs: seq<ValueSpec>, i: nat, st: UnionState)
    requires i <= |cs|
  {
    && st.iota == i
    && (i == 0 || LastValued(cs, i - 1).None? ==> st.lastRaw == "")
    && (i > 0 && LastValued(cs, i - 1).Some? ==>
          var j := LastValued(cs, i - 1).value;
          vw.render(cs[j].values[0]) == Ok(st.lastRaw)
          && st.isIota == vw.isIota(st.lastRaw))
  }

  /** In a group whose members are all exported, each written value is the last
      explicit value at or before it, with `iota` replaced by the member's position:
      a missing value repeats the previous one or continues its iota sequence. */
  lemma UnionValuesCarry(g: PackageGenerator, decl: GenDecl, eg: EnumGroup)
    requires GroupOf(decl, eg)
    ensures var r := UnionConstsFrom(g, ConstWriting(g), eg.constants, 0, UnionState(0, "", false));
      r.Ok? ==> |r.value.values| == |eg.constants| && |r.value.names| == |eg.constants|
                && (forall k :: 0 <= k < |eg.constants| ==> ExpectedValue(g, ConstWriting(g), eg.constants, k) == Ok(r.value.values[k]))
                && (forall k :: 0 <= k < |eg.constants| ==> r.value.names[k] == eg.constants[k].names[0])
  {
    MembersExported(decl, eg);
    assert !IsProbablyIotaType("") by { assert TrimSet("", Parens) == ""; }
    ValuesFrom(g, ConstWriting(g), eg.constants, 0, UnionState(0, "", false));
    LoopNames(g, ConstWriting(g), eg.constants, UnionState(0, "", false));
    var r := UnionConstsFrom(g, ConstWriting(g), eg.constants, 0, UnionState(0, "", false));
    if r.Ok? {
      ExpectedValuesListed(g, ConstWriting(g), eg.constants, 0, r.value.values);
    }
  }

  /** When every member is exported, the union loop lists every member's name. */
  lemma LoopNames(g: PackageGenerator, vw: ValueWriting, cs: seq<ValueSpec>, st: UnionState)
    requires forall k :: 0 <= k < |cs| ==> |cs[k].names| > 0 && IsExported(cs[k].names[0])
    ensures UnionConstsFrom(g, vw, cs, 0, st).Ok? ==>
      && |UnionConstsFrom(g, vw, cs, 0, st).value.names| == |cs|
      && forall k :: 0 <= k < |cs| ==> UnionConstsFrom(g, vw, cs, 0, st).value.names[k] == cs[k].names[0]
  {
  }

  /** In a detected group, the constants the union writes are every member's expected
      `export const` line in order, carrying the value `ExpectedValue` gives it; the
      union's text starts with them. */
  lemma UnionConstsText(g: PackageGenerator, decl: GenDecl, eg: EnumGroup)
    requires GroupOf(decl, eg)
    ensures WriteTypeScriptUnion(g, eg).Ok? ==>
      && ExpectedConstsFrom(g, ConstWriting(g), eg.constants, 0).Ok?
      && StartsWith(WriteTypeScriptUnion(g, eg).value, ExpectedConstsFrom(g, ConstWriting(g), eg.constants, 0).value)
  {
    UnionConstsLoopText(g, decl, eg);
  }

  /** In a detected group, the text of the union's constant loop is exactly the
      expected `export const` lines. */
  lemma UnionConstsLoopText(g: PackageGenerator, decl: GenDecl, eg: EnumGroup)
    requires GroupOf(decl, eg)
    ensures var r := UnionConstsFrom(g, ConstWriting(g), eg.constants, 0, UnionState(0, "", false));
      r.Ok? ==> ExpectedConstsFrom(g, ConstWriting(g), eg.constants, 0) == Ok(r.value.text)
  {
    MembersExported(decl, eg);
    assert !IsProbablyIotaType("") by { assert TrimSet("", Parens) == ""; }
    TextFrom(g, ConstWriting(g), eg.constants, 0, UnionState(0, "", false));
  }

  lemma {:induction false} ValuesFrom(g: PackageGenerator, vw: ValueWriting, cs: seq<ValueSpec>, i: nat, st: UnionState)
    requires UnionReady(g, vw, cs, i, st)
    ensures UnionConstsFrom(g, vw, cs, i, st).Ok? ==>
      ExpectedValuesFrom(g, vw, cs, i) == Ok(UnionConstsFrom(g, vw, cs, i, st).value.values)
    decreases |cs| - i
  {
    if i == |cs| {
      ValuesAtEnd(g, vw, cs, st);
    } else if UnionConstsFrom(g, vw, cs, i, st).Ok? {
      var st' := NextState(g, vw, cs, i, st);
      ValuesFrom(g, vw, cs, i + 1, st');
    }
  }

  /** What the union loop's inductions carry: every member is exported, the empty
      value is not an iota expression, and the state agrees with position `i`. */
  predicate UnionReady(g: PackageGenerator, vw: ValueWriting, cs: seq<ValueSpec>, i: nat, st: UnionState)
  {
    && i <= |cs| && (forall k :: 0 <= k < |cs| ==> |cs[k].names| > 0 && IsExported(cs[k].names[0]))
    && !vw.isIota("")
    && StateAgrees(g, vw, cs, i, st)
  }

  /** Past the last member the union loop writes nothing, as expected. */
  lemma ValuesAtEnd(g: PackageGenerator, vw: ValueWriting, cs: seq<ValueSpec>, st: UnionState)
    requires forall k :: 0 <= k < |cs| ==> |cs[k].names| > 0
    ensures UnionConstsFrom(g, vw, cs, |cs|, st) == Ok(UnionParts("", [], []))
    ensures ExpectedConstsFrom(g, vw, cs, |cs|) == Ok("")
  {
  }

  /** The text the union loop writes from position `i` on is the expected
      `export const` lines from there on. */
  lemma {:induction false} TextFrom(g: PackageGenerator, vw: ValueWriting, cs: seq<ValueSpec>, i: nat, st: UnionState)
    requires UnionReady(g, vw, cs, i, st)
    ensures UnionConstsFrom(g, vw, cs, i, st).Ok? ==>
      ExpectedConstsFrom(g, vw, cs, i) == Ok(UnionConstsFrom(g, vw, cs, i, st).value.text)
    decreases |cs| - i
  {
    if i == |cs| {
      ValuesAtEnd(g, vw, cs, st);
    } else if UnionConstsFrom(g, vw, cs, i, st).Ok? {
      var st' := NextText(g, vw, cs, i, st);
      TextFrom(g, vw, cs, i + 1, st');
    }
  }

  /** The union loop's next state, for its text: expected lines from position
      `i + 1` on extend to expected lines from `i`. */
  lemma NextText(g: PackageGenerator, vw: ValueWriting, cs: seq<ValueSpec>, i: nat, st: UnionState)
    returns (st': UnionState)
    requires UnionReady(g, vw, cs, i, st) && i < |cs|
    requires UnionConstsFrom(g, vw, cs, i, st).Ok?
    ensures UnionReady(g, vw, cs, i + 1, st')
    ensures UnionConstsFrom(g, vw, cs, i + 1, st').Ok?
    ensures ExpectedConstsFrom(g, vw, cs, i + 1) == Ok(UnionConstsFrom(g, vw, cs, i + 1, st').value.text) ==>
      ExpectedConstsFrom(g, vw, cs, i) == Ok(UnionConstsFrom(g, vw, cs, i, st).value.text)
  {
    var v;
    v, st' := UnionConstsStep(g, vw, cs, i, st);
    StepAgrees(g, vw, cs, i, st);
    var rest := UnionConstsFrom(g, vw, cs, i + 1, st').value.text;
    if ExpectedConstsFrom(g, vw, cs, i + 1) == Ok(rest) {
      ConstsCons(g, vw, cs, i, vw.doc(cs[i], 0).value, v, rest);
    }
  }

  /** The state the union loop continues from after position `i`: it agrees with
      position `i + 1`, the loop goes on from it, and expected values from there on
      extend to expected values from `i`. */
  lemma NextState(g: PackageGenerator, vw: ValueWriting, cs: seq<ValueSpec>, i: nat, st: UnionState)
    returns (st': UnionState)
    requires UnionReady(g, vw, cs, i, st) && i < |cs|
    requires UnionConstsFrom(g, vw, cs, i, st).Ok?
    ensures UnionReady(g, vw, cs, i + 1, st')
    ensures UnionConstsFrom(g, vw, cs, i + 1, st').Ok?
    ensures ExpectedValuesFrom(g, vw, cs, i + 1) == Ok(UnionConstsFrom(g, vw, cs, i + 1, st').value.values) ==>
      ExpectedValuesFrom(g, vw, cs, i) == Ok(UnionConstsFrom(g, vw, cs, i, st).value.values)
  {
    var v;
    v, st' := UnionConstsStep(g, vw, cs, i, st);
    StepAgrees(g, vw, cs, i, st);
  }

  /** One exported member of the union loop: its value comes from `UnionValue` and
      the rest of the loop continues from the state that step leaves. */
  lemma UnionConstsStep(g: PackageGenerator, vw: ValueWriting, cs: seq<ValueSpec>, i: nat, st: UnionState)
    returns (v: string, st': UnionState)
    requires i < |cs| && forall k :: 0 <= k < |cs| ==> |cs[k].names| > 0
    requires IsExported(cs[i].names[0])
    requires UnionConstsFrom(g, vw, cs, i, st).Ok?
    ensures UnionValue(g, vw, cs[i], st).Ok?
    ensures v == UnionValue(g, vw, cs[i], st).value.0
    ensures st' == UnionValue(g, vw, cs[i], st).value.1.(iota := UnionValue(g, vw, cs[i], st).value.1.iota + 1)
    ensures UnionConstsFrom(g, vw, cs, i + 1, st').Ok?
    ensures UnionConstsFrom(g, vw, cs, i, st).value.values == [v] + UnionConstsFrom(g, vw, cs, i + 1, st').value.values
    ensures UnionConstsFrom(g, vw, cs, i, st).value.names == [cs[i].names[0]] + UnionConstsFrom(g, vw, cs, i + 1, st').value.names
    ensures vw.doc(cs[i], 0).Ok?
    ensures UnionConstsFrom(g, vw, cs, i, st).value.text
      == vw.doc(cs[i], 0).value + "export const " + cs[i].names[0] + " = " + v + ";" + vw.lineEnd(cs[i])
         + UnionConstsFrom(g, vw, cs, i + 1, st').value.text
  {
    var step := UnionValue(g, vw, cs[i], st).value;
    v := step.0;
    st' := step.1.(iota := step.1.iota + 1);
  }

  /** The expected values of the union members from position `i` on, in order. */
  function ExpectedValuesFrom(g: PackageGenerator, vw: ValueWriting, cs: seq<ValueSpec>, i: nat): Result<seq<string>>
    requires i <= |cs|
    decreases |cs| - i
  {
    if i == |cs| then Ok([])
    else
      var v :- ExpectedValue(g, vw, cs, i);
      var rest :- ExpectedValuesFrom(g, vw, cs, i + 1);
      Ok([v] + rest)
  }

  /** The expected values from position `i` on, position by position. */
  lemma {:induction false} ExpectedValuesListed(g: PackageGenerator, vw: ValueWriting, cs: seq<ValueSpec>, i: nat, vs: seq<string>)
    requires i <= |cs| && ExpectedValuesFrom(g, vw, cs, i) == Ok(vs)
    ensures |vs| == |cs| - i
    ensures forall k :: i <= k < |cs| ==> ExpectedValue(g, vw, cs, k) == Ok(vs[k - i])
    decreases |cs| - i
  {
    if i < |cs| {
      var v := ExpectedValue(g, vw, cs, i).value;
      var rest := ExpectedValuesFrom(g, vw, cs, i + 1).value;
      ExpectedValuesListed(g, vw, cs, i + 1, rest);
      ValuesShift(g, vw, cs, i, v, rest, vs);
    }
  }

  lemma ValuesShift(g: PackageGenerator, vw: ValueWriting, cs: seq<ValueSpec>, i: nat, v: string, rest: seq<string>, values: seq<string>)
    requires i < |cs| && ExpectedValue(g, vw, cs, i) == Ok(v)
    requires |rest| == |cs| - (i + 1) && values == [v] + rest
    requires forall k :: i + 1 <= k < |cs| ==> ExpectedValue(g, vw, cs, k) == Ok(rest[k - (i + 1)])
    ensures forall k :: i <= k < |cs| ==> ExpectedValue(g, vw, cs, k) == Ok(values[k - i])
  {
    forall k | i < k < |cs|
      ensures ExpectedValue(g, vw, cs, k) == Ok(values[k - i])
    {
      assert values[k - i] == rest[k - (i + 1)];
    }
  }

  /** One more expected line in front of the expected lines after it. */
  lemma ConstsCons(g: PackageGenerator, vw: ValueWriting, cs: seq<ValueSpec>, i: nat, doc: string, v: string, rest: string)
    requires i < |cs| && forall k :: 0 <= k < |cs| ==> |cs[k].names| > 0
    requires ExpectedValue(g, vw, cs, i) == Ok(v) && vw.doc(cs[i], 0) == Ok(doc)
    requires ExpectedConstsFrom(g, vw, cs, i + 1) == Ok(rest)
    ensures ExpectedConstsFrom(g, vw, cs, i)
      == Ok(doc + "export const " + cs[i].names[0] + " = " + v + ";" + vw.lineEnd(cs[i]) + rest)
  {
    assert ExpectedConst(g, vw, cs, i) == Ok(doc + "export const " + cs[i].names[0] + " = " + v + ";" + vw.lineEnd(cs[i]));
  }

  /** The `export const` line a union member at position `k` is expected to get: its
      doc comment, its name, ` = `, its expected value, `;` and its line end. */
  function ExpectedConst(g: PackageGenerator, vw: ValueWriting, cs: seq<ValueSpec>, k: nat): Result<string>
    requires k < |cs| && |cs[k].names| > 0
  {
    var doc :- vw.doc(cs[k], 0);
    var v :- ExpectedValue(g, vw, cs, k);
    Ok(doc + "export const " + cs[k].names[0] + " = " + v + ";" + vw.lineEnd(cs[k]))
  }

  /** The expected `export const` lines from position `k` on. */
  function ExpectedConstsFrom(g: PackageGenerator, vw: ValueWriting, cs: seq<ValueSpec>, k: nat): Result<string>
    requires k <= |cs| && forall j :: 0 <= j < |cs| ==> |cs[j].names| > 0
    decreases |cs| - k
  {
    if k == |cs| then Ok("")
    else
      var line :- ExpectedConst(g, vw, cs, k);
      var rest :- ExpectedConstsFrom(g, vw, cs, k + 1);
      Ok(line + rest)
  }

  /** One step of the union loop keeps the state in agreement and writes the
      expected value. */
  lemma StepAgrees(g: PackageGenerator, vw: ValueWriting, cs: seq<ValueSpec>, i: nat, st: UnionState)
    requires i < |cs| && !vw.isIota("")
    requires StateAgrees(g, vw, cs, i, st)
    requires UnionValue(g, vw, cs[i], st).Ok?
    ensures var step := UnionValue(g, vw, cs[i], st).value;
      && ExpectedValue(g, vw, cs, i) == Ok(step.0)
      && StateAgrees(g, vw, cs, i + 1, step.1.(iota := step.1.iota + 1))
  {
    var c := cs[i];
    var step := UnionValue(g, vw, c, st).value;
    if |c.values| > 0 {
      assert LastValued(cs, i) == Some(i);
    } else if i > 0 {
      assert LastValued(cs, i) == LastValued(cs, i - 1);
    } else {
      assert LastValued(cs, 0).None?;
    }
  }
}

=== FILE: fields.dfy ===
/** The struct-field policy of the struct writer: which fields are emitted, under
    which key, and whether they are optional. Tags arrive already parsed. */
module Fields {
  import opened Results
  import opened Text
  import opened GoAst
  import opened Config
  import opened Generator
  import opened Idents
  import opened Embedding

  /** What the `json`, `yaml` and `tstype` tags of a field decide. */
  datatype TagOutcome =
    | SkipField
    | Keep(name: string, tstype: string, optional: bool, required: bool, readonly: bool)

  /** A tag entry asks for the field to be dropped. */
  predicate DropsField(es: seq<TagEntry>) {
    || (Lookup(es, "json").Some? && Lookup(es, "json").value.name == "-")
    || (Lookup(es, "yaml").Some? && Lookup(es, "yaml").value.name == "-")
    || (Lookup(es, "tstype").Some?
        && (Lookup(es, "tstype").value.name == "-" || HasOption(Lookup(es, "tstype").value, "extends")))
  }

  /** The `tstype` tag carries the given option. */
  predicate TstypeHas(tag: Option<Tag>, option: string) {
    tag.Some? && tag.value.Tags? && Lookup(tag.value.entries, "tstype").Some?
    && HasOption(Lookup(tag.value.entries, "tstype").value, option)
  }

  /** The tag part of the struct writer: a `yaml` entry overrides what a `json` entry
      set, `-` drops the field, and so does a `tstype` override of `-` or one that
      marks an embedded base. A malformed tag aborts the run. */
  function ResolveTags(tag: Option<Tag>): (r: Result<TagOutcome>)
    ensures r.Fail? <==> tag == Some(Malformed)
    ensures tag.None? ==> r == Ok(Keep("", "", false, false, false))
    ensures tag.Some? && tag.value.Tags? ==> (r == Ok(SkipField) <==> DropsField(tag.value.entries))
    ensures r.Ok? && r.value.Keep? && tag.Some? ==>
      var es := tag.value.entries;
      var json := Lookup(es, "json");
      var yaml := Lookup(es, "yaml");
      var ts := Lookup(es, "tstype");
      && (yaml.Some? ==> r.value.name == yaml.value.name
                         && (r.value.optional <==> HasOption(yaml.value, "omitempty")))
      && (yaml.None? && json.Some? ==>
            (r.value.name == json.value.name
             && (r.value.optional <==> HasOption(json.value, "omitempty") || HasOption(json.value, "omitzero"))))
      && (yaml.None? && json.None? ==> r.value.name == "" && !r.value.optional)
      && (r.value.tstype == if ts.Some? then ts.value.name else "")
      && (r.value.required <==> TstypeHas(tag, "required"))
      && (r.value.readonly <==> TstypeHas(tag, "readonly"))
  {
    if tag.None? then Ok(Keep("", "", false, false, false))
    else if tag.value.Malformed? then Fail("bad syntax for struct tag")
    else
      var es := tag.value.entries;
      var json := Lookup(es, "json");
      var yaml := Lookup(es, "yaml");
      var ts := Lookup(es, "tstype");
      if json.Some? && json.value.name == "-" then Ok(SkipField)
      else
        var name := if json.Some? then json.value.name else "";
        var optional := json.Some? && (HasOption(json.value, "omitempty") || HasOption(json.value, "omitzero"));
        if yaml.Some? && yaml.value.name == "-" then Ok(SkipField)
        else
          var name := if yaml.Some? then yaml.value.name else name;
          var optional := if yaml.Some? then HasOption(yaml.value, "omitempty") else optional;
          if ts.Some? && (ts.value.name == "-" || HasOption(ts.value, "extends")) then Ok(SkipField)
          else
            Ok(Keep(name, if ts.Some? then ts.value.name else "", optional,
                    ts.Some? && HasOption(ts.value, "required"), ts.Some? && HasOption(ts.value, "readonly")))
  }

  /** The Go name of a field: its first declared name, or the usable name of an
      embedded type. */
  function FieldName(f: Field): (r: string)
    ensures |f.names| > 0 ==> r == f.names[0]
    ensures |f.names| == 0 && GetAnonymousFieldName(f.typ).1 ==> r == GetAnonymousFieldName(f.typ).0
    ensures |f.names| == 0 && !GetAnonymousFieldName(f.typ).1 ==> r == ""
  {
    if |f.names| == 0 then
      var anon := GetAnonymousFieldName(f.typ);
      if anon.1 then anon.0 else ""
    else f.names[0]
  }

  /** The property name: the tag's name, or else the Go name, lower-cased under the
      `yaml` flavor. */
  function KeyName(g: PackageGenerator, fieldName: string, tagName: string): (r: string)
    ensures tagName != "" ==> r == tagName
    ensures tagName == "" && g.conf.flavor != "yaml" ==> r == fieldName
    ensures tagName == "" && g.conf.flavor == "yaml" ==>
      (|r| == |fieldName| && forall i :: 0 <= i < |r| ==> !IsUpperAscii(r[i]) && r[i] == LowerAscii(fieldName[i]))
  {
    if tagName != "" then tagName
    else if g.conf.flavor == "yaml" then ToLowerAscii(fieldName)
    else fieldName
  }

  // ----- property keys -----

  /** The key exactly as the struct writer spells it: the `readonly ` modifier is
      written after the opening quote of a quoted name. */
  function FieldKeyAsWritten(name: string, readonly: bool): string {
    var quote := if ValidJSName(name) then "" else "'";
    quote + (if readonly then "readonly " else "") + name + quote
  }

  /** The key with the modifier in front of the (possibly quoted) name. */
  function FieldKey(name: string, readonly: bool): (r: string)
    ensures readonly ==> StartsWith(r, "readonly ")
    ensures EndsWith(r, name) || EndsWith(r, name + "'")
  {
    (if readonly then "readonly " else "")
    + (if ValidJSName(name) then name else "'" + name + "'")
  }

  /** How TypeScript reads a property key: an optional `readonly ` modifier, then a
      name that is quoted or bare. */
  function ReadKey(k: string): (bool, string) {
    if StartsWith(k, "readonly ") then (true, Unquote(k[9..])) else (false, Unquote(k))
  }

  function Unquote(k: string): string {
    if |k| >= 2 && k[0] == '\'' && k[|k| - 1] == '\'' then k[1..|k| - 1] else k
  }

  /** A bare single-line key is an identifier, so it has neither spaces nor quotes. */
  lemma BareNameIsPlain(name: string)
    requires forall k :: 0 <= k < |name| ==> name[k] != '\n'
    requires ValidJSName(name)
    ensures |name| > 0 && name[0] != '\'' && !StartsWith(name, "readonly ")
  {
    SingleLineName(name);
    assert |name| >= 9 ==> IsNamePart(name[8]);
    assert |name| >= 9 ==> name[..9][8] == name[8];
  }

  /** The corrected key reads back as the modifier and the name it was built from. */
  lemma FieldKeyReadsBack(name: string, readonly: bool)
    requires forall k :: 0 <= k < |name| ==> name[k] != '\n'
    ensures ReadKey(FieldKey(name, readonly)) == (readonly, name)
  {
    var k := FieldKey(name, readonly);
    var body := if ValidJSName(name) then name else "'" + name + "'";
    if ValidJSName(name) {
      BareNameIsPlain(name);
    }
    if readonly {
      assert k[9..] == body;
    } else {
      assert k == body;
      if !ValidJSName(name) {
        assert k[0] == '\'';
        assert |k| >= 9 ==> k[..9][0] == '\'';
      }
    }
  }

  /** As written, a quoted read-only key becomes a property whose name includes the
      word `readonly`, and the property is not read-only. */
  lemma ReadonlyInsideQuotes()
    ensures ReadKey(FieldKeyAsWritten("my-key", true)) == (false, "readonly my-key")
    ensures ReadKey(FieldKey("my-key", true)) == (true, "my-key")
  {
    AsWrittenQuotedKey();
    QuotedReadonlyKey();
    FieldKeyReadsBack("my-key", true);
  }

  lemma AsWrittenQuotedKey()
    ensures FieldKeyAsWritten("my-key", true) == "'readonly my-key'"
  {
    MultilineKeyUnquoted();
  }

  lemma QuotedReadonlyKey()
    ensures ReadKey("'readonly my-key'") == (false, "readonly my-key")
  {
    var k := "'readonly my-key'";
    assert !StartsWith(k, "readonly ") by { assert k[0] == '\''; }
    assert k[1..|k| - 1] == "readonly my-key";
  }

  // ----- optional markers -----

  /** `?` after the key, used when optional fields are typed `undefined`. */
  function OptionalMark(g: PackageGenerator, optional: bool): string {
    if optional && g.conf.optionalType == "undefined" then "?" else ""
  }

  /** ` | null` after the type, used when optional fields are typed `null` and the
      type is not overridden by `tstype`. */
  function NullSuffix(g: PackageGenerator, optional: bool, tstype: string): string {
    if optional && g.conf.optionalType == "null" && tstype == "" then " | null" else ""
  }

  /** A field is never marked optional both ways. */
  lemma MarkersExclusive(g: PackageGenerator, optional: bool, tstype: string)
    ensures OptionalMark(g, optional) == "" || NullSuffix(g, optional, tstype) == ""
    ensures OptionalMark(g, optional) != "" ==> optional && g.conf.optionalType == "undefined"
    ensures NullSuffix(g, optional, tstype) != "" ==> optional && g.conf.optionalType == "null" && tstype == ""
  {
  }

  /** What the struct writer does with one field, apart from rendering its type. */
  datatype FieldPlan = Skip | Plan(key: string, optional: bool, tstype: string)

  /** The decision for one field: skipped when its Go name is not exported or its
      tags drop it; otherwise keyed by the resolved name, and optional as the tags
      say, except that a pointer is optional exactly when `tstype` does not mark it
      `required`. */
  function PlanField(g: PackageGenerator, f: Field): (r: Result<FieldPlan>)
    ensures r.Fail? <==> IsExported(FieldName(f)) && f.tag == Some(Malformed)
    ensures !IsExported(FieldName(f)) ==> r == Ok(Skip)
    ensures IsExported(FieldName(f)) && f.tag.Some? && f.tag.value.Tags? ==>
      (r == Ok(Skip) <==> DropsField(f.tag.value.entries))
    ensures IsExported(FieldName(f)) && f.tag.None? ==> r.Ok? && r.value.Plan?
    ensures r.Ok? && r.value.Plan? && f.typ.Star? ==> (r.value.optional <==> !TstypeHas(f.tag, "required"))
    ensures r.Ok? && r.value.Plan? ==>
      exists name :: r.value.key == FieldKey(name, TstypeHas(f.tag, "readonly"))
    ensures IsExported(FieldName(f)) && ResolveTags(f.tag).Ok? && ResolveTags(f.tag).value.Keep? ==>
      var o := ResolveTags(f.tag).value;
      && r.Ok? && r.value.Plan?
      && r.value.key == FieldKey(KeyName(g, FieldName(f), o.name), TstypeHas(f.tag, "readonly"))
      && r.value.tstype == o.tstype
      && (!f.typ.Star? ==> r.value.optional == o.optional)
  {
    var fieldName := FieldName(f);
    if !IsExported(fieldName) then Ok(Skip)
    else
      var o :- ResolveTags(f.tag);
      if o.SkipField? then Ok(Skip)
      else
        var name := KeyName(g, fieldName, o.name);
        var optional := if f.typ.Star? then !o.required else o.optional;
        assert o.readonly == TstypeHas(f.tag, "readonly");
        Ok(Plan(FieldKey(name, o.readonly), optional, o.tstype))
  }

  /** Without tags a field's key is its Go name (lower-cased under `yaml`), and it is
      optional exactly when it is a pointer. */
  lemma UntaggedField(g: PackageGenerator, f: Field)
    requires f.tag.None? && IsExported(FieldName(f))
    ensures PlanField(g, f) == Ok(Plan(FieldKey(KeyName(g, FieldName(f), ""), false), f.typ.Star?, ""))
  {
  }
}

=== FILE: filepaths.dfy ===
/** The lexical path operations of Go's `path/filepath` used by the configuration,
    for '/'-separated paths. */
module FilePaths {
  import opened Results
  import opened Text

  /** The part of `t` after its last '/'. */
  function AfterLastSlash(t: string): (r: string)
    ensures |r| <= |t| && r == t[|t| - |r|..]
    ensures forall i :: 0 <= i < |r| ==> r[i] != '/'
  {
    if |t| == 0 || t[|t| - 1] == '/' then "" else AfterLastSlash(t[..|t| - 1]) + [t[|t| - 1]]
  }

  /** `filepath.Base`: the last element, trailing slashes removed; "." for "" and
      "/" for a path of slashes only. */
  function Base(path: string): string {
    if path == "" then "."
    else
      var t := TrimRightSet(path, {'/'});
      if t == "" then "/" else AfterLastSlash(t)
  }

  /** One step of `filepath.Clean` over a path element. */
  function CleanStep(stack: seq<string>, e: string, rooted: bool): seq<string> {
    if e == "" || e == "." then stack
    else if e == ".." then
      if |stack| > 0 && stack[|stack| - 1] != ".." then stack[..|stack| - 1]
      else if rooted then stack
      else stack + [".."]
    else stack + [e]
  }

  function CleanSegments(segs: seq<string>, rooted: bool, stack: seq<string>): seq<string>
    decreases |segs|
  {
    if |segs| == 0 then stack else CleanSegments(segs[1..], rooted, CleanStep(stack, segs[0], rooted))
  }

  /** `filepath.Clean`: the shortest equivalent path by purely lexical processing. */
  function Clean(path: string): string {
    if path == "" then "."
    else
      var rooted := path[0] == '/';
      var out := (if rooted then "/" else "") + Join(CleanSegments(Split(path, "/"), rooted, []), "/");
      if out == "" then "." else out
  }

  /** `filepath.Join(dir, name)` for a non-empty `name`. */
  function JoinPath(dir: string, name: string): string {
    if dir == "" then Clean(name) else Clean(dir + "/" + name)
  }

  // ----- lemmas -----

  lemma {:induction false} FindSlashNone(a: string, i: nat)
    requires forall k :: i <= k < |a| ==> a[k] != '/'
    ensures FindFrom(a, "/", i).None?
    decreases |a| - i
  {
    if i + 1 <= |a| {
      assert !OccursAt(a, "/", i) by { assert a[i..i + 1][0] == a[i]; }
      FindSlashNone(a, i + 1);
    }
  }

  lemma {:induction false} FindSlashConcat(a: string, b: string, i: nat)
    requires i <= |a|
    ensures FindFrom(a + "/" + b, "/", i) ==
      match FindFrom(a, "/", i)
      case Some(j) => Some(j)
      case None => Some(|a|)
    decreases |a| - i
  {
    var s := a + "/" + b;
    if i == |a| {
      assert OccursAt(s, "/", i) by { assert s[i..i + 1] == "/"; }
    } else {
      assert s[i..i + 1] == a[i..i + 1];
      if !OccursAt(a, "/", i) {
        FindSlashConcat(a, b, i + 1);
      }
    }
  }

  /** Splitting at '/' distributes over a '/'-joined concatenation. */
  lemma {:induction false} SplitSlashConcat(a: string, b: string)
    ensures Split(a + "/" + b, "/") == Split(a, "/") + Split(b, "/")
    decreases |a|
  {
    var s := a + "/" + b;
    FindSlashConcat(a, b, 0);
    match FindFrom(a, "/", 0)
    case None =>
      assert s[..|a|] == a;
      assert s[|a| + 1..] == b;
    case Some(j) =>
      assert s[..j] == a[..j];
      assert s[j + 1..] == a[j + 1..] + "/" + b;
      SplitSlashConcat(a[j + 1..], b);
  }

  lemma SplitNoSlash(b: string)
    requires forall k :: 0 <= k < |b| ==> b[k] != '/'
    ensures Split(b, "/") == [b]
  {
    FindSlashNone(b, 0);
  }

  lemma {:induction false} CleanSegmentsSnoc(segs: seq<string>, e: string, rooted: bool, stack: seq<string>)
    ensures CleanSegments(segs + [e], rooted, stack) == CleanStep(CleanSegments(segs, rooted, stack), e, rooted)
    decreases |segs|
  {
    if |segs| == 0 {
      assert segs + [e] == [e];
    } else {
      assert (segs + [e])[1..] == segs[1..] + [e];
      CleanSegmentsSnoc(segs[1..], e, rooted, CleanStep(stack, segs[0], rooted));
    }
  }

  lemma CleanStackEndsWithName(dir: string, name: string, rooted: bool)
    requires name != "" && name != "." && name != ".."
    requires forall k :: 0 <= k < |name| ==> name[k] != '/'
    ensures var stack := CleanSegments(Split(dir + "/" + name, "/"), rooted, []);
      |stack| > 0 && stack[|stack| - 1] == name
  {
    SplitSlashConcat(dir, name);
    SplitNoSlash(name);
    CleanSegmentsSnoc(Split(dir, "/"), name, rooted, []);
  }

  lemma {:induction false} JoinEndsWithLast(stack: seq<string>)
    requires |stack| > 0
    ensures EndsWith(Join(stack, "/"), stack[|stack| - 1])
  {
    var pre := stack[..|stack| - 1];
    var last := stack[|stack| - 1];
    if |pre| == 0 {
      assert stack == [last];
      assert Join(stack, "/") == last;
    } else {
      assert stack == pre + [last];
      JoinSnoc(pre, last, "/");
      EndsWithPrepend(Join(pre, "/") + "/", last, last);
    }
  }

  lemma EndsWithPrepend(a: string, b: string, suffix: string)
    requires EndsWith(b, suffix)
    ensures EndsWith(a + b, suffix)
  {
    assert (a + b)[|a + b| - |suffix|..] == b[|b| - |suffix|..];
  }

  /** Cleaning `dir + "/" + name` keeps a plain final element `name` as the final
      element of the result. */
  lemma CleanKeepsLastName(dir: string, name: string)
    requires name != "" && name != "." && name != ".."
    requires forall k :: 0 <= k < |name| ==> name[k] != '/'
    ensures EndsWith(Clean(dir + "/" + name), name)
  {
    var p := dir + "/" + name;
    var rooted := p[0] == '/';
    var stack := CleanSegments(Split(p, "/"), rooted, []);
    CleanStackEndsWithName(dir, name, rooted);
    JoinEndsWithLast(stack);
    EndsWithPrepend(if rooted then "/" else "", Join(stack, "/"), name);
  }

  /** `filepath.Join(dir, name)` ends with a plain element `name`. */
  lemma JoinPathEndsWithName(dir: string, name: string)
    requires name != "" && name != "." && name != ".."
    requires forall k :: 0 <= k < |name| ==> name[k] != '/'
    ensures EndsWith(JoinPath(dir, name), name)
  {
    if dir == "" {
      SplitNoSlash(name);
      assert CleanSegments([name], name[0] == '/', []) == [name];
    } else {
      CleanKeepsLastName(dir, name);
    }
  }

  /** `filepath.Join(dir, name)` is `name` itself or ends with `/` and `name`. */
  lemma JoinPathSlashBeforeName(dir: string, name: string)
    requires name != "" && name != "." && name != ".."
    requires forall k :: 0 <= k < |name| ==> name[k] != '/'
    ensures var r := JoinPath(dir, name); r == name || EndsWith(r, "/" + name)
  {
    if dir == "" {
      SplitNoSlash(name);
      assert CleanSegments([name], false, []) == [name];
    } else {
      var p := dir + "/" + name;
      var rooted := p[0] == '/';
      var stack := CleanSegments(Split(p, "/"), rooted, []);
      CleanStackEndsWithName(dir, name, rooted);
      var pre := stack[..|stack| - 1];
      assert stack == pre + [name];
      if |pre| == 0 {
        assert Join(stack, "/") == name;
        if rooted {
          EndsWithPrepend("", "/" + name, "/" + name);
        }
      } else {
        JoinSnoc(pre, name, "/");
        SlashJoined(Join(pre, "/"), name);
        EndsWithPrepend(if rooted then "/" else "", Join(stack, "/"), "/" + name);
      }
    }
  }

  lemma SlashJoined(a: string, name: string)
    ensures EndsWith(a + "/" + name, "/" + name)
  {
    assert a + "/" + name == a + ("/" + name);
    EndsWithPrepend(a, "/" + name, "/" + name);
  }
}

=== FILE: generator.dfy ===
/** The per-package generator state every writer reads: the normalised package
    configuration, the set of type names already generated as enums, and the
    iota substitution helper, which is not part of this model and so is taken
    as a parameter. */
module Generator {
  import opened Text
  import opened Config

  datatype PackageGenerator = PackageGenerator(
    conf: PackageConfig,
    generatedEnums: set<string>,
    replaceIota: (string, int) -> string)

  /** `writeIndent`: the configured indent, `depth` times. */
  function Indent(g: PackageGenerator, depth: nat): (r: string)
    ensures |r| == depth * |g.conf.indent|
  {
    if depth == 0 then "" else g.conf.indent + Indent(g, depth - 1)
  }

  /** One level of indentation is the configured indent string itself. */
  lemma IndentOne(g: PackageGenerator)
    ensures Indent(g, 1) == g.conf.indent
  {
    assert Indent(g, 0) == "";
    assert g.conf.indent + "" == g.conf.indent;
  }

  /** Indentation composes: `a + b` levels are `a` levels followed by `b` levels. */
  lemma {:induction false} IndentAdds(g: PackageGenerator, a: nat, b: nat)
    ensures Indent(g, a + b) == Indent(g, a) + Indent(g, b)
  {
    if a > 0 {
      IndentAdds(g, a - 1, b);
      assert a + b - 1 == (a - 1) + b;
    }
  }
}

=== FILE: goast.dfy ===
/** The slice of Go's syntax tree (`go/ast`) that the generator switches on.

    Parsing is not part of the model: a declaration arrives as one of these trees,
    struct tags arrive already split into key/name/options entries, and a comment
    group carries the text its `Text()` method would return. */
module GoAst {
  import opened Results
  import opened Text

  /** Operator tokens of `go/token` that can appear in binary or unary expressions. */
  datatype Op =
    | Mul | Quo | Rem | Add | Sub | Shl | Shr | And | AndNot | Or | Xor
    | Tilde | Not | Arrow | Eql | Neq | Lss | Leq | Gtr | Geq | LAnd | LOr

  /** `token.Token.String()`. */
  function OpText(op: Op): string {
    match op
    case Mul => "*"
    case Quo => "/"
    case Rem => "%"
    case Add => "+"
    case Sub => "-"
    case Shl => "<<"
    case Shr => ">>"
    case And => "&"
    case AndNot => "&^"
    case Or => "|"
    case Xor => "^"
    case Tilde => "~"
    case Not => "!"
    case Arrow => "<-"
    case Eql => "=="
    case Neq => "!="
    case Lss => "<"
    case Leq => "<="
    case Gtr => ">"
    case Geq => ">="
    case LAnd => "&&"
    case LOr => "||"
  }

  /** `token.INT`, `token.FLOAT`, `token.IMAG`, `token.CHAR`, `token.STRING`. */
  datatype LitKind = IntLit | FloatLit | ImagLit | CharLit | StringLit

  /** Node kinds that have no TypeScript form and render as the fallback type. */
  datatype OpaqueKind = CallNode | FuncNode | ChanNode

  /** What an identifier's `Obj.Decl` resolved to, when the parser resolved it
      inside the same file. */
  datatype LocalDecl = TypeDecl(declName: string, isStruct: bool) | OtherDecl

  datatype Expr =
    | Star(x: Expr)                                  // *ast.StarExpr
    | ArrayOf(elt: Expr)                             // *ast.ArrayType (slice or array)
    | StructOf(fields: seq<Field>)                   // *ast.StructType
    | Ident(name: string, obj: Option<LocalDecl>)    // *ast.Ident
    | Selector(pkg: string, sel: string)             // *ast.SelectorExpr `pkg.Sel`
    | MapOf(key: Expr, elem: Expr)                   // *ast.MapType
    | Lit(litKind: LitKind, raw: string)             // *ast.BasicLit, raw source text
    | Paren(x: Expr)                                 // *ast.ParenExpr
    | Binary(op: Op, x: Expr, y: Expr)               // *ast.BinaryExpr
    | Unary(op: Op, x: Expr)                         // *ast.UnaryExpr
    | InterfaceOf(methods: seq<Field>)               // *ast.InterfaceType
    | Opaque(opaqueKind: OpaqueKind)                   // *ast.CallExpr, *ast.FuncType, *ast.ChanType
    | Index(x: Expr, index: Expr)                    // *ast.IndexExpr `X[I]`
    | IndexList(x: Expr, indices: seq<Expr>)         // *ast.IndexListExpr `X[A, B]`
    | Unhandled(nodeKind: string)                    // every other node kind

  /** One `key:"name,opt1,opt2"` entry of a parsed struct tag. */
  datatype TagEntry = TagEntry(key: string, name: string, options: seq<string>)

  /** A field's tag as `structtag.Parse` sees it: unparsable, or its entries. */
  datatype Tag = Malformed | Tags(entries: seq<TagEntry>)

  /** An `*ast.CommentGroup`: the raw comment texts (`//...` or `/*...*/`) and the
      value its `Text()` method returns. */
  datatype CommentGroup = CommentGroup(list: seq<string>, text: string)

  datatype Field = Field(
    names: seq<string>,
    typ: Expr,
    tag: Option<Tag>,
    doc: Option<CommentGroup>,
    comment: Option<CommentGroup>)

  datatype TypeSpec = TypeSpec(
    name: string,
    typeParams: Option<seq<Field>>,
    typ: Expr,
    doc: Option<CommentGroup>,
    comment: Option<CommentGroup>)

  datatype ValueSpec = ValueSpec(
    names: seq<string>,
    typ: Option<Expr>,
    values: seq<Expr>,
    doc: Option<CommentGroup>,
    comment: Option<CommentGroup>)

  datatype Spec = TypeS(t: TypeSpec) | ValueS(v: ValueSpec) | ImportS(importPath: string)

  datatype DeclTok = ImportTok | ConstTok | VarTok | TypeTok

  /** An `*ast.GenDecl`: `import`, `const`, `var` or `type`, grouped or not. */
  datatype GenDecl = GenDecl(tok: DeclTok, doc: Option<CommentGroup>, specs: seq<Spec>)

  /** A top-level declaration. `ast.Inspect` descends into function declarations, so a
      function carries, in source order, the `GenDecl`s reachable inside its body
      without passing through another `GenDecl`. */
  datatype Decl = GenD(gen: GenDecl) | FuncD(body: seq<GenDecl>)

  /** A parsed Go file, its path, and the header text the (unmodelled) source-header
      writer produces for it. */
  datatype SourceFile = SourceFile(path: string, header: string, decls: seq<Decl>)

  /** `token.IsExported` / `ast.Ident.IsExported`: the name starts with an upper-case
      letter (ASCII letters only in this model). */
  predicate IsExported(name: string) {
    |name| > 0 && IsUpperAscii(name[0])
  }

  /** `tags.Get(key)`: the first entry with that key. */
  function Lookup(entries: seq<TagEntry>, key: string): (r: Option<TagEntry>)
    ensures r.Some? ==> r.value in entries && r.value.key == key
    ensures r.None? ==> forall e :: e in entries ==> e.key != key
  {
    if |entries| == 0 then None
    else if entries[0].key == key then Some(entries[0])
    else Lookup(entries[1..], key)
  }

  predicate HasOption(t: TagEntry, option: string) {
    option in t.options
  }
}

=== FILE: idents.dfy ===
/** Identifier mapping, the JavaScript-name test and the operator precedence tables
    of the type writer. */
module Idents {
  import opened Text
  import opened GoAst

  /** Go's numeric basic types; each renders as TypeScript `number`. */
  const NumericNames: set<string> := {
    "int", "int8", "int16", "int32", "int64",
    "uint", "uint8", "uint16", "uint32", "uint64",
    "float32", "float64", "complex64", "complex128", "rune"}

  /** `getIdent`: Go basic type names become TypeScript ones, keeping the Go name in a
      comment for the numeric types; every other identifier is left as it is. */
  function GetIdent(s: string): (r: string)
    ensures s == "bool" ==> r == "boolean"
    ensures s in NumericNames ==> r == "number /* " + s + " */"
    ensures s != "bool" && s !in NumericNames ==> r == s
  {
    if s == "bool" then "boolean"
    else if s in NumericNames then "number /* " + s + " */"
    else s
  }

  // ----- validJSName: the multi-line regular expression ^[\pL_][\pL\pN_]*$ -----

  predicate IsLetter(c: char) {
    IsUpperAscii(c) || IsLowerAscii(c)
  }

  predicate IsNameStart(c: char) {
    IsLetter(c) || c == '_'
  }

  predicate IsNamePart(c: char) {
    IsNameStart(c) || IsDigit(c)
  }

  /** `n[i..j]` is a whole line of `n`: `^` and `$` in multi-line mode. */
  predicate IsLine(n: string, i: int, j: int) {
    && 0 <= i <= j <= |n|
    && (i == 0 || n[i - 1] == '\n')
    && (j == |n| || n[j] == '\n')
  }

  /** `n[i..j]` matches `[\pL_][\pL\pN_]*`. */
  predicate IsName(n: string, i: int, j: int) {
    && 0 <= i < j <= |n|
    && IsNameStart(n[i])
    && forall k :: i < k < j ==> IsNamePart(n[k])
  }

  /** The language the regular expression accepts: some line of `n` is a name. */
  ghost predicate SomeLineIsName(n: string) {
    exists i, j :: IsLine(n, i, j) && IsName(n, i, j)
  }

  /** `validJSName`: whether `n` may appear unquoted as a property key. Because the
      expression is compiled in multi-line mode, one matching line suffices. */
  function ValidJSName(n: string): (r: bool)
    ensures r <==> SomeLineIsName(n)
  {
    ScanLines(n, 0, 0, true)
  }

  /** A left-to-right scan of `n`: `start` is where the current line begins, `i` the
      next character, and `good` whether `n[start..i]` is still a name (or empty). */
  function ScanLines(n: string, start: nat, i: nat, good: bool): (r: bool)
    requires start <= i <= |n|
    requires start == 0 || n[start - 1] == '\n'
    requires forall k :: start <= k < i ==> n[k] != '\n'
    requires good <==> (start == i || IsName(n, start, i))
    requires forall a, b :: IsLine(n, a, b) && b < start ==> !IsName(n, a, b)
    ensures r <==> SomeLineIsName(n)
    decreases |n| - i
  {
    if i == |n| || n[i] == '\n' then
      if start < i && good then
        assert IsLine(n, start, i) && IsName(n, start, i);
        true
      else
        LineScanned(n, start, i);
        if i == |n| then false
        else ScanLines(n, i + 1, i + 1, true)
    else
      ScanLines(n, start, i + 1, good && (if start == i then IsNameStart(n[i]) else IsNamePart(n[i])))
  }

  /** Once the line `n[start..i]` is known not to be a name, no line ending at or
      before `i` is one. */
  lemma LineScanned(n: string, start: nat, i: nat)
    requires start <= i <= |n|
    requires i == |n| || n[i] == '\n'
    requires start == 0 || n[start - 1] == '\n'
    requires forall k :: start <= k < i ==> n[k] != '\n'
    requires !IsName(n, start, i)
    requires forall a, b :: IsLine(n, a, b) && b < start ==> !IsName(n, a, b)
    ensures forall a, b :: IsLine(n, a, b) && b <= i ==> !IsName(n, a, b)
  {
    forall a, b | IsLine(n, a, b) && b <= i && b >= start
      ensures !IsName(n, a, b)
    {
      assert b == i;
      if a < start {
        assert !IsNamePart(n[start - 1]);
      } else if a > start {
        assert false;
      }
    }
  }

  /** A single-line key is unquoted exactly when it is an identifier. */
  lemma SingleLineName(n: string)
    requires forall k :: 0 <= k < |n| ==> n[k] != '\n'
    ensures ValidJSName(n) <==> IsName(n, 0, |n|)
  {
    if ValidJSName(n) {
      var a, b :| IsLine(n, a, b) && IsName(n, a, b);
      assert a == 0 && b == |n|;
    } else {
      assert !(IsLine(n, 0, |n|) && IsName(n, 0, |n|));
    }
  }

  /** In multi-line mode a key with a newline is left unquoted when any one of its
      lines is an identifier. */
  lemma MultilineKeyUnquoted()
    ensures ValidJSName("my-key\nok")
    ensures !ValidJSName("my-key")
  {
    var n := "my-key\nok";
    assert IsLine(n, 7, 9) && IsName(n, 7, 9);
    SingleLineName("my-key");
  }

  // ----- getIdent's partners -----

  /** Mapping twice maps once: TypeScript names are never re-mapped. */
  lemma GetIdentIdempotent(s: string)
    ensures GetIdent(GetIdent(s)) == GetIdent(s)
  {
  }

  /** Distinct Go identifiers render distinctly, except that `bool` and a Go type
      literally named `boolean` both render as `boolean`. */
  lemma {:induction false} GetIdentInjective(a: string, b: string)
    requires IsName(a, 0, |a|) && IsName(b, 0, |b|)
    requires GetIdent(a) == GetIdent(b)
    ensures a == b || {a, b} == {"bool", "boolean"}
  {
    var r := GetIdent(a);
    if a in NumericNames && b in NumericNames {
      assert a == r[10..|r| - 3] == b;
    } else {
      NameHasNoSpace(a);
      NameHasNoSpace(b);
      NumberHasSpace(a);
      NumberHasSpace(b);
    }
  }

  lemma NumberHasSpace(s: string)
    ensures s in NumericNames ==> |GetIdent(s)| > 6 && GetIdent(s)[6] == ' '
  {
  }

  lemma NameHasNoSpace(x: string)
    requires IsName(x, 0, |x|)
    ensures forall k :: 0 <= k < |x| ==> x[k] != ' '
  {
  }

  // ----- jsNumberOperatorPrecedence -----

  /** The generator's operator table as written; operators missing from it read as 0.
      It ranks `|` above `^`, the reverse of JavaScript (`JsLevel`). */
  function Precedence(op: Op): (r: nat)
    ensures op in {Mul, Quo, Rem} <==> r == 6
    ensures op in {Add, Sub} <==> r == 5
    ensures op in {Shl, Shr} <==> r == 4
    ensures op in {And, AndNot} <==> r == 3
    ensures op == Or <==> r == 2
    ensures op == Xor <==> r == 1
    ensures r <= 6
  {
    match op
    case Mul => 6
    case Quo => 6
    case Rem => 6
    case Add => 5
    case Sub => 5
    case Shl => 4
    case Shr => 4
    case And => 3
    case AndNot => 3
    case Or => 2
    case Xor => 1
    case _ => 0
  }

  /** The operators the table ranks. */
  predicate Ranked(op: Op) {
    op in {Mul, Quo, Rem, Add, Sub, Shl, Shr, And, AndNot, Or, Xor}
  }

  /** How tightly JavaScript binds the operator a ranked Go operator is written as,
      following the nesting of the expression grammar of ECMA-262 (section 13): a
      multiplicative expression inside an additive one inside a shift; below the
      relational and equality levels, a bitwise AND inside a bitwise XOR inside a
      bitwise OR. `&^` is written `& ~`, an AND. Higher binds tighter. */
  function JsLevel(op: Op): nat {
    match op
    case Mul => 12
    case Quo => 12
    case Rem => 12
    case Add => 11
    case Sub => 11
    case Shl => 10
    case Shr => 10
    case And => 7
    case AndNot => 7
    case Xor => 6
    case Or => 5
    case _ => 0
  }

  /** The table with `|` and `^` in JavaScript's order, as its link to the JavaScript
      precedence table evidently intends; the type writer uses this one. */
  function JsPrecedence(op: Op): (r: nat)
    ensures op in {Mul, Quo, Rem} <==> r == 6
    ensures op in {Add, Sub} <==> r == 5
    ensures op in {Shl, Shr} <==> r == 4
    ensures op in {And, AndNot} <==> r == 3
    ensures op == Xor <==> r == 2
    ensures op == Or <==> r == 1
    ensures r <= 6
  {
    match op
    case Mul => 6
    case Quo => 6
    case Rem => 6
    case Add => 5
    case Sub => 5
    case Shl => 4
    case Shr => 4
    case And => 3
    case AndNot => 3
    case Xor => 2
    case Or => 1
    case _ => 0
  }

  /** The corrected table orders every pair of ranked operators as JavaScript does. */
  lemma JsPrecedenceOrder(a: Op, b: Op)
    requires Ranked(a) && Ranked(b)
    ensures JsPrecedence(a) < JsPrecedence(b) <==> JsLevel(a) < JsLevel(b)
  {
  }

  /** The table as written orders `|` and `^` against JavaScript, and every other pair
      of ranked operators as JavaScript does. */
  lemma TableAsWritten(a: Op, b: Op)
    ensures Precedence(Xor) < Precedence(Or) && JsLevel(Or) < JsLevel(Xor)
    ensures Ranked(a) && Ranked(b) && !(a in {Or, Xor} && b in {Or, Xor}) ==>
      (Precedence(a) < Precedence(b) <==> JsLevel(a) < JsLevel(b))
  {
  }

  /** The two tables compare any two operators alike, unless both are `|` or `^`. */
  lemma TablesAgreeOffOrXor(a: Op, b: Op)
    requires !(a in {Or, Xor} && b in {Or, Xor})
    ensures Precedence(a) < Precedence(b) <==> JsPrecedence(a) < JsPrecedence(b)
  {
  }
}

=== FILE: iota.dfy ===
/** Recognising an iota expression and guessing its constant offset. */
module Iota {
  import opened Results
  import opened Text

  const Parens: set<char> := {'(', ')'}

  /** Whether the rendered value of a constant looks like an iota expression: after
      trimming every leading and trailing parenthesis it is `iota`, starts with
      `iota +` or ends with `+ iota`. */
  predicate IsProbablyIotaType(s: string) {
    var t := TrimSet(s, Parens);
    t == "iota" || StartsWith(t, "iota +") || EndsWith(t, "+ iota")
  }

  /** The recogniser accepts `iota`, `iota + x` and `x + iota` for any operand `x`
      not starting or ending in a parenthesis. */
  lemma IotaFormsRecognised(x: string)
    requires |x| > 0 && x[0] !in Parens && x[|x| - 1] !in Parens
    ensures IsProbablyIotaType("iota")
    ensures IsProbablyIotaType("iota + " + x)
    ensures IsProbablyIotaType(x + " + iota")
  {
    TrimSetNoop("iota", Parens);
    IotaPlusShape(x);
    TrimSetNoop("iota + " + x, Parens);
    PlusIotaShape(x);
    TrimSetNoop(x + " + iota", Parens);
  }

  /** A value in which no `a` occurs cannot spell `iota` and is rejected. */
  lemma NoIotaRejected(x: string)
    requires |x| > 0 && x[0] !in Parens && x[|x| - 1] !in Parens
    requires forall k :: 0 <= k < |x| ==> x[k] != 'a'
    ensures !IsProbablyIotaType(x)
  {
    TrimSetNoop(x, Parens);
    assert x != "iota" by { assert "iota"[3] == 'a'; }
    assert |x| >= 6 ==> x[3] != 'a';
    assert x[|x| - 1] != 'a';
  }

  /** `basicIotaOffsetValueParse`: the constant added to `iota`, read as a decimal
      64-bit integer from the part that is not `iota`. A non-iota input and an
      offset that is not an integer are fatal. */
  function BasicIotaOffsetValueParse(s: string): (r: Result<int>)
    ensures r.Ok? ==> IsProbablyIotaType(s)
    ensures r.Ok? ==> -Pow2(63) <= r.value < Pow2(63)
  {
    if !IsProbablyIotaType(s) then Fail("can't parse non-iota type")
    else
      var t := TrimSet(s, Parens);
      if t == "iota" then Ok(0)
      else
        var parts := Split(t, " + ");
        var numPart := if parts[0] == "iota" then parts[1] else parts[0];
        ParseInt(numPart, 10, 64)
  }

  // ----- the trim behind the recogniser -----

  lemma {:induction false} TrimLeftSnoc(a: string, c: char, cut: set<char>)
    requires c in cut
    ensures TrimLeftSet(a + [c], cut) == (if TrimLeftSet(a, cut) == "" then "" else TrimLeftSet(a, cut) + [c])
    decreases |a|
  {
    if |a| == 0 {
      assert [c][1..] == [];
    } else {
      assert (a + [c])[1..] == a[1..] + [c];
      if a[0] in cut {
        TrimLeftSnoc(a[1..], c, cut);
      }
    }
  }

  lemma TrimRightSnoc(a: string, c: char, cut: set<char>)
    requires c in cut
    ensures TrimRightSet(a + [c], cut) == TrimRightSet(a, cut)
  {
    assert (a + [c])[..|a|] == a;
  }

  lemma TrimLeftCons(c: char, a: string, cut: set<char>)
    requires c in cut
    ensures TrimLeftSet([c] + a, cut) == TrimLeftSet(a, cut)
  {
    assert ([c] + a)[1..] == a;
  }

  /** Wrapping in one more pair of parentheses changes nothing after the trim. */
  lemma ParenWrapTrim(s: string)
    ensures TrimSet("(" + s + ")", Parens) == TrimSet(s, Parens)
  {
    assert "(" + s + ")" == ['('] + (s + [')']);
    TrimLeftCons('(', s + [')'], Parens);
    TrimLeftSnoc(s, ')', Parens);
    var l := TrimLeftSet(s, Parens);
    if l != "" {
      TrimRightSnoc(l, ')', Parens);
    }
  }

  /** Parenthesising a value does not change whether it is recognised as iota, nor
      the offset read from it. */
  lemma ParenWrapKeepsVerdict(s: string)
    ensures IsProbablyIotaType("(" + s + ")") == IsProbablyIotaType(s)
    ensures BasicIotaOffsetValueParse("(" + s + ")") == BasicIotaOffsetValueParse(s)
  {
    ParenWrapTrim(s);
  }

  // ----- offsets -----

  /** The offset read from a value with no parenthesis at either end that splits
      into `parts`. */
  lemma OffsetOfParts(s: string, parts: seq<string>)
    requires |s| > 0 && s[0] !in Parens && s[|s| - 1] !in Parens && s != "iota"
    requires StartsWith(s, "iota +") || EndsWith(s, "+ iota")
    requires Split(s, " + ") == parts && |parts| >= 2
    ensures BasicIotaOffsetValueParse(s) == ParseInt(if parts[0] == "iota" then parts[1] else parts[0], 10, 64)
  {
    TrimSetNoop(s, Parens);
  }

  /** `iota` inside any number of parentheses has offset 0. */
  lemma PlainIotaOffset(s: string)
    requires TrimSet(s, Parens) == "iota"
    ensures BasicIotaOffsetValueParse(s) == Ok(0)
  {
  }

  /** `iota + x`, for an operand without spaces, has the offset read from `x`. */
  lemma IotaPlusOperand(x: string)
    requires |x| > 0 && x[|x| - 1] !in Parens
    requires forall k :: 0 <= k < |x| ==> x[k] != ' '
    ensures BasicIotaOffsetValueParse("iota + " + x) == ParseInt(x, 10, 64)
  {
    IotaPlusShape(x);
    IotaPlusRegrouped(x);
    OperandParts("iota", x);
    OffsetOfParts("iota + " + x, ["iota", x]);
  }

  /** `x + iota`, for an operand without spaces other than `iota`, has the offset
      read from `x`. */
  lemma OperandPlusIota(x: string)
    requires |x| > 0 && x[0] !in Parens && x != "iota"
    requires forall k :: 0 <= k < |x| ==> x[k] != ' '
    ensures BasicIotaOffsetValueParse(x + " + iota") == ParseInt(x, 10, 64)
  {
    PlusIotaShape(x);
    PlusIotaRegrouped(x);
    OperandParts(x, "iota");
    OffsetOfParts(x + " + iota", [x, "iota"]);
  }

  lemma IotaPlusShape(x: string)
    requires |x| > 0 && x[|x| - 1] !in Parens
    ensures var s := "iota + " + x;
      s[0] !in Parens && s[|s| - 1] !in Parens && s != "iota" && StartsWith(s, "iota +")
  {
    var s := "iota + " + x;
    assert s[0] == 'i' && s[|s| - 1] == x[|x| - 1];
    assert s[..6] == "iota +";
  }

  lemma PlusIotaShape(x: string)
    requires |x| > 0 && x[0] !in Parens
    ensures var s := x + " + iota";
      s[0] !in Parens && s[|s| - 1] !in Parens && s != "iota" && EndsWith(s, "+ iota")
  {
    var s := x + " + iota";
    assert |s| == |x| + 7;
    assert s[0] == x[0] && s[|s| - 1] == 'a';
    assert s[|s| - 6..] == "+ iota";
  }

  lemma IotaPlusRegrouped(x: string)
    ensures "iota + " + x == "iota" + " + " + x
  {
  }

  lemma PlusIotaRegrouped(x: string)
    ensures x + " + iota" == x + " + " + "iota"
  {
  }

  /** Two operands without spaces split at the ` + ` between them. */
  lemma OperandParts(a: string, b: string)
    requires forall k :: 0 <= k < |a| ==> a[k] != ' '
    requires forall k :: 0 <= k < |b| ==> b[k] != ' '
    ensures Split(a + " + " + b, " + ") == [a, b]
  {
    SplitAfterAbsent(a, " + ", b);
    SplitAbsent(b, " + ");
  }

  /** `iota + N` has offset N, for every 64-bit N. */
  lemma IotaPlusOffset(n: int)
    requires -Pow2(63) <= n < Pow2(63)
    ensures BasicIotaOffsetValueParse("iota + " + IntToString(n)) == Ok(n)
  {
    var d := IntToString(n);
    IntToStringChars(n);
    IotaPlusOperand(d);
    ParseIntOfIntToString(n);
  }

  /** `N + iota` has offset N, for every 64-bit N. */
  lemma OffsetPlusIota(n: int)
    requires -Pow2(63) <= n < Pow2(63)
    ensures BasicIotaOffsetValueParse(IntToString(n) + " + iota") == Ok(n)
  {
    var d := IntToString(n);
    IntToStringChars(n);
    assert d[0] != 'i';
    OperandPlusIota(d);
    ParseIntOfIntToString(n);
  }

  /** An offset that is not a decimal integer is fatal. */
  lemma NonIntegerOffsetFails(x: string)
    requires |x| > 0 && IsLowerAscii(x[0]) && IsLowerAscii(x[|x| - 1])
    requires forall k :: 0 <= k < |x| ==> x[k] != ' '
    ensures BasicIotaOffsetValueParse("iota + " + x).Fail?
  {
    IotaPlusOperand(x);
    ParseIntRejectsNonDigit(x, 10, 64);
  }
}

=== FILE: literals.dfy ===
/** How the type writer rewrites Go literals so that they read the same in
    TypeScript: legacy octal integers, character literals and string escapes. */
module Literals {
  import opened Results
  import opened Text
  import opened GoAst

  // ----- integer literals -----

  predicate IsOctalDigit(c: char) {
    '0' <= c <= '7'
  }

  /** The source's `^0[0-7]`: a legacy octal literal such as `0755`. */
  predicate HasLegacyOctalPrefix(v: string) {
    |v| >= 2 && v[0] == '0' && IsOctalDigit(v[1])
  }

  /** A Go decimal literal, or a legacy octal one (a `0` followed by octal digits). */
  predicate IsDecimalOrLegacyOctal(v: string) {
    && |v| > 0
    && (forall k :: 0 <= k < |v| ==> IsDigit(v[k]))
    && (v[0] == '0' ==> forall k :: 1 <= k < |v| ==> IsOctalDigit(v[k]))
  }

  /** The value Go gives such a literal. */
  function GoIntValue(v: string): nat {
    if |v| > 1 && v[0] == '0' then DigitsValue(v[1..], 8) else DigitsValue(v, 10)
  }

  /** The value TypeScript gives a decimal or `0o` literal. */
  function TsIntValue(v: string): nat {
    if StartsWith(v, "0o") then DigitsValue(v[2..], 8) else DigitsValue(v, 10)
  }

  /** TypeScript rejects a literal with a leading zero followed by more digits. */
  predicate TsAcceptsIntLiteral(v: string) {
    !(|v| >= 2 && v[0] == '0' && IsDigit(v[1]))
  }

  /** Integer literal rewrite: a legacy octal literal gains the `0o` prefix so that
      TypeScript reads the same number; every other literal is left alone. */
  function RewriteIntLit(v: string): (r: string)
    ensures IsDecimalOrLegacyOctal(v) ==> TsAcceptsIntLiteral(r) && TsIntValue(r) == GoIntValue(v)
    ensures !HasLegacyOctalPrefix(v) ==> r == v
  {
    if HasLegacyOctalPrefix(v) then
      var r := "0o" + v[1..];
      assert r[2..] == v[1..];
      r
    else v
  }

  // ----- character literals -----

  /** `encoding/json`'s two-character escapes, other than `\u`. */
  function JsonEscape(c: char): (r: Result<char>)
    ensures r.Ok? <==> c in {'"', '\\', '/', 'b', 'f', 'n', 'r', 't'}
  {
    match c
    case '"' => Ok('"')
    case '\\' => Ok('\\')
    case '/' => Ok('/')
    case 'b' => Ok(8 as char)
    case 'f' => Ok(12 as char)
    case 'n' => Ok('\n')
    case 'r' => Ok('\r')
    case 't' => Ok('\t')
    case _ => Fail("invalid character in string escape code")
  }

  /** `json.Unmarshal` of the JSON string whose body is `s`. A control character or
      a bare quote is an error; `\u` escapes are not part of this model. */
  function JsonUnquote(s: string): (r: Result<string>)
    ensures r.Ok? ==> |r.value| <= |s|
    ensures r.Ok? && |s| > 0 ==> |r.value| > 0
    decreases |s|
  {
    if |s| == 0 then Ok("")
    else if s[0] == '\\' then
      if |s| < 2 then Fail("unexpected end of JSON input")
      else
        var e :- JsonEscape(s[1]);
        var rest :- JsonUnquote(s[2..]);
        Ok([e] + rest)
    else if s[0] == '"' || s[0] < ' ' then Fail("invalid character in string literal")
    else
      var rest :- JsonUnquote(s[1..]);
      Ok([s[0]] + rest)
  }

  /** The code point of a character literal: a hexadecimal escape is parsed as a
      32-bit number, anything else is decoded as the body of a JSON string and its
      first character taken. Every failure aborts the run. */
  function DecodeCharLit(v: string): (r: Result<int>)
    ensures r.Ok? ==> r.value < 0x8000_0000
    ensures r.Ok? && !(StartsWith(v, "'\\x") || StartsWith(v, "'\\u") || StartsWith(v, "'\\U")) ==> r.value >= 0
  {
    if StartsWith(v, "'\\x") || StartsWith(v, "'\\u") || StartsWith(v, "'\\U") then
      if |v| < 4 then Fail("slice bounds out of range")
      else
        Pow2Value31();
        ParseInt(v[3..|v| - 1], 16, 32)
    else if |v| < 2 then Fail("slice bounds out of range")
    else
      var s :- JsonUnquote(v[1..|v| - 1]);
      if |s| == 0 then Fail("index out of range") else Ok(s[0] as int)
  }

  /** A printable character other than a quote or a backslash is its own code point. */
  lemma PlainCharValue(c: char)
    requires c != '\\' && c != '"' && c >= ' '
    ensures DecodeCharLit(['\'', c, '\'']) == Ok(c as int)
  {
    var v := ['\'', c, '\''];
    assert v[1..|v| - 1] == [c];
    assert [c][1..] == "";
    assert JsonUnquote([c]) == Ok([c] + "");
  }

  /** A two-character escape such as `'\n'` is the code point JSON gives it. */
  lemma EscapedCharValue(e: char)
    requires JsonEscape(e).Ok?
    ensures DecodeCharLit(['\'', '\\', e, '\'']) == Ok(JsonEscape(e).value as int)
  {
    var v := ['\'', '\\', e, '\''];
    assert v[1..|v| - 1] == ['\\', e];
    assert ['\\', e][2..] == "";
    assert v[..3] != "'\\x" && v[..3] != "'\\u" && v[..3] != "'\\U";
    assert JsonUnquote(['\\', e]) == Ok([JsonEscape(e).value] + "");
  }

  /** The number of hex digits a code point is printed with. */
  function HexWidth(c: int): nat {
    if c > 0xFFFF then 8 else 4
  }

  predicate IsUpperHexDigit(c: char) {
    IsDigit(c) || 'A' <= c <= 'F'
  }

  /** `h` spells the code point `c` in upper-case hex, as wide as `HexWidth` asks. */
  predicate SpellsCodePoint(h: string, c: int) {
    && |h| == HexWidth(c)
    && (forall k :: 0 <= k < |h| ==> IsUpperHexDigit(h[k]))
    && DigitsValue(h, 16) == c
  }

  /** Character literal rewrite: the code point in upper-case hex, 4 digits wide (8
      above U+FFFF), followed by the original literal in a comment. */
  function RewriteCharLit(v: string): (r: Result<string>)
    ensures r.Ok? <==> DecodeCharLit(v).Ok?
    ensures r.Ok? && DecodeCharLit(v).value >= 0 ==>
      exists h :: SpellsCodePoint(h, DecodeCharLit(v).value) && r.value == "0x" + h + " /* " + v + " */"
  {
    var c :- DecodeCharLit(v);
    var h := FormatHexWidth(c, HexWidth(c));
    if c >= 0 then
      HexWidthReadsBack(c, HexWidth(c));
      assert Pow(16, 4) == 0x1_0000 && Pow(16, 8) == 0x1_0000_0000;
      assert SpellsCodePoint(h, c);
      Ok("0x" + h + " /* " + v + " */")
    else
      Ok("0x" + h + " /* " + v + " */")
  }

  /** A non-negative number prints as upper-case hex digits that read back as it,
      exactly `w` of them when it fits in `w` digits. */
  lemma {:induction false} HexWidthReadsBack(n: nat, w: nat)
    requires 1 <= w
    ensures var h := FormatHexWidth(n, w);
      && (forall k :: 0 <= k < |h| ==> IsUpperHexDigit(h[k]))
      && DigitsValue(h, 16) == n
      && (n < Pow(16, w) ==> |h| == w)
  {
    FormatNatDigits(n, 16);
    FormatNatUpper(n);
    if n < Pow(16, w) {
      FormatNatShort(n, w);
    }
    ZeroPadKeepsDigits(FormatNat(n, 16), w);
  }

  /** Zero padding keeps a run of upper-case hex digits and its value. */
  lemma ZeroPadKeepsDigits(f: string, w: nat)
    requires forall k :: 0 <= k < |f| ==> IsUpperHexDigit(f[k])
    ensures var h := PadLeft(f, w, '0');
      && (forall k :: 0 <= k < |h| ==> IsUpperHexDigit(h[k]))
      && DigitsValue(h, 16) == DigitsValue(f, 16)
  {
    if |f| < w {
      var z := Repeat("0", w - |f|);
      assert Repeat(['0'], w - |f|) == z;
      LeadingZerosValue(w - |f|, f, 16);
      forall k | 0 <= k < |z|
        ensures z[k] == '0'
      {
        RepeatZerosAreZeros(w - |f|, k);
      }
      var h := z + f;
      forall k | 0 <= k < |h|
        ensures IsUpperHexDigit(h[k])
      {
        if k < |z| {
          assert h[k] == z[k];
        } else {
          assert h[k] == f[k - |z|];
        }
      }
    }
  }

  lemma {:induction false} RepeatZerosAreZeros(m: nat, k: nat)
    requires k < m
    ensures k < |Repeat("0", m)| && Repeat("0", m)[k] == '0'
    decreases m
  {
    if k > 0 {
      RepeatZerosAreZeros(m - 1, k - 1);
    }
  }

  lemma {:induction false} FormatNatUpper(n: nat)
    ensures forall k :: 0 <= k < |FormatNat(n, 16)| ==> IsUpperHexDigit(FormatNat(n, 16)[k])
    decreases n
  {
    if n >= 16 {
      FormatNatUpper(n / 16);
    }
  }

  lemma {:induction false} FormatNatShort(n: nat, w: nat)
    requires 1 <= w && n < Pow(16, w)
    ensures |FormatNat(n, 16)| <= w
    decreases n
  {
    if n >= 16 {
      assert Pow(16, 1) == 16;
      assert w >= 2;
      assert n / 16 < Pow(16, w - 1);
      FormatNatShort(n / 16, w - 1);
    }
  }

  lemma Pow2Value31()
    ensures Pow2(31) == 0x8000_0000
  {
    assert Pow2(8) == 256;
    assert Pow2(16) == 65536;
    assert Pow2(24) == 16777216;
  }

  /** A `'\uXXXX'` escape written in upper-case hex comes back with the same digits. */
  lemma HexEscapeRoundTrip(n: nat)
    requires n <= 0xFFFF
    ensures var h := FormatHexWidth(n, 4);
      RewriteCharLit("'\\u" + h + "'") == Ok("0x" + h + " /* '\\u" + h + "' */")
  {
    var h := FormatHexWidth(n, 4);
    HexWidthReadsBack(n, 4);
    Pow16Values();
    UpperHexParses(h, n);
    DecodeHexEscape(h, n);
    assert HexWidth(n) == 4;
    EscapeInComment(h);
  }

  lemma EscapeInComment(h: string)
    ensures "0x" + h + " /* " + ("'\\u" + h + "'") + " */" == "0x" + h + " /* '\\u" + h + "' */"
  {
  }

  lemma Pow16Values()
    ensures Pow(16, 4) == 0x1_0000 && Pow(16, 8) == 0x1_0000_0000
  {
  }

  /** Upper-case hex digits of a value below 2^31 parse back as it. */
  lemma UpperHexParses(h: string, n: nat)
    requires |h| > 0 && (forall k :: 0 <= k < |h| ==> IsUpperHexDigit(h[k]))
    requires DigitsValue(h, 16) == n && n < 0x8000_0000
    ensures ParseInt(h, 16, 32) == Ok(n)
  {
    assert AllBaseDigits(h, 16);
    assert IsUpperHexDigit(h[0]);
    Pow2Value31();
    ParseUnsigned(h, 16, 32);
  }

  /** A `'\u` literal decodes to what its hex body parses to. */
  lemma DecodeHexEscape(h: string, n: int)
    requires ParseInt(h, 16, 32) == Ok(n)
    ensures DecodeCharLit("'\\u" + h + "'") == Ok(n)
  {
    var v := "'\\u" + h + "'";
    assert v[3..|v| - 1] == h;
    assert v[..3] == "'\\u";
  }

  // ----- string literals -----

  /** Raw string rewrite: a `\` goes in front of every `$` and every `\`, so that a
      TypeScript template literal keeps the raw text. */
  function EscapeBackquoted(v: string): (r: string)
    ensures UnescapeBackquoted(r) == v
    ensures |r| >= |v|
    decreases |v|
  {
    if |v| == 0 then ""
    else
      var rest := EscapeBackquoted(v[1..]);
      if v[0] == '$' || v[0] == '\\' then
        var r := ['\\', v[0]] + rest;
        assert r[2..] == rest;
        r
      else
        var r := [v[0]] + rest;
        assert r[1..] == rest;
        r
  }

  /** How a template literal reads such text back: `\$` is `$` and `\\` is `\`. */
  function UnescapeBackquoted(s: string): string
    decreases |s|
  {
    if |s| == 0 then ""
    else if |s| >= 2 && s[0] == '\\' && (s[1] == '$' || s[1] == '\\') then [s[1]] + UnescapeBackquoted(s[2..])
    else [s[0]] + UnescapeBackquoted(s[1..])
  }

  /** `\U` followed by eight hex digits at the front of `s`. */
  predicate StartsWithUnicode8(s: string) {
    |s| >= 10 && s[0] == '\\' && s[1] == 'U' && forall k :: 2 <= k < 10 ==> IsHexDigit(s[k])
  }

  function UpperHex(c: char): char {
    if 'a' <= c <= 'f' then (c as int - 32) as char else c
  }

  /** `strings.ToUpper` on hex digits. */
  function UpperHexDigits(s: string): (r: string)
    ensures |r| == |s|
    ensures forall k :: 0 <= k < |s| ==> r[k] == UpperHex(s[k])
  {
    if |s| == 0 then "" else [UpperHex(s[0])] + UpperHexDigits(s[1..])
  }

  /** Whether a left-to-right reading of `s`, taking `\\` as one unit, meets a
      `\U` escape with eight hex digits. */
  predicate HasUnicode8(s: string)
    decreases |s|
  {
    if |s| == 0 then false
    else if StartsWith(s, "\\\\") then HasUnicode8(s[2..])
    else if StartsWithUnicode8(s) then true
    else HasUnicode8(s[1..])
  }

  /** Interpreted string rewrite: the leftmost-first scan for `\\` or `\U` plus eight
      hex digits; an escaped backslash is kept, and `\UXXXXXXXX` becomes the
      TypeScript code-point escape `\u{XXXXXXXX}` in upper case. The rewrite keeps the
      first character; `NormalizeLeavesNoUnicode8` and `NormalizeKeepsPlain` state
      what it achieves. */
  function NormalizeUnicode8(s: string): (r: string)
    ensures |s| > 0 ==> |r| > 0 && r[0] == s[0]
    decreases |s|
  {
    if |s| == 0 then ""
    else if StartsWith(s, "\\\\") then "\\\\" + NormalizeUnicode8(s[2..])
    else if StartsWithUnicode8(s) then "\\u{" + UpperHexDigits(s[2..10]) + "}" + NormalizeUnicode8(s[10..])
    else [s[0]] + NormalizeUnicode8(s[1..])
  }

  /** After the rewrite no `\U` escape with eight hex digits is left. */
  lemma {:induction false} NormalizeLeavesNoUnicode8(s: string)
    ensures !HasUnicode8(NormalizeUnicode8(s))
    decreases |s|
  {
    if |s| == 0 {
    } else if StartsWith(s, "\\\\") {
      NormalizeLeavesNoUnicode8(s[2..]);
      EscapedBackslashStep(NormalizeUnicode8(s[2..]));
    } else if StartsWithUnicode8(s) {
      NormalizeLeavesNoUnicode8(s[10..]);
      CodePointEscapeStep(UpperHexDigits(s[2..10]), NormalizeUnicode8(s[10..]));
    } else {
      NormalizeLeavesNoUnicode8(s[1..]);
      var rest := NormalizeUnicode8(s[1..]);
      if s[0] == '\\' && |rest| > 0 && rest[0] == 'U' {
        UnicodeEscapeNotCreated(s);
      }
      PlainCharStep(s[0], rest);
    }
  }

  lemma EscapedBackslashStep(rest: string)
    requires !HasUnicode8(rest)
    ensures !HasUnicode8("\\\\" + rest)
  {
    var r := "\\\\" + rest;
    assert r[2..] == rest;
    assert StartsWith(r, "\\\\");
  }

  lemma CodePointEscapeStep(u: string, rest: string)
    requires !HasUnicode8(rest)
    requires forall k :: 0 <= k < |u| ==> u[k] != '\\'
    ensures !HasUnicode8("\\u{" + u + "}" + rest)
  {
    var body := "u{" + u + "}";
    NoBackslashPrefix(body, rest);
    var r := "\\u{" + u + "}" + rest;
    assert r[1..] == body + rest;
    assert r[1] == 'u';
  }

  lemma PlainCharStep(c: char, rest: string)
    requires !HasUnicode8(rest)
    requires !StartsWith([c] + rest, "\\\\") && !StartsWithUnicode8([c] + rest)
    ensures !HasUnicode8([c] + rest)
  {
    assert ([c] + rest)[1..] == rest;
  }

  /** A backslash that does not start an escape stays harmless after the rewrite. */
  lemma UnicodeEscapeNotCreated(s: string)
    requires |s| > 1 && s[0] == '\\' && !StartsWith(s, "\\\\") && !StartsWithUnicode8(s)
    requires |NormalizeUnicode8(s[1..])| > 0 && NormalizeUnicode8(s[1..])[0] == 'U'
    ensures !StartsWithUnicode8([s[0]] + NormalizeUnicode8(s[1..]))
    ensures !StartsWith([s[0]] + NormalizeUnicode8(s[1..]), "\\\\")
  {
    var t := s[1..];
    assert t[0] == 'U';
    assert t[1..] == s[2..];
    var n := NormalizeUnicode8(s[2..]);
    var r := [s[0]] + ([t[0]] + n);
    assert NormalizeUnicode8(t) == [t[0]] + n;
    assert r[2..] == n;
    if StartsWithUnicode8(r) {
      assert forall k :: 0 <= k < 8 ==> IsHexDigit(n[k]) by {
        forall k | 0 <= k < 8 ensures IsHexDigit(n[k]) {
          assert n[k] == r[k + 2];
        }
      }
      HexPrefixKept(s[2..], 8);
      assert false;
    }
  }

  /** A string without such an escape is returned unchanged. */
  lemma {:induction false} NormalizeKeepsPlain(s: string)
    requires !HasUnicode8(s)
    ensures NormalizeUnicode8(s) == s
    decreases |s|
  {
    if |s| == 0 {
    } else if StartsWith(s, "\\\\") {
      NormalizeKeepsPlain(s[2..]);
      assert s == "\\\\" + s[2..];
    } else {
      assert !StartsWithUnicode8(s);
      NormalizeKeepsPlain(s[1..]);
      assert s == [s[0]] + s[1..];
    }
  }

  /** Characters other than a backslash are read one by one. */
  lemma {:induction false} NoBackslashPrefix(p: string, x: string)
    requires forall k :: 0 <= k < |p| ==> p[k] != '\\'
    ensures HasUnicode8(p + x) == HasUnicode8(x)
    decreases |p|
  {
    if |p| > 0 {
      assert (p + x)[1..] == p[1..] + x;
      assert (p + x)[0] == p[0];
      assert !StartsWith(p + x, "\\\\") && !StartsWithUnicode8(p + x);
      NoBackslashPrefix(p[1..], x);
    } else {
      assert p + x == x;
    }
  }

  /** The rewrite cannot create hex digits: a run of them at the front of the result
      was already at the front of the input. */
  lemma {:induction false} HexPrefixKept(u: string, m: nat)
    ensures m <= |NormalizeUnicode8(u)| && (forall k :: 0 <= k < m ==> IsHexDigit(NormalizeUnicode8(u)[k]))
            ==> m <= |u| && forall k :: 0 <= k < m ==> IsHexDigit(u[k])
    decreases |u| + 1
  {
    var n := NormalizeUnicode8(u);
    if m > 0 && m <= |n| && (forall k :: 0 <= k < m ==> IsHexDigit(n[k])) {
      assert |u| > 0;
      assert u[0] == n[0];
      if u[0] != '\\' {
        assert n[1..] == NormalizeUnicode8(u[1..]);
        HexPrefixKept(u[1..], m - 1);
      }
    }
  }

  /** A `\U` escape keeps its code point: the upper-cased digits have the same value. */
  lemma Unicode8KeepsCodePoint(s: string)
    requires StartsWithUnicode8(s)
    ensures exists u :: && NormalizeUnicode8(s) == "\\u{" + u + "}" + NormalizeUnicode8(s[10..])
                        && DigitsValue(u, 16) == DigitsValue(s[2..10], 16)
  {
    var u := UpperHexDigits(s[2..10]);
    UpperHexKeepsValue(s[2..10]);
    assert NormalizeUnicode8(s) == "\\u{" + u + "}" + NormalizeUnicode8(s[10..]);
  }

  /** Upper-casing hex digits keeps their value. */
  lemma {:induction false} UpperHexKeepsValue(s: string)
    requires forall k :: 0 <= k < |s| ==> IsHexDigit(s[k])
    ensures DigitsValue(UpperHexDigits(s), 16) == DigitsValue(s, 16)
    decreases |s|
  {
    if |s| > 0 {
      var u := UpperHexDigits(s);
      assert u[..|u| - 1] == UpperHexDigits(s[..|s| - 1]);
      UpperHexKeepsValue(s[..|s| - 1]);
    }
  }

  /** The literal rewrite of `writeType`: integer, character and string literals are
      rewritten, floating-point and imaginary ones kept verbatim. */
  function RewriteLit(kind: LitKind, raw: string): (r: Result<string>)
    ensures kind != CharLit ==> r.Ok?
    ensures kind in {FloatLit, ImagLit} ==> r == Ok(raw)
    ensures kind == IntLit ==> r == Ok(RewriteIntLit(raw))
    ensures kind == CharLit ==> r == RewriteCharLit(raw)
    ensures kind == StringLit && StartsWith(raw, "`") ==> UnescapeBackquoted(r.value) == raw
    ensures kind == StringLit && !StartsWith(raw, "`") ==> !HasUnicode8(r.value)
    ensures kind == StringLit && !StartsWith(raw, "`") && !HasUnicode8(raw) ==> r == Ok(raw)
  {
    match kind
    case IntLit => Ok(RewriteIntLit(raw))
    case CharLit => RewriteCharLit(raw)
    case StringLit =>
      if StartsWith(raw, "`") then Ok(EscapeBackquoted(raw))
      else
        NormalizeLeavesNoUnicode8(raw);
        if !HasUnicode8(raw) then NormalizeKeepsPlain(raw); Ok(NormalizeUnicode8(raw))
        else Ok(NormalizeUnicode8(raw))
    case FloatLit => Ok(raw)
    case ImagLit => Ok(raw)
  }
}

=== FILE: packagegen.dfy ===
/** Per-file and per-package orchestration: which declarations of a file are
    written, the once-per-file source header, and the package loop over the files
    the configuration does not ignore. */
module PackageGen {
  import opened Results
  import opened Text
  import opened GoAst
  import opened Config
  import opened Generator
  import opened TopLevel

  /** The `GenDecl`s `ast.Inspect` reaches in a file, in source order: top-level ones
      and those inside function bodies. */
  function GenDecls(decls: seq<Decl>): (r: seq<GenDecl>)
    ensures forall x :: x in r ==> exists k :: 0 <= k < |decls| && (decls[k] == GenD(x) || (decls[k].FuncD? && x in decls[k].body))
  {
    if |decls| == 0 then []
    else
      var rest := GenDecls(decls[1..]);
      assert forall x :: x in rest ==> exists k :: 1 <= k < |decls| && (decls[k] == GenD(x) || (decls[k].FuncD? && x in decls[k].body)) by {
        forall x | x in rest
          ensures exists k :: 1 <= k < |decls| && (decls[k] == GenD(x) || (decls[k].FuncD? && x in decls[k].body))
        {
          var k :| 0 <= k < |decls[1..]| && (decls[1..][k] == GenD(x) || (decls[1..][k].FuncD? && x in decls[1..][k].body));
          assert decls[k + 1] == decls[1..][k];
        }
      }
      match decls[0]
      case GenD(x) => [x] + rest
      case FuncD(body) => body + rest
  }

  /** Every declaration is visited: each top-level one, and each one inside a
      function body. */
  lemma {:induction false} GenDeclsComplete(decls: seq<Decl>)
    ensures forall k :: 0 <= k < |decls| && decls[k].GenD? ==> decls[k].gen in GenDecls(decls)
    ensures forall k, j :: 0 <= k < |decls| && decls[k].FuncD? && 0 <= j < |decls[k].body| ==>
      decls[k].body[j] in GenDecls(decls)
  {
    if |decls| > 0 {
      GenDeclsComplete(decls[1..]);
      GenDeclsStep(decls);
      assert forall k :: 1 <= k < |decls| ==> decls[k] == decls[1..][k - 1];
    }
  }

  /** Declarations are visited in order: the declarations of two runs of source
      declarations are those of the first run followed by those of the second. */
  lemma {:induction false} GenDeclsInOrder(a: seq<Decl>, b: seq<Decl>)
    ensures GenDecls(a + b) == GenDecls(a) + GenDecls(b)
  {
    if |a| == 0 {
      assert a + b == b;
    } else {
      assert (a + b)[0] == a[0] && (a + b)[1..] == a[1..] + b;
      GenDeclsInOrder(a[1..], b);
      GenDeclsStep(a);
      GenDeclsStep(a + b);
      var head := Visited(a[0]);
      assert head + (GenDecls(a[1..]) + GenDecls(b)) == (head + GenDecls(a[1..])) + GenDecls(b);
    }
  }

  /** The declarations one source declaration contributes. */
  function Visited(d: Decl): seq<GenDecl> {
    if d.GenD? then [d.gen] else d.body
  }

  lemma GenDeclsStep(decls: seq<Decl>)
    requires |decls| > 0
    ensures GenDecls(decls) == Visited(decls[0]) + GenDecls(decls[1..])
  {
  }

  /** A top-level declaration is visited alone; a function body's declarations are
      visited in their order. */
  lemma GenDeclsSingle(d: Decl)
    ensures d.GenD? ==> GenDecls([d]) == [d.gen]
    ensures d.FuncD? ==> GenDecls([d]) == d.body
  {
    assert [d][1..] == [];
  }

  /** The three writers `generateFile` calls for a declaration, as values, so that the
      per-file loop can be reasoned about without unfolding them. */
  datatype DeclWriting = DeclWriting(
    isEmitVar: GenDecl -> Result<bool>,
    emitVar: GenDecl -> Result<string>,
    groupDecl: GenDecl -> Result<string>)

  /** The writers of this model. */
  function Writers(g: PackageGenerator): DeclWriting {
    DeclWriting(IsEmitVar, EmitVar, x => WriteGroupDecl(g, x))
  }

  /** A declaration is written: it is not an import, and a `var` is written only as an
      emitted variable. A declaration whose emit check aborts counts as written, since
      the run stops there. */
  predicate Writes(w: DeclWriting, x: GenDecl) {
    x.tok != ImportTok && (x.tok != VarTok || w.isEmitVar(x) != Ok(false))
  }

  /** The text one written declaration contributes, without the header. */
  function DeclText(w: DeclWriting, x: GenDecl): Result<string>
    requires Writes(w, x)
  {
    var isEmit :- if x.tok == VarTok then w.isEmitVar(x) else Ok(false);
    if isEmit then w.emitVar(x) else w.groupDecl(x)
  }

  /** The visit loop of `generateFile` from declaration `ds[0]` on; `first` holds until
      a declaration has been written, and the source header goes before that
      declaration when the file has a path. */
  function FileDeclsFrom(w: DeclWriting, path: string, header: string, ds: seq<GenDecl>, first: bool)
    : (r: Result<string>)
    ensures (forall k :: 0 <= k < |ds| ==> !Writes(w, ds[k])) ==> r == Ok("")
  {
    if |ds| == 0 then Ok("")
    else
      var x := ds[0];
      assert forall k :: 1 <= k < |ds| ==> ds[1..][k - 1] == ds[k];
      if x.tok == ImportTok then FileDeclsFrom(w, path, header, ds[1..], first)
      else if x.tok == VarTok && w.isEmitVar(x) == Ok(false) then FileDeclsFrom(w, path, header, ds[1..], first)
      else
        var head := if first && path != "" then header else "";
        var body :- DeclText(w, x);
        var rest :- FileDeclsFrom(w, path, header, ds[1..], false);
        Ok(head + body + rest)
  }

  /** `generateFile`: the written declarations of the file, with the source header
      once at the very start when the file has a path and something is written. */
  function GenerateFile(g: PackageGenerator, file: SourceFile): (r: Result<string>)
    ensures !SomeWritten(Writers(g), GenDecls(file.decls)) ==> r == Ok("")
    ensures r == Prefixed(if file.path != "" && SomeWritten(Writers(g), GenDecls(file.decls)) then file.header else "",
                          FileDeclsFrom(Writers(g), file.path, "", GenDecls(file.decls), true))
  {
    HeaderOnceAtStart(Writers(g), file.path, file.header, GenDecls(file.decls));
    FileDeclsFrom(Writers(g), file.path, file.header, GenDecls(file.decls), true)
  }

  /** Prefix a successful text; a failure unchanged. */
  function Prefixed(p: string, r: Result<string>): Result<string> {
    if r.Ok? then Ok(p + r.value) else r
  }

  /** An import writes nothing and does not consume the header. */
  lemma ImportWritesNothing(w: DeclWriting, path: string, header: string, x: GenDecl, ds: seq<GenDecl>, first: bool)
    requires x.tok == ImportTok
    ensures FileDeclsFrom(w, path, header, [x] + ds, first) == FileDeclsFrom(w, path, header, ds, first)
  {
    assert ([x] + ds)[1..] == ds;
  }

  /** A `var` that is not an emitted variable writes nothing and does not consume the
      header; an emitted one writes exactly the text `emitVar` produces. */
  lemma VarOnlyWhenEmitted(w: DeclWriting, path: string, header: string, x: GenDecl, ds: seq<GenDecl>)
    requires x.tok == VarTok
    ensures w.isEmitVar(x) == Ok(false) ==>
      FileDeclsFrom(w, path, header, [x] + ds, false) == FileDeclsFrom(w, path, header, ds, false)
    ensures w.isEmitVar(x) == Ok(true) && w.emitVar(x).Ok? ==>
      FileDeclsFrom(w, path, header, [x] + ds, false)
      == Prefixed(w.emitVar(x).value, FileDeclsFrom(w, path, header, ds, false))
  {
    assert ([x] + ds)[1..] == ds;
    if w.isEmitVar(x) == Ok(true) && w.emitVar(x).Ok? {
      var e := w.emitVar(x).value;
      var rest := FileDeclsFrom(w, path, header, ds, false);
      if rest.Ok? {
        assert "" + e + rest.value == e + rest.value;
      }
    }
  }

  /** Once a declaration has been written, the header plays no further part. */
  lemma {:induction false} HeaderNotRepeated(w: DeclWriting, path: string, h1: string, h2: string, ds: seq<GenDecl>)
    ensures FileDeclsFrom(w, path, h1, ds, false) == FileDeclsFrom(w, path, h2, ds, false)
  {
    if |ds| > 0 {
      HeaderNotRepeated(w, path, h1, h2, ds[1..]);
    }
  }

  /** Some declaration of `ds` is written. */
  predicate SomeWritten(w: DeclWriting, ds: seq<GenDecl>) {
    exists k :: 0 <= k < |ds| && Writes(w, ds[k])
  }

  /** The source header is written once, at the very start of the file's text, and
      only when the file has a path and some declaration is written; apart from it the
      text is the same as with an empty header. */
  lemma {:induction false} HeaderOnceAtStart(w: DeclWriting, path: string, header: string, ds: seq<GenDecl>)
    ensures FileDeclsFrom(w, path, header, ds, true)
      == Prefixed(if path != "" && SomeWritten(w, ds) then header else "", FileDeclsFrom(w, path, "", ds, true))
  {
    if |ds| == 0 {
      assert !SomeWritten(w, ds);
      assert "" + "" == "";
    } else {
      var x := ds[0];
      assert forall k :: 1 <= k < |ds| ==> ds[1..][k - 1] == ds[k];
      if !Writes(w, x) {
        HeaderOnceAtStart(w, path, header, ds[1..]);
        assert SomeWritten(w, ds) == SomeWritten(w, ds[1..]) by {
          if SomeWritten(w, ds) {
            var k :| 0 <= k < |ds| && Writes(w, ds[k]);
            assert k > 0 && Writes(w, ds[1..][k - 1]);
          }
        }
      } else {
        assert SomeWritten(w, ds);
        HeaderNotRepeated(w, path, header, "", ds[1..]);
        var body := DeclText(w, x);
        var rest := FileDeclsFrom(w, path, "", ds[1..], false);
        var head := if path != "" then header else "";
        if body.Ok? && rest.Ok? {
          assert head + body.value + rest.value == head + ("" + body.value + rest.value);
        }
      }
    }
  }

  /** The files the configuration does not ignore, in order. */
  function Included(conf: PackageConfig, files: seq<SourceFile>): (r: seq<SourceFile>)
    ensures forall f :: f in r ==> f in files && !IsFileIgnored(conf, f.path)
    ensures forall f :: f in files && !IsFileIgnored(conf, f.path) ==> f in r
  {
    if |files| == 0 then []
    else if IsFileIgnored(conf, files[0].path) then Included(conf, files[1..])
    else [files[0]] + Included(conf, files[1..])
  }

  /** The file loop of `Generate`: `generate` applied to each file that is not
      ignored, in order. */
  function FilesFrom(conf: PackageConfig, generate: SourceFile -> Result<string>, files: seq<SourceFile>)
    : Result<string>
  {
    if |files| == 0 then Ok("")
    else if IsFileIgnored(conf, files[0].path) then FilesFrom(conf, generate, files[1..])
      else
        var text :- generate(files[0]);
        var rest :- FilesFrom(conf, generate, files[1..]);
        Ok(text + rest)
  }

  /** Every file of `fs` is written without failure. */
  predicate AllWritten(generate: SourceFile -> Result<string>, fs: seq<SourceFile>) {
    forall k :: 0 <= k < |fs| ==> generate(fs[k]).Ok?
  }

  /** The texts of files that are all written, in order. */
  function Texts(generate: SourceFile -> Result<string>, fs: seq<SourceFile>): (r: seq<string>)
    requires AllWritten(generate, fs)
    ensures |r| == |fs| && forall k :: 0 <= k < |fs| ==> r[k] == generate(fs[k]).value
  {
    if |fs| == 0 then [] else [generate(fs[0]).value] + Texts(generate, fs[1..])
  }

  /** The file loop over files none of which is ignored succeeds exactly when every
      file does, and then is their texts concatenated. */
  lemma {:induction false} FilesConcatenated(conf: PackageConfig, generate: SourceFile -> Result<string>, fs: seq<SourceFile>)
    requires forall k :: 0 <= k < |fs| ==> !IsFileIgnored(conf, fs[k].path)
    ensures FilesFrom(conf, generate, fs).Ok? <==> AllWritten(generate, fs)
    ensures AllWritten(generate, fs) ==> FilesFrom(conf, generate, fs) == Ok(Concat(Texts(generate, fs)))
  {
    if |fs| > 0 {
      assert forall k :: 1 <= k < |fs| ==> fs[1..][k - 1] == fs[k];
      FilesConcatenated(conf, generate, fs[1..]);
      assert AllWritten(generate, fs) <==> generate(fs[0]).Ok? && AllWritten(generate, fs[1..]);
    }
  }

  /** The package text for a given file writer: the code-generation header and the
      frontmatter, then the texts of exactly the files the configuration does not
      ignore, in order. It fails when one of those files does. */
  function PackageText(conf: PackageConfig, generate: SourceFile -> Result<string>, files: seq<SourceFile>,
                       codegenHeader: string, frontmatter: string): (r: Result<string>)
    ensures r.Ok? ==> StartsWith(r.value, codegenHeader + frontmatter)
    ensures r.Ok? <==> AllWritten(generate, Included(conf, files))
    ensures r.Ok? ==> r.value == codegenHeader + frontmatter + Concat(Texts(generate, Included(conf, files)))
  {
    IgnoredFilesSkipped(conf, generate, files);
    FilesConcatenated(conf, generate, Included(conf, files));
    var body :- FilesFrom(conf, generate, files);
    var r := codegenHeader + frontmatter + body;
    assert r[..|codegenHeader + frontmatter|] == codegenHeader + frontmatter;
    Ok(r)
  }

  /** `generateFile` as a file writer. */
  function FileWriter(g: PackageGenerator): SourceFile -> Result<string> {
    f => GenerateFile(g, f)
  }

  /** `Generate`: the two headers, then the generated text of every file the
      configuration does not ignore, in order; the first failing file aborts it. The
      two headers come from writers that are not part of this model and are taken as
      parameters. */
  function Generate(g: PackageGenerator, files: seq<SourceFile>, codegenHeader: string, frontmatter: string)
    : (r: Result<string>)
    ensures r.Ok? <==> forall k :: 0 <= k < |Included(g.conf, files)| ==> GenerateFile(g, Included(g.conf, files)[k]).Ok?
    ensures r.Ok? ==>
      r.value == codegenHeader + frontmatter + Concat(Texts(FileWriter(g), Included(g.conf, files)))
  {
    var w := FileWriter(g);
    assert forall f :: w(f) == GenerateFile(g, f);
    assert AllWritten(w, Included(g.conf, files))
      <==> forall k :: 0 <= k < |Included(g.conf, files)| ==> GenerateFile(g, Included(g.conf, files)[k]).Ok?;
    PackageText(g.conf, w, files, codegenHeader, frontmatter)
  }

  /** Ignored files contribute nothing: generating the package is generating only the
      files the configuration does not ignore. */
  lemma {:induction false} IgnoredFilesSkipped(conf: PackageConfig, generate: SourceFile -> Result<string>, files: seq<SourceFile>)
    ensures FilesFrom(conf, generate, files) == FilesFrom(conf, generate, Included(conf, files))
  {
    if |files| > 0 {
      IgnoredFilesSkipped(conf, generate, files[1..]);
      if !IsFileIgnored(conf, files[0].path) {
        var inc := Included(conf, files);
        assert inc[0] == files[0] && inc[1..] == Included(conf, files[1..]);
      }
    }
  }

  /** One step of the file loop. */
  lemma FilesCons(conf: PackageConfig, generate: SourceFile -> Result<string>, f: SourceFile, rest: seq<SourceFile>)
    ensures FilesFrom(conf, generate, [f] + rest)
      == if IsFileIgnored(conf, f.path) then FilesFrom(conf, generate, rest)
         else if generate(f).Fail? then generate(f)
         else Prefixed(generate(f).value, FilesFrom(conf, generate, rest))
  {
    assert ([f] + rest)[1..] == rest;
  }

  /** The files are written in order: generating two lists of files one after the
      other is generating their concatenation. */
  lemma {:induction false} FilesInOrder(conf: PackageConfig, generate: SourceFile -> Result<string>, a: seq<SourceFile>, b: seq<SourceFile>)
    requires FilesFrom(conf, generate, a).Ok? && FilesFrom(conf, generate, b).Ok?
    ensures FilesFrom(conf, generate, a + b) == Ok(FilesFrom(conf, generate, a).value + FilesFrom(conf, generate, b).value)
  {
    if |a| == 0 {
      assert a + b == b;
      AppendEmpty(FilesFrom(conf, generate, b).value);
    } else {
      var f, rest := a[0], a[1..];
      SplitFirst(a, b);
      FilesInOrder(conf, generate, rest, b);
      FilesInOrderStep(conf, generate, f, rest, b);
    }
  }

  lemma SplitFirst<T>(a: seq<T>, b: seq<T>)
    requires |a| > 0
    ensures a == [a[0]] + a[1..] && a + b == [a[0]] + (a[1..] + b)
  {
  }

  lemma FilesInOrderStep(conf: PackageConfig, generate: SourceFile -> Result<string>, f: SourceFile, rest: seq<SourceFile>, b: seq<SourceFile>)
    requires FilesFrom(conf, generate, [f] + rest).Ok? && FilesFrom(conf, generate, b).Ok?
    requires FilesFrom(conf, generate, rest).Ok? ==>
      FilesFrom(conf, generate, rest + b) == Ok(FilesFrom(conf, generate, rest).value + FilesFrom(conf, generate, b).value)
    ensures FilesFrom(conf, generate, [f] + (rest + b))
      == Ok(FilesFrom(conf, generate, [f] + rest).value + FilesFrom(conf, generate, b).value)
  {
    FilesCons(conf, generate, f, rest);
    FilesCons(conf, generate, f, rest + b);
    if !IsFileIgnored(conf, f.path) {
      AppendAssoc(generate(f).value, FilesFrom(conf, generate, rest).value, FilesFrom(conf, generate, b).value);
    }
  }
}

=== FILE: results.dfy ===
/** Optional values and fallible results.

    Every run-aborting condition of the generator (a Go `panic`, a `log.Fatalf`,
    an out-of-range index) is modelled as `Fail(msg)`; the `:-` operator threads it
    through the renderers exactly as the panic would unwind the Go call stack. */
module Results {

  datatype Option<+T> = None | Some(value: T)

  datatype Result<+T> = Ok(value: T) | Fail(msg: string) {

    predicate IsFailure() {
      Fail?
    }

    function PropagateFailure<U>(): Result<U>
      requires Fail?
    {
      Fail(msg)
    }

    function Extract(): T
      requires Ok?
    {
      value
    }
  }
}

=== FILE: text.dfy ===
/** String primitives the generator borrows from Go's `strings` and `strconv`
    packages, stated over `seq<char>`. Each one follows the Go function it is
    named after; where Go works on UTF-8 bytes this model works on characters. */
module Text {
  import opened Results

  // ----- prefixes, suffixes, occurrences -----

  predicate StartsWith(s: string, p: string) {
    |p| <= |s| && s[..|p|] == p
  }

  predicate EndsWith(s: string, p: string) {
    |p| <= |s| && s[|s| - |p|..] == p
  }

  predicate OccursAt(s: string, p: string, i: nat) {
    i + |p| <= |s| && s[i..i + |p|] == p
  }

  predicate Contains(s: string, p: string) {
    exists i: nat | i <= |s| :: OccursAt(s, p, i)
  }

  /** The first occurrence of `p` in `s` at or after `i` (`strings.Index`). */
  function FindFrom(s: string, p: string, i: nat): (r: Option<nat>)
    decreases |s| - i
    ensures r.Some? ==> i <= r.value && OccursAt(s, p, r.value)
    ensures r.Some? ==> forall j: nat :: i <= j < r.value ==> !OccursAt(s, p, j)
    ensures r.None? ==> forall j: nat :: i <= j ==> !OccursAt(s, p, j)
  {
    if i + |p| > |s| then None
    else if OccursAt(s, p, i) then Some(i)
    else FindFrom(s, p, i + 1)
  }

  /** `strings.Split` for a non-empty separator. */
  function Split(s: string, sep: string): (r: seq<string>)
    requires |sep| > 0
    ensures |r| >= 1
    ensures |r| == 1 ==> r[0] == s
    decreases |s|
  {
    match FindFrom(s, sep, 0)
    case None => [s]
    case Some(i) => [s[..i]] + Split(s[i + |sep|..], sep)
  }

  /** `strings.Join`. */
  function Join(parts: seq<string>, sep: string): string {
    if |parts| == 0 then ""
    else if |parts| == 1 then parts[0]
    else parts[0] + sep + Join(parts[1..], sep)
  }

  /** The writer loop that puts `sep` before every item but the first, from item `i` on. */
  function SeparatedFrom(items: seq<string>, i: nat, sep: string): string
    requires i <= |items|
    decreases |items| - i
  {
    if i == |items| then "" else (if i > 0 then sep else "") + items[i] + SeparatedFrom(items, i + 1, sep)
  }

  function Concat(parts: seq<string>): string {
    if |parts| == 0 then "" else parts[0] + Concat(parts[1..])
  }

  /** `strings.ReplaceAll` for a non-empty pattern: leftmost, non-overlapping. */
  function ReplaceAll(s: string, pat: string, rep: string): string
    requires |pat| > 0
    decreases |s|
  {
    if |s| == 0 then ""
    else if StartsWith(s, pat) then rep + ReplaceAll(s[|pat|..], pat, rep)
    else [s[0]] + ReplaceAll(s[1..], pat, rep)
  }

  /** `strings.TrimPrefix`. */
  function TrimPrefix(s: string, p: string): (r: string)
    ensures StartsWith(s, p) ==> p + r == s
    ensures !StartsWith(s, p) ==> r == s
  {
    if StartsWith(s, p) then s[|p|..] else s
  }

  /** `strings.TrimLeft` with a cut set. */
  function TrimLeftSet(s: string, cut: set<char>): (r: string)
    ensures |r| <= |s| && r == s[|s| - |r|..]
    ensures |r| > 0 ==> r[0] !in cut
    ensures forall i :: 0 <= i < |s| - |r| ==> s[i] in cut
  {
    if |s| > 0 && s[0] in cut then TrimLeftSet(s[1..], cut) else s
  }

  /** `strings.TrimRight` with a cut set. */
  function TrimRightSet(s: string, cut: set<char>): (r: string)
    ensures |r| <= |s| && r == s[..|r|]
    ensures |r| > 0 ==> r[|r| - 1] !in cut
    ensures forall i :: |r| <= i < |s| ==> s[i] in cut
  {
    if |s| > 0 && s[|s| - 1] in cut then TrimRightSet(s[..|s| - 1], cut) else s
  }

  /** `strings.Trim`: drop every leading and trailing character of the cut set. */
  function TrimSet(s: string, cut: set<char>): string {
    TrimRightSet(TrimLeftSet(s, cut), cut)
  }

  // ----- character classes -----

  predicate IsUpperAscii(c: char) {
    'A' <= c <= 'Z'
  }

  predicate IsLowerAscii(c: char) {
    'a' <= c <= 'z'
  }

  predicate IsDigit(c: char) {
    '0' <= c <= '9'
  }

  predicate IsHexDigit(c: char) {
    IsDigit(c) || 'a' <= c <= 'f' || 'A' <= c <= 'F'
  }

  /** Unicode White_Space, the class behind Go's `unicode.IsSpace`. */
  predicate IsSpace(c: char) {
    var n := c as int;
    (9 <= n <= 13) || n == 0x20 || n == 0x85 || n == 0xA0 || n == 0x1680
    || (0x2000 <= n <= 0x200A) || n == 0x2028 || n == 0x2029 || n == 0x202F
    || n == 0x205F || n == 0x3000
  }

  /** `strings.TrimSpace(s) == ""`. */
  predicate IsBlank(s: string) {
    forall i :: 0 <= i < |s| ==> IsSpace(s[i])
  }

  function LowerAscii(c: char): char {
    if IsUpperAscii(c) then (c as int + 32) as char else c
  }

  /** `strings.ToLower`, restricted to the ASCII letters. */
  function ToLowerAscii(s: string): (r: string)
    ensures |r| == |s|
    ensures forall i :: 0 <= i < |s| ==> r[i] == LowerAscii(s[i])
  {
    if |s| == 0 then "" else [LowerAscii(s[0])] + ToLowerAscii(s[1..])
  }

  function Repeat(s: string, n: nat): (r: string)
    ensures |s| == 1 ==> |r| == n
  {
    if n == 0 then "" else s + Repeat(s, n - 1)
  }

  // ----- numbers -----

  predicate IsBaseDigit(c: char, base: nat) {
    (base == 10 && IsDigit(c)) || (base == 16 && IsHexDigit(c))
  }

  predicate AllBaseDigits(s: string, base: nat) {
    forall i :: 0 <= i < |s| ==> IsBaseDigit(s[i], base)
  }

  function DigitValue(c: char): nat {
    if IsDigit(c) then c as int - '0' as int
    else if 'a' <= c <= 'f' then c as int - 'a' as int + 10
    else if 'A' <= c <= 'F' then c as int - 'A' as int + 10
    else 0
  }

  /** The value of a digit string, most significant digit first. */
  function DigitsValue(s: string, base: nat): nat {
    if |s| == 0 then 0 else DigitsValue(s[..|s| - 1], base) * base + DigitValue(s[|s| - 1])
  }

  /** An upper-case digit, as `fmt`'s `%X` and `%d` print it. */
  function DigitChar(d: nat): (c: char)
    requires d < 16
    ensures DigitValue(c) == d
    ensures IsBaseDigit(c, 16) && (d < 10 ==> IsBaseDigit(c, 10))
  {
    if d < 10 then ('0' as int + d) as char else ('A' as int + d - 10) as char
  }

  /** The shortest digit string of `n` (`strconv.FormatInt` / `%X` without padding). */
  function FormatNat(n: nat, base: nat): (r: string)
    requires base == 10 || base == 16
    ensures |r| >= 1
    decreases n
  {
    if n < base then [DigitChar(n)] else FormatNat(n / base, base) + [DigitChar(n % base)]
  }

  function PadLeft(s: string, width: nat, c: char): (r: string)
    ensures |r| >= width
    ensures |s| <= width ==> |r| == width
    ensures |s| > width ==> r == s
  {
    if |s| < width then Repeat([c], width - |s|) + s else s
  }

  /** `fmt.Sprintf("%0*X", width, n)`: zero padding counts the sign toward the width. */
  function FormatHexWidth(n: int, width: nat): string {
    if n < 0 then "-" + PadLeft(FormatNat(-n, 16), if width > 0 then width - 1 else 0, '0')
    else PadLeft(FormatNat(n, 16), width, '0')
  }

  /** Decimal text of an integer (`strconv.Itoa`). */
  function IntToString(n: int): string {
    if n < 0 then "-" + FormatNat(-n, 10) else FormatNat(n, 10)
  }

  /** `strconv.ParseInt(s, base, bitSize)` for base 10 or 16: an optional sign, at
      least one digit, no underscores, and a value that fits in `bitSize` bits. */
  function ParseInt(s: string, base: nat, bitSize: nat): (r: Result<int>)
    requires base == 10 || base == 16
    requires bitSize > 0
    ensures r.Ok? ==> -Pow2(bitSize - 1) <= r.value < Pow2(bitSize - 1)
  {
    var signed := |s| > 0 && (s[0] == '-' || s[0] == '+');
    var body := if signed then s[1..] else s;
    if |body| == 0 || !AllBaseDigits(body, base) then Fail("invalid syntax")
    else
      var magnitude: int := DigitsValue(body, base);
      var v := if signed && s[0] == '-' then -magnitude else magnitude;
      if v < -Pow2(bitSize - 1) || v >= Pow2(bitSize - 1) then Fail("value out of range")
      else Ok(v)
  }

  function Pow(b: nat, e: nat): nat {
    if e == 0 then 1 else b * Pow(b, e - 1)
  }

  function Pow2(n: nat): (r: int)
    ensures r >= 1
  {
    if n == 0 then 1 else 2 * Pow2(n - 1)
  }

  // ----- lemmas -----

  lemma {:induction false} FormatNatDigits(n: nat, base: nat)
    requires base == 10 || base == 16
    ensures AllBaseDigits(FormatNat(n, base), base)
    ensures DigitsValue(FormatNat(n, base), base) == n
    decreases n
  {
    if n >= base {
      var r := FormatNat(n, base);
      FormatNatDigits(n / base, base);
      assert r[..|r| - 1] == FormatNat(n / base, base);
    }
  }

  lemma {:induction false} FormatNatNoSign(n: nat, base: nat)
    requires base == 10 || base == 16
    ensures FormatNat(n, base)[0] != '-' && FormatNat(n, base)[0] != '+'
    decreases n
  {
    FormatNatDigits(n, base);
    assert IsBaseDigit(FormatNat(n, base)[0], base);
  }

  /** Decimal printing and `strconv.ParseInt(_, 10, 64)` are inverse on 64-bit integers. */
  lemma ParseIntOfIntToString(n: int)
    requires -Pow2(63) <= n < Pow2(63)
    ensures ParseInt(IntToString(n), 10, 64) == Ok(n)
  {
    var m: nat := if n < 0 then -n else n;
    FormatNatDigits(m, 10);
    FormatNatNoSign(m, 10);
    if n < 0 {
      ParseNegative(FormatNat(m, 10), 10, 64);
    } else {
      ParseUnsigned(FormatNat(m, 10), 10, 64);
    }
  }

  /** Digits without a sign read back as their value, when it is in range. */
  lemma ParseUnsigned(d: string, base: nat, bitSize: nat)
    requires base == 10 || base == 16
    requires bitSize > 0
    requires |d| > 0 && AllBaseDigits(d, base) && d[0] != '-' && d[0] != '+'
    requires DigitsValue(d, base) < Pow2(bitSize - 1)
    ensures ParseInt(d, base, bitSize) == Ok(DigitsValue(d, base))
  {
  }

  /** A minus sign and digits read back as the negated value, when it is in range. */
  lemma ParseNegative(d: string, base: nat, bitSize: nat)
    requires base == 10 || base == 16
    requires bitSize > 0
    requires |d| > 0 && AllBaseDigits(d, base)
    requires DigitsValue(d, base) <= Pow2(bitSize - 1)
    ensures ParseInt("-" + d, base, bitSize) == Ok(-(DigitsValue(d, base) as int))
  {
    assert ("-" + d)[1..] == d;
  }

  lemma {:induction false} RepeatZerosValue(k: nat, base: nat)
    ensures DigitsValue(Repeat("0", k), base) == 0
    ensures AllBaseDigits(Repeat("0", k), 16)
    decreases k
  {
    if k > 0 {
      var z := Repeat("0", k);
      assert z == Repeat("0", k - 1) + "0" by { RepeatSnoc("0", k); }
      assert z[..|z| - 1] == Repeat("0", k - 1);
      RepeatZerosValue(k - 1, base);
    }
  }

  lemma {:induction false} RepeatSnoc(s: string, k: nat)
    requires k > 0
    ensures Repeat(s, k) == Repeat(s, k - 1) + s
    decreases k
  {
    if k > 1 {
      RepeatSnoc(s, k - 1);
    }
  }

  /** Leading zeros do not change the value of a digit string. */
  lemma {:induction false} LeadingZerosValue(k: nat, s: string, base: nat)
    ensures DigitsValue(Repeat("0", k) + s, base) == DigitsValue(s, base)
    decreases |s|
  {
    var z := Repeat("0", k);
    if |s| == 0 {
      assert z + s == z;
      RepeatZerosValue(k, base);
    } else {
      var t := z + s;
      assert t[..|t| - 1] == z + s[..|s| - 1];
      LeadingZerosValue(k, s[..|s| - 1], base);
    }
  }

  lemma JoinSingle(x: string, sep: string)
    ensures Join([x], sep) == x
  {
  }

  /** Appending one part to a non-empty list appends the separator and the part. */
  lemma {:induction false} JoinSnoc(parts: seq<string>, x: string, sep: string)
    requires |parts| > 0
    ensures Join(parts + [x], sep) == Join(parts, sep) + sep + x
    decreases |parts|
  {
    if |parts| == 1 {
      assert parts + [x] == [parts[0], x];
      assert ([parts[0], x])[1..] == [x];
    } else {
      assert (parts + [x])[1..] == parts[1..] + [x];
      JoinSnoc(parts[1..], x, sep);
    }
  }

  lemma {:induction false} ConcatAppend(a: seq<string>, b: seq<string>)
    ensures Concat(a + b) == Concat(a) + Concat(b)
    decreases |a|
  {
    if |a| == 0 {
      assert a + b == b;
    } else {
      assert (a + b)[1..] == a[1..] + b;
      ConcatAppend(a[1..], b);
    }
  }

  /** A pattern whose first character does not occur from `i` on is not found. */
  lemma {:induction false} FindAbsent(s: string, p: string, i: nat)
    requires |p| > 0
    requires forall k :: i <= k < |s| ==> s[k] != p[0]
    ensures FindFrom(s, p, i).None?
    decreases |s| - i
  {
    if i + |p| <= |s| {
      assert s[i..i + |p|][0] == s[i];
      FindAbsent(s, p, i + 1);
    }
  }

  /** Splitting at a separator whose first character does not occur leaves one part. */
  lemma SplitAbsent(s: string, sep: string)
    requires |sep| > 0
    requires forall k :: 0 <= k < |s| ==> s[k] != sep[0]
    ensures Split(s, sep) == [s]
  {
    FindAbsent(s, sep, 0);
  }

  /** Splitting `a + sep + b` where the separator's first character does not occur
      in `a` cuts at the end of `a`. */
  lemma SplitAfterAbsent(a: string, sep: string, b: string)
    requires |sep| > 0
    requires forall k :: 0 <= k < |a| ==> a[k] != sep[0]
    ensures Split(a + sep + b, sep) == [a] + Split(b, sep)
  {
    var s := a + sep + b;
    FindFirstAfterAbsent(a, sep, b, 0);
    assert s[..|a|] == a;
    assert s[|a| + |sep|..] == b;
  }

  lemma {:induction false} FindFirstAfterAbsent(a: string, sep: string, b: string, i: nat)
    requires |sep| > 0 && i <= |a|
    requires forall k :: 0 <= k < |a| ==> a[k] != sep[0]
    ensures FindFrom(a + sep + b, sep, i) == Some(|a|)
    decreases |a| - i
  {
    var s := a + sep + b;
    if i < |a| {
      assert s[i] == a[i];
      assert !OccursAt(s, sep, i) by {
        if i + |sep| <= |s| {
          assert s[i..i + |sep|][0] == s[i];
        }
      }
      FindFirstAfterAbsent(a, sep, b, i + 1);
    } else {
      assert s[i..i + |sep|] == sep;
    }
  }

  /** `strings.Trim` removes nothing from a string that starts and ends outside the set. */
  lemma TrimSetNoop(s: string, cut: set<char>)
    requires |s| > 0 && s[0] !in cut && s[|s| - 1] !in cut
    ensures TrimSet(s, cut) == s
  {
  }

  /** Concatenation regrouped; used where the surrounding context makes the inline
      fact expensive. */
  lemma AppendAssoc(a: string, b: string, c: string)
    ensures a + (b + c) == (a + b) + c
  {
  }

  /** Text written after a head keeps the head's prefix and ends with its last part. */
  lemma HeadAndLast(head: string, pre: string, a: string, b: string, last: string)
    requires StartsWith(head, pre)
    ensures StartsWith(head + a + b + last, pre) && EndsWith(head + a + b + last, last)
  {
    var r := head + a + b + last;
    assert r[..|pre|] == head[..|pre|];
    assert r[|r| - |last|..] == last;
  }

  lemma AppendEmpty(a: string)
    ensures "" + a == a && a + "" == a
  {
  }

  lemma JoinCons(x: string, rest: seq<string>, sep: string)
    ensures Join([x] + rest, sep) == if |rest| == 0 then x else x + sep + Join(rest, sep)
  {
    assert ([x] + rest)[1..] == rest;
  }

  /** From the second item on, the loop writes the separator and the join of the rest. */
  lemma {:induction false} SeparatedTail(items: seq<string>, i: nat, sep: string)
    requires 0 < i <= |items|
    ensures SeparatedFrom(items, i, sep) == if i == |items| then "" else sep + Join(items[i..], sep)
    decreases |items| - i
  {
    if i < |items| {
      SeparatedTail(items, i + 1, sep);
      var x, rest := items[i], items[i + 1..];
      assert items[i..] == [x] + rest;
      JoinCons(x, rest, sep);
      AppendEmpty(sep + x);
      AppendAssoc(sep, x, sep + Join(rest, sep));
      AppendAssoc(x, sep, Join(rest, sep));
    }
  }

  /** Writing a separator before every item but the first is `strings.Join`. */
  lemma SeparatedIsJoin(items: seq<string>, sep: string)
    ensures SeparatedFrom(items, 0, sep) == Join(items, sep)
  {
    if |items| > 0 {
      SeparatedTail(items, 1, sep);
      var x, rest := items[0], items[1..];
      assert items == [x] + rest;
      JoinCons(x, rest, sep);
      AppendEmpty(x);
      AppendEmpty(x + SeparatedFrom(items, 1, sep));
    }
  }

  lemma EndsWithTrans(s: string, t: string, u: string)
    requires EndsWith(s, t) && EndsWith(t, u)
    ensures EndsWith(s, u)
  {
    assert s[|s| - |u|..] == s[|s| - |t|..][|t| - |u|..];
  }

  /** Text that starts with neither a sign nor a digit is not an integer. */
  lemma ParseIntRejectsNonDigit(s: string, base: nat, bitSize: nat)
    requires base == 10 || base == 16
    requires bitSize > 0
    requires |s| > 0 && s[0] != '-' && s[0] != '+' && !IsBaseDigit(s[0], base)
    ensures ParseInt(s, base, bitSize).Fail?
  {
    assert !AllBaseDigits(s, base);
  }

  /** Decimal text of an integer holds only digits and a leading minus sign. */
  lemma IntToStringChars(n: int)
    ensures |IntToString(n)| > 0
    ensures forall k :: 0 <= k < |IntToString(n)| ==> IsDigit(IntToString(n)[k]) || IntToString(n)[k] == '-'
    ensures IsDigit(IntToString(n)[|IntToString(n)| - 1])
  {
    var m: nat := if n < 0 then -n else n;
    FormatNatDigits(m, 10);
  }
}

=== FILE: toplevel.dfy ===
/** The top-level declaration writers: `//tygo:emit` variables, type specs (interfaces
    with their `extends` clause, aliases and generic aliases), constant and variable
    specs with the state carried through a `const (...)` group, and the group writer
    that ties them to enum and union synthesis. */
module TopLevel {
  import opened Results
  import opened Text
  import opened GoAst
  import opened Config
  import opened Generator
  import opened Idents
  import opened Comments
  import opened TypeWriter
  import opened Embedding
  import opened Enums

  /** `groupContext`: whether the declaration groups several specs, its doc comment,
      and the value, type annotation and iota counter carried from one spec to the
      next. */
  datatype GroupContext = GroupContext(
    isGrouped: bool,
    doc: Option<CommentGroup>,
    groupValue: string,
    groupType: string,
    iotaValue: int)

  // ----- emitted variables -----

  /** The doc comment holds a `//tygo:emit` directive (the loop stops at the first). */
  function HasEmitDirective(list: seq<string>): (r: bool)
    ensures r <==> exists i :: 0 <= i < |list| && IsEmitDirective(list[i])
  {
    if |list| == 0 then false
    else if IsEmitDirective(list[0]) then true
    else
      assert forall i :: 1 <= i < |list| ==> list[i] == list[1..][i - 1];
      HasEmitDirective(list[1..])
  }

  /** The declaration has a first spec that is a value spec with a first value. */
  predicate HasFirstValue(decl: GenDecl) {
    |decl.specs| > 0 && decl.specs[0].ValueS? && |decl.specs[0].v.values| > 0
  }

  /** `isEmitVar`: a `var` declaration whose doc comment holds an emit directive and
      whose first value is a string literal. The shape of the first spec is asserted,
      not checked: a declaration without a first value aborts the run. */
  function IsEmitVar(decl: GenDecl): (r: Result<bool>)
    ensures decl.tok != VarTok || decl.doc.None? ==> r == Ok(false)
    ensures r.Fail? <==> decl.tok == VarTok && decl.doc.Some? && HasEmitDirective(decl.doc.value.list)
                         && !HasFirstValue(decl)
    ensures r == Ok(true) <==>
      && decl.tok == VarTok && decl.doc.Some? && HasEmitDirective(decl.doc.value.list)
      && HasFirstValue(decl)
      && decl.specs[0].v.values[0].Lit? && decl.specs[0].v.values[0].litKind == StringLit
  {
    if decl.tok != VarTok || decl.doc.None? then Ok(false)
    else if !HasEmitDirective(decl.doc.value.list) then Ok(false)
    else if |decl.specs| == 0 then Fail("index out of range")
    else if !decl.specs[0].ValueS? then Fail("interface conversion: ast.Spec is not *ast.ValueSpec")
    else if |decl.specs[0].v.values| == 0 then Fail("index out of range")
    else
      var v := decl.specs[0].v.values[0];
      Ok(v.Lit? && v.litKind == StringLit)
  }

  /** `emitVar`: the first value's literal text without its first and last
      character (the quotes), on a line of its own; nothing for a text shorter than
      two characters. */
  function EmitVar(decl: GenDecl): (r: Result<string>)
    ensures r.Ok? <==> HasFirstValue(decl) && decl.specs[0].v.values[0].Lit?
    ensures r.Ok? && |decl.specs[0].v.values[0].raw| < 2 ==> r.value == ""
    ensures r.Ok? && |decl.specs[0].v.values[0].raw| >= 2 ==>
      |r.value| == |decl.specs[0].v.values[0].raw| - 1 && EndsWith(r.value, "\n")
  {
    if !HasFirstValue(decl) then Fail("index out of range")
    else
      var v := decl.specs[0].v.values[0];
      if !v.Lit? then Fail("interface conversion: ast.Expr is not *ast.BasicLit")
      else if |v.raw| < 2 then Ok("")
      else
        var r := v.raw[1..|v.raw| - 1] + "\n";
        assert r[|r| - 1..] == "\n";
        Ok(r)
  }

  /** An emitted string literal gives back exactly the text between its quotes. */
  lemma EmitVarUnquotes(tok: DeclTok, doc: Option<CommentGroup>, names: seq<string>, q: char, body: string, rest: seq<Spec>)
    ensures var vs := ValueSpec(names, None, [Lit(StringLit, [q] + body + [q])], None, None);
      EmitVar(GenDecl(tok, doc, [ValueS(vs)] + rest)) == Ok(body + "\n")
  {
    var raw := [q] + body + [q];
    assert raw[1..|raw| - 1] == body;
  }

  // ----- doc comments of specs -----

  /** The doc comment above a spec: its own, which overrules the group's; else the
      group's doc when the declaration is grouped. Only at type-comment levels. */
  function SpecDoc(g: PackageGenerator, own: Option<CommentGroup>, ctx: GroupContext): (r: Result<string>)
    ensures !PreserveTypeComments(g) ==> r == Ok("")
    ensures own.None? && (!ctx.isGrouped || ctx.doc.None?) ==> r == Ok("")
    ensures own.Some? && PreserveTypeComments(g) ==> r == WriteCommentGroup(g, own.value, 0)
  {
    if own.Some? && PreserveTypeComments(g) then WriteCommentGroup(g, own.value, 0)
    else if ctx.isGrouped && PreserveTypeComments(g) then WriteCommentGroupIfPresent(g, ctx.doc, 0)
    else Ok("")
  }

  // ----- extends clauses -----

  /** The field's `tstype` entry, when the field's tag has one with the `extends`
      option. A field without a tag, with a malformed tag or without that option
      has none. */
  function ExtendsEntry(f: Field): (r: Option<TagEntry>)
    ensures r.Some? ==> HasOption(r.value, "extends") && r.value.key == "tstype"
  {
    if f.tag.Some? && f.tag.value.Tags? then
      var t := Lookup(f.tag.value.entries, "tstype");
      if t.Some? && HasOption(t.value, "extends") then t else None
    else None
  }

  /** An inherited name resolved through the type mappings, else kept literally; the
      fallback type is never used, since extending `any` is not valid TypeScript. */
  function MappedBase(g: PackageGenerator, longType: string): (r: string)
    ensures r == longType || (longType in g.conf.typeMappings && r == g.conf.typeMappings[longType])
    ensures longType in g.conf.typeMappings ==> r == g.conf.typeMappings[longType]
    ensures longType !in g.conf.typeMappings ==> r == longType
  {
    if longType in g.conf.typeMappings then g.conf.typeMappings[longType] else longType
  }

  /** The field is a base the interface extends. */
  predicate IsBase(f: Field) {
    && ExtendsEntry(f).Some?
    && GetInheritedType(f.typ, ExtendsEntry(f).value).Ok?
    && GetInheritedType(f.typ, ExtendsEntry(f).value).value.1
  }

  /** The text a base field contributes to the `extends` list. */
  function BaseText(g: PackageGenerator, f: Field): string
    requires IsBase(f)
  {
    MappedBase(g, GetInheritedType(f.typ, ExtendsEntry(f).value).value.0)
  }

  /** Every tag is well formed, and every field marked `extends` has a type whose
      inherited name can be computed. */
  predicate BasesComputable(fields: seq<Field>) {
    forall k :: 0 <= k < |fields| ==>
      && fields[k].tag != Some(Malformed)
      && (ExtendsEntry(fields[k]).Some? ==> GetInheritedType(fields[k].typ, ExtendsEntry(fields[k]).value).Ok?)
  }

  /** The bases a field list declares, in field order: the reference the loop of
      `writeTypeInheritanceSpec` is checked against. */
  function DeclaredBases(g: PackageGenerator, fields: seq<Field>): seq<string> {
    if |fields| == 0 then []
    else (if IsBase(fields[0]) then [BaseText(g, fields[0])] else []) + DeclaredBases(g, fields[1..])
  }

  /** The declared bases are exactly the texts of the base fields. */
  lemma {:induction false} DeclaredBasesMembers(g: PackageGenerator, fields: seq<Field>)
    ensures forall x :: x in DeclaredBases(g, fields) <==>
      exists k :: 0 <= k < |fields| && IsBase(fields[k]) && x == BaseText(g, fields[k])
    ensures (forall k :: 0 <= k < |fields| ==> !IsBase(fields[k])) ==> DeclaredBases(g, fields) == []
    ensures |DeclaredBases(g, fields)| <= |fields|
  {
    if |fields| > 0 {
      var f, rest := fields[0], fields[1..];
      DeclaredBasesMembers(g, rest);
      forall x
        ensures x in DeclaredBases(g, fields) <==>
          exists k :: 0 <= k < |fields| && IsBase(fields[k]) && x == BaseText(g, fields[k])
      {
        if x in DeclaredBases(g, rest) {
          var k :| 0 <= k < |rest| && IsBase(rest[k]) && x == BaseText(g, rest[k]);
          assert fields[k + 1] == rest[k];
        }
        if exists k :: 0 <= k < |fields| && IsBase(fields[k]) && x == BaseText(g, fields[k]) {
          var k :| 0 <= k < |fields| && IsBase(fields[k]) && x == BaseText(g, fields[k]);
          if k > 0 {
            assert rest[k - 1] == fields[k];
          }
        }
      }
      if forall k :: 0 <= k < |fields| ==> !IsBase(fields[k]) {
        assert forall k :: 0 <= k < |rest| ==> rest[k] == fields[k + 1];
      }
    }
  }

  /** The loop of `writeTypeInheritanceSpec` from field `i` on: the base of each field
      marked `extends` whose type can be extended, in field order. A malformed tag or
      an unsupported generic argument aborts the run. */
  function InheritedBasesFrom(g: PackageGenerator, fields: seq<Field>, i: nat): (r: Result<seq<string>>)
    requires i <= |fields|
    ensures r.Ok? <==> BasesComputable(fields[i..])
    ensures r.Ok? ==> r.value == DeclaredBases(g, fields[i..])
    decreases |fields| - i
  {
    if i == |fields| then Ok([])
    else
      var f := fields[i];
      assert fields[i..] == [f] + fields[i + 1..];
      if f.tag == Some(Malformed) then Fail("bad syntax for struct tag")
      else
        var e := ExtendsEntry(f);
        if e.None? then
          assert !IsBase(f);
          InheritedBasesFrom(g, fields, i + 1)
        else
          var base :- GetInheritedType(f.typ, e.value);
          var rest :- InheritedBasesFrom(g, fields, i + 1);
          if base.1 then
            assert IsBase(f) && BaseText(g, f) == MappedBase(g, base.0);
            Ok([MappedBase(g, base.0)] + rest)
          else
            assert !IsBase(f);
            Ok(rest)
  }

  /** The ` extends A, B` clause of an interface; nothing for an empty list. */
  function ExtendsClause(bases: seq<string>): string {
    if |bases| == 0 then "" else " extends " + Join(bases, ", ")
  }

  /** `writeTypeInheritanceSpec`. */
  function WriteTypeInheritanceSpec(g: PackageGenerator, fields: seq<Field>): (r: Result<string>)
    ensures r.Ok? <==> BasesComputable(fields)
    ensures r.Ok? ==> r.value == ExtendsClause(DeclaredBases(g, fields))
  {
    assert fields[0..] == fields;
    var bases :- InheritedBasesFrom(g, fields, 0);
    Ok(ExtendsClause(bases))
  }

  /** A struct with no field marked `extends` has no inherited clause. */
  lemma NoBaseNoClause(g: PackageGenerator, fields: seq<Field>)
    requires forall k :: 0 <= k < |fields| ==> fields[k].tag != Some(Malformed) && ExtendsEntry(fields[k]).None?
    ensures WriteTypeInheritanceSpec(g, fields) == Ok("")
  {
    assert BasesComputable(fields);
    DeclaredBasesMembers(g, fields);
  }

  /** A single embedded base gives ` extends` and its mapped name. */
  lemma OneBaseClause(g: PackageGenerator, f: Field)
    requires IsBase(f) && f.tag != Some(Malformed)
    ensures WriteTypeInheritanceSpec(g, [f]) == Ok(" extends " + BaseText(g, f))
  {
    assert BasesComputable([f]);
    assert [f][1..] == [];
    assert DeclaredBases(g, [f]) == [BaseText(g, f)] + [];
    JoinSingle(BaseText(g, f), ", ");
  }

  // ----- interface headers -----

  /** The header of an interface as `writeTypeSpec` writes it: the configured
      `Extends` clause comes right after the name, before the type parameters, and
      the inherited bases open a second `extends`. */
  function InterfaceHeaderAsWritten(g: PackageGenerator, name: string, typeParams: string, bases: seq<string>): string {
    "export interface " + name
    + (if g.conf.extendsClause != "" then " extends " + g.conf.extendsClause else "")
    + typeParams + ExtendsClause(bases)
  }

  /** The configured `Extends` base, when there is one. */
  function ConfiguredBase(g: PackageGenerator): (r: seq<string>)
    ensures |r| <= 1
  {
    if g.conf.extendsClause != "" then [g.conf.extendsClause] else []
  }

  /** The header TypeScript's grammar asks for: type parameters right after the name,
      then one `extends` list holding the configured base and the inherited ones. */
  function InterfaceHeader(g: PackageGenerator, name: string, typeParams: string, bases: seq<string>): (r: string)
    ensures StartsWith(r, "export interface " + name + typeParams)
    ensures r == "export interface " + name + typeParams + ExtendsClause(ConfiguredBase(g) + bases)
  {
    var all := ConfiguredBase(g) + bases;
    var r := "export interface " + name + typeParams + ExtendsClause(all);
    assert r[..|"export interface " + name + typeParams|] == "export interface " + name + typeParams;
    r
  }

  /** Both headers agree when no `Extends` is configured. */
  lemma HeadersAgreeWithoutExtends(g: PackageGenerator, name: string, typeParams: string, bases: seq<string>)
    requires g.conf.extendsClause == ""
    ensures InterfaceHeaderAsWritten(g, name, typeParams, bases) == InterfaceHeader(g, name, typeParams, bases)
  {
    assert [] + bases == bases;
  }

  /** With `Extends` configured, the header as written separates a generic interface's
      name from its type parameters, and with inherited bases it carries two `extends`
      keywords; neither is a valid TypeScript interface header. */
  lemma HeaderAsWrittenMisplacesExtends(g: PackageGenerator, name: string, typeParams: string, bases: seq<string>)
    requires g.conf.extendsClause != ""
    ensures |typeParams| > 0 && typeParams[0] == '<' ==>
      !StartsWith(InterfaceHeaderAsWritten(g, name, typeParams, bases), "export interface " + name + typeParams)
    ensures |bases| > 0 ==>
      var h := InterfaceHeaderAsWritten(g, name, typeParams, bases);
      var p := |"export interface " + name|;
      OccursAt(h, " extends ", p) && OccursAt(h, " extends ", p + 9 + |g.conf.extendsClause| + |typeParams|)
  {
    var h := InterfaceHeaderAsWritten(g, name, typeParams, bases);
    var pre := "export interface " + name;
    var ext := " extends " + g.conf.extendsClause;
    assert h == pre + ext + typeParams + ExtendsClause(bases);
    var p := |pre|;
    assert h[p] == ' ';
    if |typeParams| > 0 && typeParams[0] == '<' {
      var want := pre + typeParams;
      assert want[p] == '<';
      assert |want| <= |h| ==> h[..|want|][p] == h[p];
    }
    if |bases| > 0 {
      assert h[p..p + 9] == " extends ";
      var q := p + |ext| + |typeParams|;
      assert h == (pre + ext + typeParams) + (" extends " + Join(bases, ", "));
      assert h[q..q + 9] == " extends ";
    }
  }

  // ----- type specs -----

  /** The type parameter list of a spec, or nothing. */
  function TypeParamsText(g: PackageGenerator, tp: Option<seq<Field>>): (r: Result<string>)
    ensures tp.None? ==> r == Ok("")
    ensures tp.Some? && r.Ok? ==> |r.value| >= 2 && r.value[0] == '<' && r.value[|r.value| - 1] == '>'
  {
    if tp.Some? then WriteTypeParamsFields(g, tp.value) else Ok("")
  }

  /** The end of a type spec's line: its trailing comment at type-comment levels,
      else a newline. Either way the line is ended. */
  function TypeLineEnd(g: PackageGenerator, ts: TypeSpec): (r: string)
    ensures !(ts.comment.Some? && PreserveTypeComments(g)) ==> r == "\n"
    ensures ts.comment.Some? && PreserveTypeComments(g) && ts.comment.value.text != "" ==>
      StartsWith(r, " // " + ts.comment.value.text)
    ensures ts.comment.None? || ts.comment.value.text == "" || EndsWith(ts.comment.value.text, "\n") ==>
      EndsWith(r, "\n")
  {
    if ts.comment.Some? && PreserveTypeComments(g) then
      if ts.comment.value.text == "" || EndsWith(ts.comment.value.text, "\n") then
        SingleLineCommentEndsLine(ts.comment.value);
        WriteSingleLineComment(ts.comment.value)
      else WriteSingleLineComment(ts.comment.value)
    else "\n"
  }

  /** The declaration a type spec becomes: an interface for a struct, a plain alias for
      a named type, and a (generic) alias of the rendered type otherwise. */
  function TypeSpecBody(g: PackageGenerator, ts: TypeSpec): (r: Result<string>)
    ensures r.Ok? && ts.typ.StructOf? ==> StartsWith(r.value, "export interface " + ts.name)
    ensures r.Ok? && !ts.typ.StructOf? ==> StartsWith(r.value, "export type " + ts.name)
    ensures r.Ok? && ts.typ.StructOf? ==> EndsWith(r.value, "}")
    ensures r.Ok? && !ts.typ.StructOf? ==> EndsWith(r.value, ";")
    ensures ts.typ.Ident? ==> r.Ok?
    ensures ts.typ.StructOf? ==>
      (r.Ok? <==> && TypeParamsText(g, ts.typeParams).Ok? && BasesComputable(ts.typ.fields)
                  && WriteStructFieldsFrom(g, ts.typ, 0, 0).Ok?)
    ensures !ts.typ.StructOf? && !ts.typ.Ident? ==>
      (r.Ok? <==> TypeParamsText(g, ts.typeParams).Ok? && WriteType(g, ts.typ, None, 0, true).Ok?)
  {
    if ts.typ.StructOf? then
      var tp :- TypeParamsText(g, ts.typeParams);
      var bases :- InheritedBasesFrom(g, ts.typ.fields, 0);
      var fields :- WriteStructFieldsFrom(g, ts.typ, 0, 0);
      var header := InterfaceHeader(g, ts.name, tp, bases);
      var r := header + " {\n" + fields + "}";
      HeadAndLast(header, "export interface " + ts.name, " {\n", fields, "}");
      Ok(r)
    else if ts.typ.Ident? then
      Ok("export type " + ts.name + " = " + GetIdent(ts.typ.name) + ";")
    else
      var tp :- TypeParamsText(g, ts.typeParams);
      var t :- WriteType(g, ts.typ, None, 0, true);
      var r := "export type " + ts.name + tp + " = " + t + ";";
      assert StartsWith("export type " + ts.name + tp, "export type " + ts.name) by {
        assert ("export type " + ts.name + tp)[..|"export type " + ts.name|] == "export type " + ts.name;
      }
      HeadAndLast("export type " + ts.name + tp, "export type " + ts.name, " = ", t, ";");
      Ok(r)
  }

  /** `writeTypeSpec`: nothing for a type already generated as an enum; otherwise the
      doc comment, the declaration and the line end. */
  function WriteTypeSpec(g: PackageGenerator, ts: TypeSpec, ctx: GroupContext): (r: Result<string>)
    ensures ts.name in g.generatedEnums ==> r == Ok("")
    ensures ts.name !in g.generatedEnums ==>
      (r.Ok? <==> SpecDoc(g, ts.doc, ctx).Ok? && TypeSpecBody(g, ts).Ok?)
    ensures ts.name !in g.generatedEnums && r.Ok? ==>
      r.value == SpecDoc(g, ts.doc, ctx).value + TypeSpecBody(g, ts).value + TypeLineEnd(g, ts)
  {
    if ts.name in g.generatedEnums then Ok("")
    else
      var doc :- SpecDoc(g, ts.doc, ctx);
      var body :- TypeSpecBody(g, ts);
      Ok(doc + body + TypeLineEnd(g, ts))
  }

  /** A struct spec fails exactly when its doc comment, its type parameters, its
      inherited bases or one of its field lines does. */
  lemma StructSpecFails(g: PackageGenerator, ts: TypeSpec, ctx: GroupContext)
    requires ts.typ.StructOf? && ts.name !in g.generatedEnums
    ensures WriteTypeSpec(g, ts, ctx).Ok? <==>
      && SpecDoc(g, ts.doc, ctx).Ok? && TypeParamsText(g, ts.typeParams).Ok?
      && WriteTypeInheritanceSpec(g, ts.typ.fields).Ok? && WriteStructFieldsFrom(g, ts.typ, 0, 0).Ok?
  {
    assert WriteTypeInheritanceSpec(g, ts.typ.fields).Ok? <==> BasesComputable(ts.typ.fields);
  }

  /** A struct spec becomes an interface: the doc comment, `export interface`, the
      name, the type parameters, one `extends` list holding the configured base and
      the bases the fields declare, then the field lines in braces and the line end. */
  lemma StructSpecText(g: PackageGenerator, ts: TypeSpec, ctx: GroupContext)
    requires ts.typ.StructOf? && ts.name !in g.generatedEnums
    requires SpecDoc(g, ts.doc, ctx).Ok? && TypeParamsText(g, ts.typeParams).Ok?
    requires BasesComputable(ts.typ.fields) && WriteStructFieldsFrom(g, ts.typ, 0, 0).Ok?
    ensures WriteTypeSpec(g, ts, ctx)
      == Ok(SpecDoc(g, ts.doc, ctx).value + "export interface " + ts.name + TypeParamsText(g, ts.typeParams).value
            + ExtendsClause(ConfiguredBase(g) + DeclaredBases(g, ts.typ.fields))
            + " {\n" + WriteStructFieldsFrom(g, ts.typ, 0, 0).value + "}" + TypeLineEnd(g, ts))
  {
    var doc := SpecDoc(g, ts.doc, ctx).value;
    var body := StructBody(g, ts);
    assert WriteTypeSpec(g, ts, ctx) == Ok(doc + body + TypeLineEnd(g, ts));
    InterfaceRegrouped(doc, ts.name, TypeParamsText(g, ts.typeParams).value,
                       ExtendsClause(ConfiguredBase(g) + DeclaredBases(g, ts.typ.fields)),
                       WriteStructFieldsFrom(g, ts.typ, 0, 0).value, TypeLineEnd(g, ts));
  }

  lemma InterfaceRegrouped(doc: string, name: string, tp: string, ext: string, fields: string, end: string)
    ensures doc + ("export interface " + name + tp + ext + " {\n" + fields + "}") + end
         == doc + "export interface " + name + tp + ext + " {\n" + fields + "}" + end
  {
  }

  lemma StructBody(g: PackageGenerator, ts: TypeSpec) returns (body: string)
    requires ts.typ.StructOf?
    requires TypeParamsText(g, ts.typeParams).Ok?
    requires BasesComputable(ts.typ.fields) && WriteStructFieldsFrom(g, ts.typ, 0, 0).Ok?
    ensures TypeSpecBody(g, ts) == Ok(body)
    ensures body == "export interface " + ts.name + TypeParamsText(g, ts.typeParams).value
                    + ExtendsClause(ConfiguredBase(g) + DeclaredBases(g, ts.typ.fields))
                    + " {\n" + WriteStructFieldsFrom(g, ts.typ, 0, 0).value + "}"
  {
    assert ts.typ.fields[0..] == ts.typ.fields;
    var tp := TypeParamsText(g, ts.typeParams).value;
    var bases := DeclaredBases(g, ts.typ.fields);
    assert InheritedBasesFrom(g, ts.typ.fields, 0) == Ok(bases);
    body := InterfaceHeader(g, ts.name, tp, bases) + " {\n" + WriteStructFieldsFrom(g, ts.typ, 0, 0).value + "}";
  }

  /** Any other spec but a named alias becomes a type alias: `export type`, the name,
      the type parameters, and the type rendered with the pointer-parentheses flag. */
  lemma AliasSpecText(g: PackageGenerator, ts: TypeSpec, ctx: GroupContext)
    requires !ts.typ.StructOf? && !ts.typ.Ident? && ts.name !in g.generatedEnums
    requires SpecDoc(g, ts.doc, ctx).Ok? && TypeParamsText(g, ts.typeParams).Ok?
    requires WriteType(g, ts.typ, None, 0, true).Ok?
    ensures WriteTypeSpec(g, ts, ctx)
      == Ok(SpecDoc(g, ts.doc, ctx).value
            + ("export type " + ts.name + TypeParamsText(g, ts.typeParams).value
               + " = " + WriteType(g, ts.typ, None, 0, true).value + ";")
            + TypeLineEnd(g, ts))
  {
    var body := AliasBody(g, ts);
  }

  lemma AliasBody(g: PackageGenerator, ts: TypeSpec) returns (body: string)
    requires !ts.typ.StructOf? && !ts.typ.Ident?
    requires TypeParamsText(g, ts.typeParams).Ok? && WriteType(g, ts.typ, None, 0, true).Ok?
    ensures TypeSpecBody(g, ts) == Ok(body)
    ensures body == "export type " + ts.name + TypeParamsText(g, ts.typeParams).value
                    + " = " + WriteType(g, ts.typ, None, 0, true).value + ";"
  {
    body := "export type " + ts.name + TypeParamsText(g, ts.typeParams).value
            + " = " + WriteType(g, ts.typ, None, 0, true).value + ";";
  }

  /** A top-level pointer alias is parenthesised: type specs render with the
      pointer-parentheses flag set. */
  lemma TopLevelPointerParenthesised(g: PackageGenerator, ts: TypeSpec, x: Expr, ctx: GroupContext)
    requires ts.typ == Star(x) && ts.typeParams.None? && ts.name !in g.generatedEnums
    requires WriteType(g, x, None, 0, false).Ok? && SpecDoc(g, ts.doc, ctx) == Ok("")
    ensures WriteTypeSpec(g, ts, ctx)
      == Ok("export type " + ts.name + " = " + ("(" + (WriteType(g, x, None, 0, false).value + " | undefined") + ")") + ";" + TypeLineEnd(g, ts))
  {
    PointerRendering(g, x, None, 0);
    var t := "(" + (WriteType(g, x, None, 0, false).value + " | undefined") + ")";
    assert WriteType(g, ts.typ, None, 0, true) == Ok(t);
    var body := "export type " + ts.name + " = " + t + ";";
    assert "export type " + ts.name + "" == "export type " + ts.name;
    assert TypeSpecBody(g, ts) == Ok(body);
    assert "" + body == body;
  }

  /** An alias of a named type maps the name as identifiers are mapped, and ignores
      type parameters. */
  lemma NamedAlias(g: PackageGenerator, ts: TypeSpec, name: string, obj: Option<LocalDecl>, ctx: GroupContext)
    requires ts.typ == Ident(name, obj) && ts.name !in g.generatedEnums && SpecDoc(g, ts.doc, ctx) == Ok("")
    ensures WriteTypeSpec(g, ts, ctx) == Ok("export type " + ts.name + " = " + GetIdent(name) + ";" + TypeLineEnd(g, ts))
  {
    var body := "export type " + ts.name + " = " + GetIdent(name) + ";";
    assert TypeSpecBody(g, ts) == Ok(body);
    assert "" + body == body;
  }

  // ----- value specs -----

  /** The loop of `writeValueSpec` from name `i` on, with the group state after it.
      Every name advances the iota counter, including `_` and unexported names, which
      are not written. An explicit value replaces the carried value and clears the
      carried type; an explicit type annotation becomes the carried type; a name with
      neither inherits the carried annotation. */
  function ValueNamesFrom(g: PackageGenerator, vw: ValueWriting, vs: ValueSpec, i: nat, ctx: GroupContext)
    : (r: Result<(string, GroupContext)>)
    requires i <= |vs.names|
    ensures r.Ok? ==> r.value.1.iotaValue == ctx.iotaValue + (|vs.names| - i)
    ensures r.Ok? ==> r.value.1.isGrouped == ctx.isGrouped && r.value.1.doc == ctx.doc
    ensures (forall k :: i <= k < |vs.names| ==> vs.names[k] == "_" || !IsExported(vs.names[k])) ==>
      r == Ok(("", ctx.(iotaValue := ctx.iotaValue + (|vs.names| - i))))
    decreases |vs.names| - i
  {
    if i == |vs.names| then Ok(("", ctx))
    else
      var ctx1 := ctx.(iotaValue := ctx.iotaValue + 1);
      var name := vs.names[i];
      if name == "_" || !IsExported(name) then ValueNamesFrom(g, vw, vs, i + 1, ctx1)
      else
        var line :- ValueLine(g, vw, vs, i, ctx1);
        var rest :- ValueNamesFrom(g, vw, vs, i + 1, line.1);
        Ok((line.0 + rest.0, rest.1))
  }

  /** The line of the exported name `i`, written with the counter already advanced. */
  function ValueLine(g: PackageGenerator, vw: ValueWriting, vs: ValueSpec, i: nat, ctx: GroupContext)
    : (r: Result<(string, GroupContext)>)
    requires i < |vs.names|
    ensures r.Ok? ==> r.value.1 == ctx.(groupType := r.value.1.groupType, groupValue := r.value.1.groupValue)
    ensures r.Ok? && |vs.values| > i ==> vw.render(vs.values[i]) == Ok(r.value.1.groupValue)
    ensures r.Ok? && |vs.values| <= i ==> r.value.1.groupValue == ctx.groupValue
    ensures r.Ok? && vs.typ.Some? ==> vw.annotate(vs.typ.value) == Ok(r.value.1.groupType)
    ensures r.Ok? && vs.typ.None? && |vs.values| > i ==> r.value.1.groupType == ""
    ensures r.Ok? && vs.typ.None? && |vs.values| <= i ==> r.value.1.groupType == ctx.groupType
  {
    var doc :- SpecDoc(g, vs.doc, ctx);
    var explicit := |vs.values| > i;
    var ctx2 := if explicit then ctx.(groupType := "") else ctx;
    var annotation :-
      if vs.typ.Some? then
        var t :- vw.annotate(vs.typ.value);
        Ok((": " + t, ctx2.(groupType := t)))
      else if ctx2.groupType != "" && !explicit then Ok((": " + ctx2.groupType, ctx2))
      else Ok(("", ctx2));
    var ctx3 := annotation.1;
    var value :- if explicit then vw.render(vs.values[i]) else Ok(ctx3.groupValue);
    var ctx4 := ctx3.(groupValue := value);
    var end := if PreserveDocComments(g) && vs.comment.Some? then WriteSingleLineComment(vs.comment.value) else "\n";
    Ok((doc + "export const " + vs.names[i] + annotation.0 + " = " + IotaSubstituted(g, vw, value, ctx4.iotaValue) + ";" + end, ctx4))
  }

  /** `writeValueSpec`. */
  function WriteValueSpec(g: PackageGenerator, vw: ValueWriting, vs: ValueSpec, ctx: GroupContext)
    : (r: Result<(string, GroupContext)>)
    ensures r.Ok? ==> r.value.1.iotaValue == ctx.iotaValue + |vs.names|
    ensures r.Ok? ==> r.value.1.isGrouped == ctx.isGrouped && r.value.1.doc == ctx.doc
  {
    ValueNamesFrom(g, vw, vs, 0, ctx)
  }

  /** A name with neither a type nor a value repeats the carried value, with the
      counter substituted for iota, under the carried type annotation if any. */
  lemma CarriedValueAndType(g: PackageGenerator, vw: ValueWriting, n: string, ctx: GroupContext)
    requires IsExported(n) && n != "_"
    requires SpecDoc(g, None, ctx) == Ok("")
    ensures WriteValueSpec(g, vw, ValueSpec([n], None, [], None, None), ctx)
      == Ok(("export const " + n + (if ctx.groupType != "" then ": " + ctx.groupType else "") + " = "
             + IotaSubstituted(g, vw, ctx.groupValue, ctx.iotaValue + 1) + ";" + "\n",
             ctx.(iotaValue := ctx.iotaValue + 1)))
  {
    var vs := ValueSpec([n], None, [], None, None);
    var ctx1 := ctx.(iotaValue := ctx.iotaValue + 1);
    assert SpecDoc(g, None, ctx1) == SpecDoc(g, None, ctx);
    var text := "export const " + n + (if ctx.groupType != "" then ": " + ctx.groupType else "") + " = "
                + IotaSubstituted(g, vw, ctx.groupValue, ctx.iotaValue + 1) + ";" + "\n";
    assert "" + "export const " == "export const ";
    assert ValueLine(g, vw, vs, 0, ctx1) == Ok((text, ctx1));
    assert ValueNamesFrom(g, vw, vs, 1, ctx1) == Ok(("", ctx1));
    assert text + "" == text;
  }

  /** An explicit value with no annotation clears the carried type, becomes the
      carried value, and is written with the counter substituted for iota. */
  lemma ExplicitValueResetsType(g: PackageGenerator, vw: ValueWriting, n: string, e: Expr, v: string, ctx: GroupContext)
    requires IsExported(n) && n != "_"
    requires SpecDoc(g, None, ctx) == Ok("") && vw.render(e) == Ok(v)
    ensures WriteValueSpec(g, vw, ValueSpec([n], None, [e], None, None), ctx)
      == Ok(("export const " + n + " = " + IotaSubstituted(g, vw, v, ctx.iotaValue + 1) + ";" + "\n",
             ctx.(iotaValue := ctx.iotaValue + 1, groupType := "", groupValue := v)))
  {
    var vs := ValueSpec([n], None, [e], None, None);
    var ctx1 := ctx.(iotaValue := ctx.iotaValue + 1);
    var ctx4 := ctx1.(groupType := "", groupValue := v);
    assert SpecDoc(g, None, ctx1) == SpecDoc(g, None, ctx);
    var text := "export const " + n + " = " + IotaSubstituted(g, vw, v, ctx.iotaValue + 1) + ";" + "\n";
    assert "" + "export const " == "export const ";
    assert "export const " + n + "" == "export const " + n;
    assert ValueLine(g, vw, vs, 0, ctx1) == Ok((text, ctx4));
    assert ValueNamesFrom(g, vw, vs, 1, ctx4) == Ok(("", ctx4));
    assert text + "" == text;
  }

  /** A declared type is written as the annotation and carried to later names. */
  lemma DeclaredTypeCarried(g: PackageGenerator, vw: ValueWriting, n: string, t: Expr, a: string, ctx: GroupContext)
    requires IsExported(n) && n != "_"
    requires SpecDoc(g, None, ctx) == Ok("") && vw.annotate(t) == Ok(a)
    ensures WriteValueSpec(g, vw, ValueSpec([n], Some(t), [], None, None), ctx)
      == Ok(("export const " + n + (": " + a) + " = " + IotaSubstituted(g, vw, ctx.groupValue, ctx.iotaValue + 1) + ";" + "\n",
             ctx.(iotaValue := ctx.iotaValue + 1, groupType := a)))
  {
    var vs := ValueSpec([n], Some(t), [], None, None);
    var ctx1 := ctx.(iotaValue := ctx.iotaValue + 1);
    var ctx4 := ctx1.(groupType := a);
    assert SpecDoc(g, None, ctx1) == SpecDoc(g, None, ctx);
    var text := "export const " + n + (": " + a) + " = " + IotaSubstituted(g, vw, ctx.groupValue, ctx.iotaValue + 1) + ";" + "\n";
    assert "" + "export const " == "export const ";
    assert ValueLine(g, vw, vs, 0, ctx1) == Ok((text, ctx4));
    assert ValueNamesFrom(g, vw, vs, 1, ctx4) == Ok(("", ctx4));
    assert text + "" == text;
  }

  // ----- group declarations -----

  /** `writeSpec`: an exported type spec, or a value spec; everything else writes
      nothing. Only value specs change the group state. */
  function WriteSpec(g: PackageGenerator, vw: ValueWriting, spec: Spec, ctx: GroupContext)
    : (r: Result<(string, GroupContext)>)
    ensures !spec.ValueS? && r.Ok? ==> r.value.1 == ctx
    ensures spec.TypeS? && !IsExported(spec.t.name) ==> r == Ok(("", ctx))
    ensures spec.ImportS? ==> r == Ok(("", ctx))
    ensures spec.ValueS? ==> r == WriteValueSpec(g, vw, spec.v, ctx)
  {
    match spec
    case TypeS(ts) =>
      if IsExported(ts.name) then
        var text :- WriteTypeSpec(g, ts, ctx);
        Ok((text, ctx))
      else Ok(("", ctx))
    case ValueS(vs) => WriteValueSpec(g, vw, vs, ctx)
    case ImportS(_) => Ok(("", ctx))
  }

  /** The names the value specs of `specs` declare, counted over the specs that are
      not skipped. */
  function NameCount(specs: seq<Spec>, skip: seq<bool>): nat
    requires |skip| == |specs|
  {
    if |specs| == 0 then 0
    else (if !skip[0] && specs[0].ValueS? then |specs[0].v.names| else 0) + NameCount(specs[1..], skip[1..])
  }

  /** The spec loop of `writeGroupDecl`: every spec not marked in `skip`, in order,
      threading the group state. */
  function WriteSpecs(g: PackageGenerator, vw: ValueWriting, specs: seq<Spec>, skip: seq<bool>, ctx: GroupContext)
    : (r: Result<(string, GroupContext)>)
    requires |skip| == |specs|
    ensures r.Ok? ==> r.value.1.iotaValue == ctx.iotaValue + NameCount(specs, skip)
  {
    if |specs| == 0 then Ok(("", ctx))
    else if skip[0] then WriteSpecs(g, vw, specs[1..], skip[1..], ctx)
    else
      var first :- WriteSpec(g, vw, specs[0], ctx);
      var rest :- WriteSpecs(g, vw, specs[1..], skip[1..], first.1);
      Ok((first.0 + rest.0, rest.1))
  }

  /** The specs not marked in `skip`, in order. */
  function Kept(specs: seq<Spec>, skip: seq<bool>): (r: seq<Spec>)
    requires |skip| == |specs|
    ensures |r| <= |specs|
    ensures forall s :: s in r ==> exists k :: 0 <= k < |specs| && !skip[k] && specs[k] == s
  {
    if |specs| == 0 then []
    else
      var rest := Kept(specs[1..], skip[1..]);
      assert forall s :: s in rest ==> exists k :: 1 <= k < |specs| && !skip[k] && specs[k] == s by {
        forall s | s in rest
          ensures exists k :: 1 <= k < |specs| && !skip[k] && specs[k] == s
        {
          var k :| 0 <= k < |specs[1..]| && !skip[1..][k] && specs[1..][k] == s;
          assert specs[k + 1] == s && !skip[k + 1];
        }
      }
      if skip[0] then rest else [specs[0]] + rest
  }

  function NoSkip(n: nat): (r: seq<bool>)
    ensures |r| == n && forall k :: 0 <= k < n ==> !r[k]
  {
    if n == 0 then [] else [false] + NoSkip(n - 1)
  }

  /** Skipping specs writes the same text, and leaves the same state, as writing a
      declaration from which they were removed. */
  lemma {:induction false} SkippedSpecsRemoved(g: PackageGenerator, vw: ValueWriting, specs: seq<Spec>, skip: seq<bool>, ctx: GroupContext)
    requires |skip| == |specs|
    ensures WriteSpecs(g, vw, specs, skip, ctx) == WriteSpecs(g, vw, Kept(specs, skip), NoSkip(|Kept(specs, skip)|), ctx)
  {
    if |specs| > 0 {
      var kept := Kept(specs, skip);
      if skip[0] {
        SkippedSpecsRemoved(g, vw, specs[1..], skip[1..], ctx);
      } else {
        assert kept == [specs[0]] + Kept(specs[1..], skip[1..]);
        assert kept[1..] == Kept(specs[1..], skip[1..]);
        assert NoSkip(|kept|)[1..] == NoSkip(|kept| - 1);
        var first := WriteSpec(g, vw, specs[0], ctx);
        if first.Ok? {
          SkippedSpecsRemoved(g, vw, specs[1..], skip[1..], first.value.1);
        }
      }
    }
  }

  /** The positions of the enum members, as a mask over the declaration's specs. */
  function MemberMask(n: nat, indices: seq<nat>): (r: seq<bool>)
    ensures |r| == n
    ensures forall k :: 0 <= k < n ==> (r[k] <==> k in indices)
  {
    seq(n, k requires 0 <= k < n => k in indices)
  }

  /** The enum or union text of a detected group, in the configured style. */
  function EnumText(g: PackageGenerator, eg: EnumGroup): Result<string>
    requires forall k :: 0 <= k < |eg.constants| ==> |eg.constants[k].names| > 0
  {
    if g.conf.enumStyle == "enum" then WriteTypeScriptEnum(g, eg)
    else if g.conf.enumStyle == "union" then WriteTypeScriptUnion(g, eg)
    else Ok("")
  }

  /** `writeGroupDecl` as written: a declaration without specs reaches `Specs[0]`
      and aborts the run. */
  function WriteGroupDeclAsWritten(g: PackageGenerator, decl: GenDecl): (r: Result<string>)
    ensures |decl.specs| == 0 ==> r.Fail?
    ensures |decl.specs| > 0 ==> r == WriteGroupDecl(g, decl)
  {
    if |decl.specs| == 0 then Fail("index out of range [0] with length 0") else WriteGroupDecl(g, decl)
  }

  /** The enum or union text a declaration starts with: that of its detected group,
      or nothing. */
  function EnumPrefix(g: PackageGenerator, decl: GenDecl): Result<string> {
    var eg := DetectEnumGroup(g, decl);
    if eg.Some? then
      MembersExported(decl, eg.value);
      EnumText(g, eg.value)
    else Ok("")
  }

  /** The specs the group loop skips: the members of the detected group. */
  function GroupSkip(g: PackageGenerator, decl: GenDecl): (r: seq<bool>)
    ensures |r| == |decl.specs|
    ensures forall k :: 0 <= k < |r| ==>
      (r[k] <==> DetectEnumGroup(g, decl).Some? && k in DetectEnumGroup(g, decl).value.indices)
  {
    var eg := DetectEnumGroup(g, decl);
    if eg.Some? then MemberMask(|decl.specs|, eg.value.indices) else NoSkip(|decl.specs|)
  }

  /** The group state the spec loop starts from: nothing carried yet, and the iota
      counter one below the first position, since every name advances it first. */
  function GroupStart(decl: GenDecl): GroupContext {
    GroupContext(|decl.specs| > 1, decl.doc, "", "", -1)
  }

  /** The declaration is not a lone unexported type or constant, which write nothing,
      nor a lone value spec without names, which aborts. */
  predicate WritesSpecs(decl: GenDecl) {
    || |decl.specs| > 1
    || (|decl.specs| == 1 && decl.specs[0].TypeS? && IsExported(decl.specs[0].t.name))
    || (|decl.specs| == 1 && decl.specs[0].ValueS?
        && |decl.specs[0].v.names| > 0 && IsExported(decl.specs[0].v.names[0]))
    || (|decl.specs| == 1 && decl.specs[0].ImportS?)
  }

  /** `writeGroupDecl`: a lone unexported type or constant writes nothing (not even
      its comment); otherwise the enum or union of a detected group, the doc comment
      of an ungrouped declaration, then every spec that is not an enum member, from
      the group's starting state. An empty declaration writes nothing. */
  function WriteGroupDecl(g: PackageGenerator, decl: GenDecl): (r: Result<string>)
    ensures |decl.specs| == 0 ==> r == Ok("")
    ensures |decl.specs| == 1 && decl.specs[0].TypeS? && !IsExported(decl.specs[0].t.name) ==> r == Ok("")
    ensures (|decl.specs| == 1 && decl.specs[0].ValueS? && |decl.specs[0].v.names| > 0
             && !IsExported(decl.specs[0].v.names[0])) ==> r == Ok("")
    ensures r.Ok? && DetectEnumGroup(g, decl).Some? ==>
      var eg := DetectEnumGroup(g, decl).value;
      EnumText(g, eg).Ok? && StartsWith(r.value, EnumText(g, eg).value)
  {
    var grouped := |decl.specs| > 1;
    if |decl.specs| == 0 then Ok("")
    else if !grouped && decl.specs[0].TypeS? && !IsExported(decl.specs[0].t.name) then Ok("")
    else if !grouped && decl.specs[0].ValueS? && |decl.specs[0].v.names| == 0 then Fail("index out of range [0] with length 0")
    else if !grouped && decl.specs[0].ValueS? && !IsExported(decl.specs[0].v.names[0]) then Ok("")
    else
      var enumText :- EnumPrefix(g, decl);
      var doc :- if !grouped && PreserveTypeComments(g) then WriteCommentGroupIfPresent(g, decl.doc, 0) else Ok("");
      var rest :- WriteSpecs(g, ConstWriting(g), decl.specs, GroupSkip(g, decl), GroupStart(decl));
      var r := enumText + doc + rest.0;
      assert r[..|enumText|] == enumText;
      Ok(r)
  }

  /** What a declaration writes after its enum or union: the specs that are not
      members, in order, from the group's starting state; a grouped declaration writes
      nothing else, and fails exactly when its enum or one of those specs does. */
  lemma GroupDeclText(g: PackageGenerator, decl: GenDecl)
    requires WritesSpecs(decl)
    ensures var kept := Kept(decl.specs, GroupSkip(g, decl));
      var w := WriteSpecs(g, ConstWriting(g), kept, NoSkip(|kept|), GroupStart(decl));
      var r := WriteGroupDecl(g, decl);
      && (r.Ok? ==> w.Ok? && EndsWith(r.value, w.value.0))
      && (|decl.specs| > 1 ==> (r.Ok? <==> EnumPrefix(g, decl).Ok? && w.Ok?))
      && (|decl.specs| > 1 && r.Ok? ==> r.value == EnumPrefix(g, decl).value + w.value.0)
  {
    var skip := GroupSkip(g, decl);
    SkippedSpecsRemoved(g, ConstWriting(g), decl.specs, skip, GroupStart(decl));
    var r := WriteGroupDecl(g, decl);
    var e := EnumPrefix(g, decl);
    var grouped := |decl.specs| > 1;
    var doc := if !grouped && PreserveTypeComments(g) then WriteCommentGroupIfPresent(g, decl.doc, 0) else Ok("");
    var rest := WriteSpecs(g, ConstWriting(g), decl.specs, skip, GroupStart(decl));
    if e.Ok? && doc.Ok? && rest.Ok? {
      var t := e.value + doc.value + rest.value.0;
      assert r == Ok(t);
      assert t[|t| - |rest.value.0|..] == rest.value.0;
      if grouped {
        assert t == e.value + rest.value.0;
      }
    }
  }

  /** A plain constant group `A = iota; B` numbers its names from 0: the first is
      written with iota as 0, the second repeats the value with iota as 1. */
  lemma IotaCountsFromZero(g: PackageGenerator, a: string, b: string, e: Expr, v: string)
    requires IsExported(a) && a != "_" && IsExported(b) && b != "_"
    requires WriteType(g, e, None, 0, false) == Ok(v)
    requires DetectEnumGroup(g, IotaPair(a, b, e)).None?
    ensures WriteGroupDecl(g, IotaPair(a, b, e))
      == Ok(("export const " + a + " = " + IotaSubstituted(g, ConstWriting(g), v, 0) + ";\n")
            + ("export const " + b + " = " + IotaSubstituted(g, ConstWriting(g), v, 1) + ";\n"))
  {
    var decl := IotaPair(a, b, e);
    var vw := ConstWriting(g);
    assert vw.render(e) == Ok(v);
    var t := PairSpecsText(g, vw, a, b, e, v);
    assert GroupSkip(g, decl) == NoSkip(2);
    assert EnumPrefix(g, decl) == Ok("");
    assert WriteGroupDecl(g, decl) == Ok("" + "" + t);
    assert "" + "" + t == t;
  }

  /** The spec loop over `const ( a = e; b )` from the starting state. */
  lemma PairSpecsText(g: PackageGenerator, vw: ValueWriting, a: string, b: string, e: Expr, v: string) returns (t: string)
    requires IsExported(a) && a != "_" && IsExported(b) && b != "_"
    requires vw.render(e) == Ok(v)
    ensures t == ("export const " + a + " = " + IotaSubstituted(g, vw, v, 0) + ";\n")
                 + ("export const " + b + " = " + IotaSubstituted(g, vw, v, 1) + ";\n")
    ensures WriteSpecs(g, vw, IotaPair(a, b, e).specs, NoSkip(2), GroupStart(IotaPair(a, b, e))).Ok?
    ensures WriteSpecs(g, vw, IotaPair(a, b, e).specs, NoSkip(2), GroupStart(IotaPair(a, b, e))).value.0 == t
  {
    var t1, t2 := PairSpecsLines(g, vw, a, b, e, v);
    SemicolonLine("export const " + a + " = " + IotaSubstituted(g, vw, v, 0));
    SemicolonLine("export const " + b + " = " + IotaSubstituted(g, vw, v, 1));
    t := t1 + t2;
  }

  /** The two lines the spec loop writes for `const ( a = e; b )`, each ending in `;`
      and a new line. */
  lemma PairSpecsLines(g: PackageGenerator, vw: ValueWriting, a: string, b: string, e: Expr, v: string)
    returns (t1: string, t2: string)
    requires IsExported(a) && a != "_" && IsExported(b) && b != "_"
    requires vw.render(e) == Ok(v)
    ensures t1 == "export const " + a + " = " + IotaSubstituted(g, vw, v, 0) + ";" + "\n"
    ensures t2 == "export const " + b + " = " + IotaSubstituted(g, vw, v, 1) + ";" + "\n"
    ensures WriteSpecs(g, vw, IotaPair(a, b, e).specs, NoSkip(2), GroupStart(IotaPair(a, b, e))).Ok?
    ensures WriteSpecs(g, vw, IotaPair(a, b, e).specs, NoSkip(2), GroupStart(IotaPair(a, b, e))).value.0 == t1 + t2
  {
    var decl := IotaPair(a, b, e);
    var ctx0 := GroupStart(decl);
    var s2 := ValueSpec([b], None, [], None, None);
    ExplicitValueResetsType(g, vw, a, e, v, ctx0);
    var ctx1 := ctx0.(iotaValue := 0, groupType := "", groupValue := v);
    CarriedValueAndType(g, vw, b, ctx1);
    assert "export const " + b + "" == "export const " + b;
    t1 := "export const " + a + " = " + IotaSubstituted(g, vw, v, 0) + ";" + "\n";
    t2 := "export const " + b + " = " + IotaSubstituted(g, vw, v, 1) + ";" + "\n";
    var ctx2 := ctx1.(iotaValue := 1);
    assert NoSkip(2)[1..] == NoSkip(1) && NoSkip(1)[1..] == NoSkip(0);
    assert decl.specs[1..] == [ValueS(s2)] && [ValueS(s2)][1..] == [];
    assert WriteSpecs(g, vw, [ValueS(s2)], NoSkip(1), ctx1) == Ok((t2 + "", ctx2));
    assert WriteSpecs(g, vw, decl.specs, NoSkip(2), ctx0) == Ok((t1 + (t2 + ""), ctx2));
    assert t2 + "" == t2;
  }

  /** A line ending written as `;` then a new line is the text `;\n`. */
  lemma SemicolonLine(x: string)
    ensures x + ";" + "\n" == x + ";\n"
  {
    AppendAssoc(x, ";", "\n");
    assert ";" + "\n" == ";\n";
  }

  /** The declaration `const ( a = e; b )`. */
  function IotaPair(a: string, b: string, e: Expr): GenDecl {
    GenDecl(ConstTok, None, [ValueS(ValueSpec([a], None, [e], None, None)), ValueS(ValueSpec([b], None, [], None, None))])
  }

  /** An enum member is never written again as a plain constant: the specs the group
      loop writes are exactly the declaration's specs that are not members. */
  lemma MembersNotRepeated(g: PackageGenerator, decl: GenDecl, ctx: GroupContext)
    requires DetectEnumGroup(g, decl).Some?
    ensures var eg := DetectEnumGroup(g, decl).value;
      var skip := MemberMask(|decl.specs|, eg.indices);
      && (forall s :: s in Kept(decl.specs, skip) ==> exists k :: 0 <= k < |decl.specs| && k !in eg.indices && decl.specs[k] == s)
      && WriteSpecs(g, ConstWriting(g), decl.specs, skip, ctx)
         == WriteSpecs(g, ConstWriting(g), Kept(decl.specs, skip), NoSkip(|Kept(decl.specs, skip)|), ctx)
  {
    var eg := DetectEnumGroup(g, decl).value;
    var skip := MemberMask(|decl.specs|, eg.indices);
    SkippedSpecsRemoved(g, ConstWriting(g), decl.specs, skip, ctx);
  }

  /** A blank constant writes nothing but still advances the plain writer's iota
      counter, so the constants after it see a counter one higher; the enum and union
      writers count positions within the detected group instead. */
  lemma BlankNameAdvancesCounter(g: PackageGenerator, vw: ValueWriting, vs: ValueSpec, rest: seq<Spec>, ctx: GroupContext)
    requires vs.names == ["_"]
    ensures WriteSpecs(g, vw, [ValueS(vs)] + rest, NoSkip(1 + |rest|), ctx)
            == WriteSpecs(g, vw, rest, NoSkip(|rest|), ctx.(iotaValue := ctx.iotaValue + 1))
  {
    var specs := [ValueS(vs)] + rest;
    assert specs[1..] == rest;
    assert NoSkip(1 + |rest|)[1..] == NoSkip(|rest|);
    var ctx' := ctx.(iotaValue := ctx.iotaValue + 1);
    assert WriteSpec(g, vw, specs[0], ctx) == Ok(("", ctx'));
    var w := WriteSpecs(g, vw, rest, NoSkip(|rest|), ctx');
    if w.Ok? {
      assert "" + w.value.0 == w.value.0;
    }
  }

  /** A declaration without specs: the writer as written aborts, the corrected one
      writes nothing. */
  lemma EmptyDeclaration(g: PackageGenerator, tok: DeclTok, doc: Option<CommentGroup>)
    ensures WriteGroupDeclAsWritten(g, GenDecl(tok, doc, [])).Fail?
    ensures WriteGroupDecl(g, GenDecl(tok, doc, [])) == Ok("")
  {
  }
}

=== FILE: typewriter.dfy ===
/** `writeType` and the field writers it shares a recursion with: the rendering of a
    Go type or constant expression as TypeScript text. Rendering is pure here; the
    in-place rewriting of literal nodes is not modelled. */
module TypeWriter {
  import opened Results
  import opened Text
  import opened GoAst
  import opened Config
  import opened Generator
  import opened Idents
  import opened Literals
  import opened Comments
  import opened Fields

  /** The type text, or the failure that aborts the run. `parentOp` is the operator of
      the enclosing binary expression, if the enclosing node is one; `optionalParens`
      asks for a pointer's `| undefined` union to be parenthesised. */
  function WriteType(g: PackageGenerator, t: Expr, parentOp: Option<Op>, depth: nat, optionalParens: bool)
    : (r: Result<string>)
    ensures t.Unhandled? ==> r.Fail?
    ensures r.Ok? && t.Star? ==> EndsWith(r.value, if optionalParens then " | undefined)" else " | undefined")
    ensures r.Ok? && t.ArrayOf? && !(t.elt.Ident? && t.elt.name == "byte") ==> EndsWith(r.value, "[]")
    ensures r.Ok? && t.StructOf? ==> StartsWith(r.value, "{\n") && EndsWith(r.value, Indent(g, depth + 1) + "}")
    ensures r.Ok? && t.MapOf? ==> StartsWith(r.value, "{ [key: ") && EndsWith(r.value, "}")
    decreases t, 1
  {
    match t
    case Star(x) =>
      var inner :- WriteType(g, x, None, depth, false);
      Ok(PointerText(inner, optionalParens))
    case ArrayOf(elt) =>
      if elt.Ident? && elt.name == "byte" then Ok("string")
      else
        var e :- WriteType(g, elt, None, depth, true);
        Ok(ArrayText(e))
    case StructOf(_) =>
      var body :- WriteStructFieldsFrom(g, t, 0, depth + 1);
      Ok(ObjectText(body, Indent(g, depth + 1) + "}"))
    case Ident(name, _) =>
      Ok(if name == "any" then GetIdent(g.conf.fallbackType) else GetIdent(name))
    case Selector(pkg, sel) =>
      var longType := pkg + "." + sel;
      Ok(if longType in g.conf.typeMappings then g.conf.typeMappings[longType]
         else g.conf.fallbackType + " /* " + longType + " */")
    case MapOf(key, elem) =>
      var k :- WriteType(g, key, None, depth, false);
      var v :- WriteType(g, elem, None, depth, false);
      Ok(MapText(k, v))
    case Lit(kind, raw) => RewriteLit(kind, raw)
    case Paren(x) =>
      var inner :- WriteType(g, x, None, depth, false);
      Ok("(" + inner + ")")
    case Binary(op, x, y) =>
      var inParen := parentOp.Some? && JsPrecedence(op) < JsPrecedence(parentOp.value);
      var l :- WriteType(g, x, Some(op), depth, false);
      var r :- WriteType(g, y, Some(op), depth, false);
      var s := l + " " + (if op == AndNot then "& ~" else OpText(op) + " ") + r;
      Ok(if inParen then "(" + s + ")" else s)
    case InterfaceOf(_) => WriteInterfaceFields(g, t, depth + 1)
    case Opaque(_) => Ok(g.conf.fallbackType)
    case Unary(op, x) =>
      if op == Tilde then WriteType(g, x, None, depth, false)
      else if op == Xor then
        var inner :- WriteType(g, x, None, depth, false);
        Ok("~" + inner)
      else if op == Add || op == Sub || op == Not then
        var inner :- WriteType(g, x, None, depth, false);
        Ok(OpText(op) + inner)
      else Fail("unhandled unary expr")
    case IndexList(x, _) =>
      var base :- WriteType(g, x, None, depth, false);
      var args :- WriteIndicesFrom(g, t, 0, depth);
      Ok(base + "<" + args + ">")
    case Index(x, index) =>
      var base :- WriteType(g, x, None, depth, false);
      var arg :- WriteType(g, index, None, depth, false);
      Ok(base + "<" + arg + ">")
    case Unhandled(_) => Fail("unhandled node")
  }

  /** A pointer's type: the pointee's text or `undefined`, in parentheses when asked. */
  function PointerText(inner: string, optionalParens: bool): (r: string)
    ensures EndsWith(r, if optionalParens then " | undefined)" else " | undefined")
  {
    var s := inner + " | undefined";
    assert s[|s| - 12..] == " | undefined";
    if optionalParens then
      var p := "(" + s + ")";
      assert p[|p| - 13..] == " | undefined)";
      p
    else s
  }

  /** An array of the element type. */
  function ArrayText(e: string): (r: string)
    ensures EndsWith(r, "[]")
  {
    var a := e + "[]";
    assert a[|a| - 2..] == "[]";
    a
  }

  /** An inline object type around the field lines, closed by `tail`. */
  function ObjectText(body: string, tail: string): (r: string)
    ensures StartsWith(r, "{\n") && EndsWith(r, tail)
  {
    var st := "{\n" + body + tail;
    assert st[..2] == "{\n";
    assert st[|st| - |tail|..] == tail;
    st
  }

  /** An index signature from the key type to the element type. */
  function MapText(k: string, v: string): (r: string)
    ensures StartsWith(r, "{ [key: ") && EndsWith(r, "}")
  {
    var m := "{ [key: " + k + "]: " + v + "}";
    assert m[..8] == "{ [key: ";
    m
  }

  /** The type arguments of `X[A, B, ...]` from position `i` on, separated by ", ". */
  function WriteIndicesFrom(g: PackageGenerator, parent: Expr, i: nat, depth: nat): Result<string>
    requires parent.IndexList? && i <= |parent.indices|
    decreases parent, 0, |parent.indices| - i
  {
    if i == |parent.indices| then Ok("")
    else
      var arg :- WriteType(g, parent.indices[i], None, depth, false);
      var rest :- WriteIndicesFrom(g, parent, i + 1, depth);
      Ok(arg + (if i != |parent.indices| - 1 then ", " else "") + rest)
  }

  /** The trailing comment of a field line, or the newline that ends it. */
  function FieldLineEnd(g: PackageGenerator, f: Field): string {
    if f.comment.Some? && PreserveTypeComments(g) then " // " + f.comment.value.text else "\n"
  }

  /** The doc comment written above a field, when type comments are kept. */
  function FieldDoc(g: PackageGenerator, f: Field, depth: nat): Result<string> {
    if PreserveTypeComments(g) then WriteCommentGroupIfPresent(g, f.doc, depth) else Ok("")
  }

  /** `writeStructFields` from field `i` on: one line per emitted field. */
  function WriteStructFieldsFrom(g: PackageGenerator, parent: Expr, i: nat, depth: nat): Result<string>
    requires parent.StructOf? && i <= |parent.fields|
    decreases parent, 0, |parent.fields| - i
  {
    if i == |parent.fields| then Ok("")
    else
      var line :- WriteStructField(g, parent.fields[i], depth);
      var rest :- WriteStructFieldsFrom(g, parent, i + 1, depth);
      Ok(line + rest)
  }

  /** One struct field: nothing when it is skipped; otherwise its doc comment, the
      indented key, `?` or ` | null` as the optional style asks, the type (the
      pointee of a pointer, or the `tstype` override) and `;`. */
  function WriteStructField(g: PackageGenerator, f: Field, depth: nat): (r: Result<string>)
    ensures PlanField(g, f).Fail? ==> r.Fail?
    ensures PlanField(g, f) == Ok(Skip) ==> r == Ok("")
    ensures r.Ok? && PlanField(g, f).value.Plan? ==> EndsWith(r.value, ";" + FieldLineEnd(g, f))
    decreases f, 2
  {
    var plan :- PlanField(g, f);
    match plan
    case Skip => Ok("")
    case Plan(key, optional, tstype) =>
      var doc :- FieldDoc(g, f, depth + 1);
      var t := if f.typ.Star? then f.typ.x else f.typ;
      var typeText :-
        if tstype == "" then
          var w :- WriteType(g, t, None, depth, false);
          Ok(w + NullSuffix(g, optional, tstype))
        else Ok(tstype);
      var line := doc + Indent(g, depth + 1) + key + OptionalMark(g, optional) + ": " + typeText + ";" + FieldLineEnd(g, f);
      FieldLineShape(doc, Indent(g, depth + 1), key, OptionalMark(g, optional), typeText, FieldLineEnd(g, f));
      Ok(line)
  }

  /** A field line ends with `;` and its line end. */
  lemma FieldLineShape(doc: string, indent: string, key: string, mark: string, typeText: string, end: string)
    ensures EndsWith(doc + indent + key + mark + ": " + typeText + ";" + end, ";" + end)
  {
    var line := doc + indent + key + mark + ": " + typeText + ";" + end;
    assert line[|line| - |";" + end|..] == ";" + end;
  }

  /** `writeInterfaceFields`: the type-set terms of an interface joined by ` &`, or
      the fallback type when it has no terms (only methods, or nothing). */
  function WriteInterfaceFields(g: PackageGenerator, parent: Expr, depth: nat): Result<string>
    requires parent.InterfaceOf?
    decreases parent, 0, |parent.methods| + 1
  {
    if |parent.methods| == 0 then Ok(g.conf.fallbackType)
    else InterfaceFieldsFrom(g, parent, 0, false, depth)
  }

  /** The interface loop from entry `i` on; `seen` records whether a term was already
      written. Method entries are skipped. */
  function InterfaceFieldsFrom(g: PackageGenerator, parent: Expr, i: nat, seen: bool, depth: nat): Result<string>
    requires parent.InterfaceOf? && i <= |parent.methods|
    decreases parent, 0, |parent.methods| - i
  {
    if i == |parent.methods| then Ok(if seen then "" else g.conf.fallbackType)
    else
      var f := parent.methods[i];
      if f.typ == Opaque(FuncNode) then InterfaceFieldsFrom(g, parent, i + 1, seen, depth)
      else
        var doc :- FieldDoc(g, f, depth + 1);
        var t :- WriteType(g, f.typ, None, depth, false);
        var comment := if f.comment.Some? && PreserveTypeComments(g) then " // " + f.comment.value.text else "";
        var rest :- InterfaceFieldsFrom(g, parent, i + 1, true, depth);
        Ok((if seen then " &\n" else "\n") + doc + Indent(g, depth + 1) + t + comment + rest)
  }

  // ----- type parameters -----

  /** `writeTypeParamsFields`: `<T extends C, ...>`, one entry per declared name. */
  function WriteTypeParamsFields(g: PackageGenerator, fields: seq<Field>): (r: Result<string>)
    ensures r.Ok? ==> |r.value| >= 2 && r.value[0] == '<' && r.value[|r.value| - 1] == '>'
    ensures r.Ok? <==> TypeParamsFrom(g, fields, 0).Ok?
  {
    var body :- TypeParamsFrom(g, fields, 0);
    Ok("<" + body + ">")
  }

  function TypeParamsFrom(g: PackageGenerator, fields: seq<Field>, i: nat): Result<string>
    requires i <= |fields|
    decreases |fields| - i
  {
    if i == |fields| then Ok("")
    else
      var names :- TypeParamNamesFrom(g, fields, i, 0);
      var rest :- TypeParamsFrom(g, fields, i + 1);
      Ok(names + rest)
  }

  /** The entries of field `i` from name `j` on; ", " follows every entry but the
      last name of the last field. */
  function TypeParamNamesFrom(g: PackageGenerator, fields: seq<Field>, i: nat, j: nat): Result<string>
    requires i < |fields| && j <= |fields[i].names|
    decreases |fields[i].names| - j
  {
    if j == |fields[i].names| then Ok("")
    else
      var c :- WriteType(g, fields[i].typ, None, 0, true);
      var sep := if i != |fields| - 1 || j != |fields[i].names| - 1 then ", " else "";
      var rest :- TypeParamNamesFrom(g, fields, i, j + 1);
      Ok(fields[i].names[j] + " extends " + c + sep + rest)
  }

  // ----- rendering rules -----

  /** A successful text wrapped in parentheses; a failure unchanged. */
  function Parenthesised(r: Result<string>): Result<string> {
    if r.Ok? then Ok("(" + r.value + ")") else r
  }

  /** A successful text with `suffix` appended; a failure unchanged. */
  function Suffixed(r: Result<string>, suffix: string): Result<string> {
    if r.Ok? then Ok(r.value + suffix) else r
  }

  /** A pointer is its pointee's text followed by ` | undefined`, parenthesised
      exactly when the caller asks for it; the enclosing node plays no part. */
  lemma PointerRendering(g: PackageGenerator, x: Expr, p: Option<Op>, depth: nat)
    ensures WriteType(g, Star(x), p, depth, false) == Suffixed(WriteType(g, x, None, depth, false), " | undefined")
    ensures WriteType(g, Star(x), p, depth, true) == Parenthesised(WriteType(g, Star(x), p, depth, false))
  {
  }

  /** The parenthesis flag changes only the rendering of a pointer. */
  lemma FlagOnlyAffectsPointers(g: PackageGenerator, t: Expr, p: Option<Op>, depth: nat)
    requires !t.Star?
    ensures WriteType(g, t, p, depth, true) == WriteType(g, t, p, depth, false)
  {
  }

  /** The enclosing node changes only the rendering of a binary expression. */
  lemma ParentOnlyAffectsBinary(g: PackageGenerator, t: Expr, p: Option<Op>, q: Option<Op>, depth: nat, flag: bool)
    requires !t.Binary?
    ensures WriteType(g, t, p, depth, flag) == WriteType(g, t, q, depth, flag)
  {
  }

  /** Arrays: `[]byte` is a string; any other element is rendered with the parenthesis
      flag set and followed by `[]`, so an array of pointers reads `(T | undefined)[]`. */
  lemma ArrayRendering(g: PackageGenerator, elt: Expr, p: Option<Op>, depth: nat, flag: bool)
    ensures elt.Ident? && elt.name == "byte" ==> WriteType(g, ArrayOf(elt), p, depth, flag) == Ok("string")
    ensures !(elt.Ident? && elt.name == "byte") ==>
      WriteType(g, ArrayOf(elt), p, depth, flag) == Suffixed(WriteType(g, elt, None, depth, true), "[]")
    ensures elt.Star? ==>
      WriteType(g, ArrayOf(elt), p, depth, flag)
      == Suffixed(Parenthesised(Suffixed(WriteType(g, elt.x, None, depth, false), " | undefined")), "[]")
  {
  }

  /** A binary expression is parenthesised exactly when the enclosing binary operator
      ranks strictly higher in the operator table; `&^` is written `& ~`. */
  lemma BinaryRendering(g: PackageGenerator, op: Op, x: Expr, y: Expr, p: Op, depth: nat, flag: bool)
    ensures WriteType(g, Binary(op, x, y), Some(p), depth, flag)
      == (if JsPrecedence(op) < JsPrecedence(p) then Parenthesised(WriteType(g, Binary(op, x, y), None, depth, flag))
          else WriteType(g, Binary(op, x, y), None, depth, flag))
    ensures WriteType(g, x, Some(op), depth, false).Ok? && WriteType(g, y, Some(op), depth, false).Ok? ==>
      WriteType(g, Binary(op, x, y), None, depth, flag)
      == Ok(WriteType(g, x, Some(op), depth, false).value + " "
            + (if op == AndNot then "& ~" else OpText(op) + " ")
            + WriteType(g, y, Some(op), depth, false).value)
  {
  }

  /** Go binds `&` tighter than `+` and JavaScript the other way round, so Go's
      `x + y & z` keeps its meaning as `x + (y & z)`. */
  lemma GoGroupingKept(g: PackageGenerator, x: Expr, y: Expr, z: Expr, depth: nat, sx: string, sy: string, sz: string)
    requires WriteType(g, x, Some(Add), depth, false) == Ok(sx)
    requires WriteType(g, y, Some(And), depth, false) == Ok(sy)
    requires WriteType(g, z, Some(And), depth, false) == Ok(sz)
    ensures WriteType(g, Binary(Add, x, Binary(And, y, z)), None, depth, false) == Ok(sx + " + (" + sy + " & " + sz + ")")
  {
    var si := "(" + (sy + " & " + sz) + ")";
    InnerGrouped(g, y, z, depth, sy, sz);
    OuterPlain(g, x, Binary(And, y, z), depth, sx, si);
    GroupedText(sx, sy, sz);
  }

  /** One binary node as the source writes it, from its operands' texts: parenthesised
      when the source's own table ranks the enclosing operator strictly higher. */
  function BinaryNodeAsWritten(op: Op, parentOp: Option<Op>, l: string, r: string): string {
    var t := l + " " + (if op == AndNot then "& ~" else OpText(op) + " ") + r;
    if parentOp.Some? && Precedence(op) < Precedence(parentOp.value) then "(" + t + ")" else t
  }

  /** As written, Go's `(x | y) ^ z` loses its grouping: the inner `|` is written
      without parentheses, and JavaScript, binding `^` tighter, reads `x | (y ^ z)`. */
  lemma OrUnderXorAsWritten(sx: string, sy: string, sz: string)
    ensures BinaryNodeAsWritten(Xor, None, BinaryNodeAsWritten(Or, Some(Xor), sx, sy), sz)
      == sx + " | " + sy + " ^ " + sz
    ensures JsLevel(Or) < JsLevel(Xor)
  {
    var inner := BinaryNodeAsWritten(Or, Some(Xor), sx, sy);
    assert inner == sx + " " + ("|" + " ") + sy;
    assert BinaryNodeAsWritten(Xor, None, inner, sz) == inner + " " + ("^" + " ") + sz;
  }

  /** The corrected writer keeps the grouping of `(x | y) ^ z`. */
  lemma OrUnderXorGrouped(g: PackageGenerator, x: Expr, y: Expr, z: Expr, depth: nat, sx: string, sy: string, sz: string)
    requires WriteType(g, x, Some(Or), depth, false) == Ok(sx)
    requires WriteType(g, y, Some(Or), depth, false) == Ok(sy)
    requires WriteType(g, z, Some(Xor), depth, false) == Ok(sz)
    ensures WriteType(g, Binary(Xor, Binary(Or, x, y), z), None, depth, false) == Ok("(" + sx + " | " + sy + ") ^ " + sz)
  {
    var si := "(" + (sx + " | " + sy) + ")";
    BinaryShape(g, Or, x, y, Some(Xor), depth, sx, sy);
    assert OpText(Or) == "|" && " " + "|" + " " == " | ";
    OperatorText(sx, "|", sy);
    assert WriteType(g, Binary(Or, x, y), Some(Xor), depth, false) == Ok(si);
    BinaryShape(g, Xor, Binary(Or, x, y), z, None, depth, si, sz);
    assert OpText(Xor) == "^" && " " + "^" + " " == " ^ ";
    OperatorText(si, "^", sz);
    XorGroupedText(sx, sy, sz);
  }

  lemma XorGroupedText(sx: string, sy: string, sz: string)
    ensures "(" + (sx + " | " + sy) + ")" + " ^ " + sz == "(" + sx + " | " + sy + ") ^ " + sz
  {
  }

  /** The correction changes nothing unless a `|` sits directly under a `^` or the
      other way round: elsewhere each binary node is written as the source writes it. */
  lemma CorrectionOnlyOrXor(g: PackageGenerator, op: Op, x: Expr, y: Expr, p: Option<Op>, depth: nat, sx: string, sy: string)
    requires WriteType(g, x, Some(op), depth, false) == Ok(sx)
    requires WriteType(g, y, Some(op), depth, false) == Ok(sy)
    requires !(p.Some? && op in {Or, Xor} && p.value in {Or, Xor})
    ensures WriteType(g, Binary(op, x, y), p, depth, false) == Ok(BinaryNodeAsWritten(op, p, sx, sy))
  {
    BinaryShape(g, op, x, y, p, depth, sx, sy);
    if p.Some? {
      TablesAgreeOffOrXor(op, p.value);
    }
  }

  lemma GroupedText(sx: string, sy: string, sz: string)
    ensures sx + " + " + ("(" + (sy + " & " + sz) + ")") == sx + " + (" + sy + " & " + sz + ")"
  {
  }

  lemma BinaryShape(g: PackageGenerator, op: Op, x: Expr, y: Expr, p: Option<Op>, depth: nat, sx: string, sy: string)
    requires WriteType(g, x, Some(op), depth, false) == Ok(sx)
    requires WriteType(g, y, Some(op), depth, false) == Ok(sy)
    ensures var t := sx + " " + (if op == AndNot then "& ~" else OpText(op) + " ") + sy;
      WriteType(g, Binary(op, x, y), p, depth, false)
      == Ok(if p.Some? && JsPrecedence(op) < JsPrecedence(p.value) then "(" + t + ")" else t)
  {
  }

  lemma OperatorText(l: string, op: string, r: string)
    ensures l + " " + (op + " ") + r == l + (" " + op + " ") + r
  {
  }

  lemma InnerGrouped(g: PackageGenerator, y: Expr, z: Expr, depth: nat, sy: string, sz: string)
    requires WriteType(g, y, Some(And), depth, false) == Ok(sy)
    requires WriteType(g, z, Some(And), depth, false) == Ok(sz)
    ensures WriteType(g, Binary(And, y, z), Some(Add), depth, false) == Ok("(" + (sy + " & " + sz) + ")")
  {
    BinaryShape(g, And, y, z, Some(Add), depth, sy, sz);
    assert JsPrecedence(And) < JsPrecedence(Add);
    assert OpText(And) == "&" && " " + "&" + " " == " & ";
    OperatorText(sy, "&", sz);
  }

  lemma OuterPlain(g: PackageGenerator, x: Expr, w: Expr, depth: nat, sx: string, sw: string)
    requires WriteType(g, x, Some(Add), depth, false) == Ok(sx)
    requires WriteType(g, w, Some(Add), depth, false) == Ok(sw)
    ensures WriteType(g, Binary(Add, x, w), None, depth, false) == Ok(sx + " + " + sw)
  {
    BinaryShape(g, Add, x, w, None, depth, sx, sw);
    assert OpText(Add) == "+" && " " + "+" + " " == " + ";
    OperatorText(sx, "+", sw);
  }

  /** Unary operators: `~` is dropped, `^` becomes `~`, `+`, `-` and `!` are kept, and
      any other operator aborts the run. */
  lemma UnaryRendering(g: PackageGenerator, op: Op, x: Expr, p: Option<Op>, depth: nat, flag: bool)
    ensures op == Tilde ==> WriteType(g, Unary(op, x), p, depth, flag) == WriteType(g, x, None, depth, false)
    ensures op == Xor && WriteType(g, x, None, depth, false).Ok? ==>
      WriteType(g, Unary(op, x), p, depth, flag) == Ok("~" + WriteType(g, x, None, depth, false).value)
    ensures op in {Add, Sub, Not} && WriteType(g, x, None, depth, false).Ok? ==>
      WriteType(g, Unary(op, x), p, depth, flag) == Ok(OpText(op) + WriteType(g, x, None, depth, false).value)
    ensures op !in {Tilde, Xor, Add, Sub, Not} ==> WriteType(g, Unary(op, x), p, depth, flag).Fail?
  {
    if op == Tilde || op == Xor {
      UnaryTildeXor(g, op, x, p, depth, flag);
    } else {
      UnaryOthers(g, op, x, p, depth, flag);
    }
  }

  lemma UnaryTildeXor(g: PackageGenerator, op: Op, x: Expr, p: Option<Op>, depth: nat, flag: bool)
    requires op == Tilde || op == Xor
    ensures op == Tilde ==> WriteType(g, Unary(op, x), p, depth, flag) == WriteType(g, x, None, depth, false)
    ensures op == Xor && WriteType(g, x, None, depth, false).Ok? ==>
      WriteType(g, Unary(op, x), p, depth, flag) == Ok("~" + WriteType(g, x, None, depth, false).value)
  {
  }

  lemma UnaryOthers(g: PackageGenerator, op: Op, x: Expr, p: Option<Op>, depth: nat, flag: bool)
    requires op != Tilde && op != Xor
    ensures (op == Add || op == Sub || op == Not) && WriteType(g, x, None, depth, false).Ok? ==>
      WriteType(g, Unary(op, x), p, depth, flag) == Ok(OpText(op) + WriteType(g, x, None, depth, false).value)
    ensures !(op == Add || op == Sub || op == Not) ==> WriteType(g, Unary(op, x), p, depth, flag).Fail?
  {
  }

  /** A parenthesised type keeps its parentheses, so the grouping written in Go
      survives; the inner type is written as if it had no parent. */
  lemma ParenRendering(g: PackageGenerator, x: Expr, p: Option<Op>, depth: nat, flag: bool)
    ensures WriteType(g, Paren(x), p, depth, flag).Ok? <==> WriteType(g, x, None, depth, false).Ok?
    ensures WriteType(g, x, None, depth, false).Ok? ==>
      WriteType(g, Paren(x), p, depth, flag) == Ok("(" + WriteType(g, x, None, depth, false).value + ")")
  {
  }

  /** An instantiation `X[I]` is written `X<I>`, and fails iff either part does. */
  lemma IndexRendering(g: PackageGenerator, x: Expr, index: Expr, p: Option<Op>, depth: nat, flag: bool)
    ensures WriteType(g, Index(x, index), p, depth, flag).Ok? <==>
      WriteType(g, x, None, depth, false).Ok? && WriteType(g, index, None, depth, false).Ok?
    ensures WriteType(g, x, None, depth, false).Ok? && WriteType(g, index, None, depth, false).Ok? ==>
      WriteType(g, Index(x, index), p, depth, flag)
        == Ok(WriteType(g, x, None, depth, false).value + "<" + WriteType(g, index, None, depth, false).value + ">")
  {
  }

  /** An instantiation `X[A, B, ...]` is written `X<A, B, ...>`: the type arguments,
      each written as if it had no parent, joined by `, ` in angle brackets. */
  lemma IndexListRendering(g: PackageGenerator, x: Expr, indices: seq<Expr>, p: Option<Op>, depth: nat, flag: bool,
                           sx: string, args: seq<string>)
    requires WriteType(g, x, None, depth, false) == Ok(sx)
    requires |args| == |indices|
    requires forall k :: 0 <= k < |indices| ==> WriteType(g, indices[k], None, depth, false) == Ok(args[k])
    ensures WriteType(g, IndexList(x, indices), p, depth, flag) == Ok(sx + "<" + Join(args, ", ") + ">")
  {
    IndicesJoined(g, IndexList(x, indices), 0, depth, args);
    assert args[0..] == args;
  }

  lemma {:induction false} IndicesJoined(g: PackageGenerator, parent: Expr, i: nat, depth: nat, args: seq<string>)
    requires parent.IndexList? && i <= |parent.indices| && |args| == |parent.indices|
    requires forall k :: 0 <= k < |parent.indices| ==> WriteType(g, parent.indices[k], None, depth, false) == Ok(args[k])
    ensures WriteIndicesFrom(g, parent, i, depth) == Ok(Join(args[i..], ", "))
    decreases |parent.indices| - i
  {
    if i < |parent.indices| {
      IndicesJoined(g, parent, i + 1, depth, args);
      assert args[i..] == [args[i]] + args[i + 1..];
      JoinCons(args[i], args[i + 1..], ", ");
      if i == |parent.indices| - 1 {
        assert args[i] + "" + "" == args[i];
      } else {
        AppendAssoc(args[i], ", ", Join(args[i + 1..], ", "));
      }
    }
  }

  /** Identifiers and qualified names: `any` is the fallback type, other names go
      through the basic-type mapping; `pkg.Sel` is its configured mapping on an exact
      hit and otherwise the fallback type annotated with the Go name. */
  lemma NameRendering(g: PackageGenerator, t: Expr, p: Option<Op>, depth: nat, flag: bool)
    ensures t.Ident? && t.name == "any" ==> WriteType(g, t, p, depth, flag) == Ok(GetIdent(g.conf.fallbackType))
    ensures t.Ident? && t.name != "any" ==> WriteType(g, t, p, depth, flag) == Ok(GetIdent(t.name))
    ensures t.Selector? && t.pkg + "." + t.sel in g.conf.typeMappings ==>
      WriteType(g, t, p, depth, flag) == Ok(g.conf.typeMappings[t.pkg + "." + t.sel])
    ensures t.Selector? && t.pkg + "." + t.sel !in g.conf.typeMappings ==>
      WriteType(g, t, p, depth, flag) == Ok(g.conf.fallbackType + " /* " + (t.pkg + "." + t.sel) + " */")
  {
  }

  /** Calls, function types and channels have no TypeScript form and render as the
      fallback type; unknown node kinds abort the run. */
  lemma OpaqueRendering(g: PackageGenerator, t: Expr, p: Option<Op>, depth: nat, flag: bool)
    ensures t.Opaque? ==> WriteType(g, t, p, depth, flag) == Ok(g.conf.fallbackType)
    ensures t.Unhandled? ==> WriteType(g, t, p, depth, flag).Fail?
  {
  }

  /** An interface holding only methods has no type terms and renders as the
      fallback type. */
  lemma MethodOnlyInterface(g: PackageGenerator, methods: seq<Field>, p: Option<Op>, depth: nat, flag: bool)
    requires forall i :: 0 <= i < |methods| ==> methods[i].typ == Opaque(FuncNode)
    ensures WriteType(g, InterfaceOf(methods), p, depth, flag) == Ok(g.conf.fallbackType)
  {
    if |methods| > 0 {
      MethodsSkipped(g, InterfaceOf(methods), 0, false, depth + 1);
    }
  }

  /** Method entries write nothing: when only methods are left, the loop ends with
      the fallback type if no term was written before, and with nothing otherwise. */
  lemma {:induction false} MethodsSkipped(g: PackageGenerator, parent: Expr, i: nat, seen: bool, depth: nat)
    requires parent.InterfaceOf? && i <= |parent.methods|
    requires forall k :: i <= k < |parent.methods| ==> parent.methods[k].typ == Opaque(FuncNode)
    ensures InterfaceFieldsFrom(g, parent, i, seen, depth) == Ok(if seen then "" else g.conf.fallbackType)
    decreases |parent.methods| - i
  {
    if i < |parent.methods| {
      MethodsSkipped(g, parent, i + 1, seen, depth);
    }
  }

  /** The terms of an interface are written one per line: the first opens a new line,
      each later one is joined to the previous by ` &`. */
  lemma {:induction false} TermsJoined(g: PackageGenerator, parent: Expr, i: nat, seen: bool, depth: nat)
    requires parent.InterfaceOf? && i <= |parent.methods|
    requires exists k :: i <= k < |parent.methods| && parent.methods[k].typ != Opaque(FuncNode)
    ensures var r := InterfaceFieldsFrom(g, parent, i, seen, depth);
      r.Ok? ==> StartsWith(r.value, if seen then " &\n" else "\n")
    decreases |parent.methods| - i
  {
    if parent.methods[i].typ == Opaque(FuncNode) {
      var k :| i <= k < |parent.methods| && parent.methods[k].typ != Opaque(FuncNode);
      assert k > i;
      TermsJoined(g, parent, i + 1, seen, depth);
    } else {
      TermStarts(g, parent, i, seen, depth);
    }
  }

  /** A type term opens its own line, joined to an earlier one by ` &`. */
  lemma TermStarts(g: PackageGenerator, parent: Expr, i: nat, seen: bool, depth: nat)
    requires parent.InterfaceOf? && i < |parent.methods|
    requires parent.methods[i].typ != Opaque(FuncNode)
    ensures var r := InterfaceFieldsFrom(g, parent, i, seen, depth);
      r.Ok? ==> StartsWith(r.value, if seen then " &\n" else "\n")
  {
    var f := parent.methods[i];
    var sep := if seen then " &\n" else "\n";
    var doc := FieldDoc(g, f, depth + 1);
    var t := WriteType(g, f.typ, None, depth, false);
    var rest := InterfaceFieldsFrom(g, parent, i + 1, true, depth);
    if doc.Ok? && t.Ok? && rest.Ok? {
      var comment := if f.comment.Some? && PreserveTypeComments(g) then " // " + f.comment.value.text else "";
      var text := sep + doc.value + Indent(g, depth + 1) + t.value + comment + rest.value;
      assert InterfaceFieldsFrom(g, parent, i, seen, depth) == Ok(text);
      assert text[..|sep|] == sep;
    }
  }

  /** An interface with a type term is written on lines of its own, starting with a
      new line; one without is the fallback type. */
  lemma InterfaceText(g: PackageGenerator, parent: Expr, depth: nat)
    requires parent.InterfaceOf?
    ensures (forall k :: 0 <= k < |parent.methods| ==> parent.methods[k].typ == Opaque(FuncNode)) ==>
      WriteInterfaceFields(g, parent, depth) == Ok(g.conf.fallbackType)
    ensures (exists k :: 0 <= k < |parent.methods| && parent.methods[k].typ != Opaque(FuncNode)) ==>
      WriteInterfaceFields(g, parent, depth).Ok? ==> StartsWith(WriteInterfaceFields(g, parent, depth).value, "\n")
  {
    if forall k :: 0 <= k < |parent.methods| ==> parent.methods[k].typ == Opaque(FuncNode) {
      if |parent.methods| > 0 {
        MethodsSkipped(g, parent, 0, false, depth);
      }
    } else {
      TermsJoined(g, parent, 0, false, depth);
    }
  }

  // ----- struct field lists -----

  /** Every field of `fields` is written without failure. */
  predicate FieldsWritten(g: PackageGenerator, fields: seq<Field>, depth: nat) {
    forall k :: 0 <= k < |fields| ==> WriteStructField(g, fields[k], depth).Ok?
  }

  /** The lines of fields that are all written, in order. */
  function FieldLines(g: PackageGenerator, fields: seq<Field>, depth: nat): (r: seq<string>)
    requires FieldsWritten(g, fields, depth)
    ensures |r| == |fields| && forall k :: 0 <= k < |fields| ==> r[k] == WriteStructField(g, fields[k], depth).value
  {
    if |fields| == 0 then [] else [WriteStructField(g, fields[0], depth).value] + FieldLines(g, fields[1..], depth)
  }

  /** The struct writer succeeds exactly when every field line does, and then writes
      the field lines one after the other, in field order. */
  lemma {:induction false} StructFieldsConcatenated(g: PackageGenerator, parent: Expr, i: nat, depth: nat)
    requires parent.StructOf? && i <= |parent.fields|
    ensures WriteStructFieldsFrom(g, parent, i, depth).Ok? <==> FieldsWritten(g, parent.fields[i..], depth)
    ensures FieldsWritten(g, parent.fields[i..], depth) ==>
      WriteStructFieldsFrom(g, parent, i, depth) == Ok(Concat(FieldLines(g, parent.fields[i..], depth)))
    decreases |parent.fields| - i
  {
    if i < |parent.fields| {
      StructFieldsConcatenated(g, parent, i + 1, depth);
      var fs := parent.fields[i..];
      assert fs[0] == parent.fields[i] && fs[1..] == parent.fields[i + 1..];
      assert FieldsWritten(g, fs, depth) <==>
        WriteStructField(g, fs[0], depth).Ok? && FieldsWritten(g, fs[1..], depth) by {
        if WriteStructField(g, fs[0], depth).Ok? && FieldsWritten(g, fs[1..], depth) {
          forall k | 0 <= k < |fs| ensures WriteStructField(g, fs[k], depth).Ok? {
            if k > 0 {
              assert fs[k] == fs[1..][k - 1];
            }
          }
        }
      }
    }
  }

  /** A struct whose fields are all skipped is written as no lines at all. */
  lemma {:induction false} AllFieldsSkipped(g: PackageGenerator, parent: Expr, i: nat, depth: nat)
    requires parent.StructOf? && i <= |parent.fields|
    requires forall k :: i <= k < |parent.fields| ==> PlanField(g, parent.fields[k]) == Ok(Skip)
    ensures WriteStructFieldsFrom(g, parent, i, depth) == Ok("")
    decreases |parent.fields| - i
  {
    if i < |parent.fields| {
      AllFieldsSkipped(g, parent, i + 1, depth);
      assert WriteStructField(g, parent.fields[i], depth) == Ok("");
      assert "" + "" == "";
    }
  }

  /** A map from one numeric type to a pointer to another, as in Go's
      `map[uint16]*uint32`: both sides become `number` with the Go name kept in a
      comment, and the pointer adds `| undefined`. */
  lemma NumericMapRendering(g: PackageGenerator, a: string, b: string, flag: bool)
    requires a in NumericNames && b in NumericNames
    ensures WriteType(g, MapOf(Ident(a, None), Star(Ident(b, None))), None, 0, flag)
      == Ok("{ [key: " + ("number /* " + a + " */") + "]: " + ("number /* " + b + " */" + " | undefined") + "}")
  {
    var ka := "number /* " + a + " */";
    var kb := "number /* " + b + " */";
    NumericIdent(g, a);
    NumericIdent(g, b);
    PointerRendering(g, Ident(b, None), None, 0);
    MapRendering(g, Ident(a, None), Star(Ident(b, None)), flag, ka, kb + " | undefined");
  }

  lemma NumericIdent(g: PackageGenerator, a: string)
    requires a in NumericNames
    ensures WriteType(g, Ident(a, None), None, 0, false) == Ok("number /* " + a + " */")
  {
    assert a != "any" by { assert "any" !in NumericNames; }
  }

  lemma MapRendering(g: PackageGenerator, k: Expr, v: Expr, flag: bool, sk: string, sv: string)
    requires WriteType(g, k, None, 0, false) == Ok(sk) && WriteType(g, v, None, 0, false) == Ok(sv)
    ensures WriteType(g, MapOf(k, v), None, 0, flag) == Ok("{ [key: " + sk + "]: " + sv + "}")
  {
  }

  // ----- struct fields -----

  /** A skipped field writes nothing. */
  lemma SkippedFieldWritesNothing(g: PackageGenerator, f: Field, depth: nat)
    requires PlanField(g, f) == Ok(Skip)
    ensures WriteStructField(g, f, depth) == Ok("")
  {
  }

  /** An emitted pointer field is rendered as its pointee: its optionality is carried
      by `?` or ` | null`, never by `| undefined` in the type. */
  lemma PointerFieldRendersPointee(g: PackageGenerator, x: Expr, f: Field, depth: nat)
    requires f.typ == Star(x)
    requires PlanField(g, f).Ok? && PlanField(g, f).value.Plan? && PlanField(g, f).value.tstype == ""
    requires FieldDoc(g, f, depth + 1).Ok? && WriteType(g, x, None, depth, false).Ok?
    ensures var plan := PlanField(g, f).value;
      WriteStructField(g, f, depth)
      == Ok(FieldDoc(g, f, depth + 1).value + Indent(g, depth + 1) + plan.key + OptionalMark(g, plan.optional)
            + ": " + (WriteType(g, x, None, depth, false).value + NullSuffix(g, plan.optional, "")) + ";"
            + FieldLineEnd(g, f))
  {
  }

  /** A `tstype` override replaces the rendered type, which is then neither computed
      nor marked ` | null`. */
  lemma TstypeOverride(g: PackageGenerator, f: Field, depth: nat)
    requires PlanField(g, f).Ok? && PlanField(g, f).value.Plan? && PlanField(g, f).value.tstype != ""
    requires FieldDoc(g, f, depth + 1).Ok?
    ensures var plan := PlanField(g, f).value;
      WriteStructField(g, f, depth)
      == Ok(FieldDoc(g, f, depth + 1).value + Indent(g, depth + 1) + plan.key + OptionalMark(g, plan.optional)
            + ": " + plan.tstype + ";" + FieldLineEnd(g, f))
  {
  }

  // ----- type parameters -----

  /** The `<name> extends <constraint>` entries of the type parameters, in order. */
  function TypeParamEntries(g: PackageGenerator, fields: seq<Field>): Result<seq<string>> {
    if |fields| == 0 then Ok([])
    else
      var first :- NameEntries(g, fields[0]);
      var rest :- TypeParamEntries(g, fields[1..]);
      Ok(first + rest)
  }

  function NameEntries(g: PackageGenerator, f: Field): Result<seq<string>> {
    if |f.names| == 0 then Ok([])
    else
      var c :- WriteType(g, f.typ, None, 0, true);
      Ok(EntriesFrom(f.names, 0, c))
  }

  function EntriesFrom(names: seq<string>, j: nat, c: string): (r: seq<string>)
    requires j <= |names|
    ensures |r| == |names| - j
    decreases |names| - j
  {
    if j == |names| then [] else [names[j] + " extends " + c] + EntriesFrom(names, j + 1, c)
  }

  /** Every entry followed by ", ". */
  function CommaEach(es: seq<string>): string {
    if |es| == 0 then "" else es[0] + ", " + CommaEach(es[1..])
  }

  /** When every type-parameter field declares a name, the separator bookkeeping of
      the writer amounts to joining the entries with ", ". */
  lemma TypeParamsAreJoined(g: PackageGenerator, fields: seq<Field>)
    requires forall i :: 0 <= i < |fields| ==> |fields[i].names| > 0
    ensures TypeParamEntries(g, fields).Ok? ==>
      WriteTypeParamsFields(g, fields) == Ok("<" + Join(TypeParamEntries(g, fields).value, ", ") + ">")
    ensures TypeParamEntries(g, fields).Fail? ==> WriteTypeParamsFields(g, fields).Fail?
  {
    ParamsFromJoin(g, fields, 0);
    assert fields[0..] == fields;
  }

  lemma {:induction false} ParamsFromJoin(g: PackageGenerator, fields: seq<Field>, i: nat)
    requires i <= |fields|
    requires forall k :: 0 <= k < |fields| ==> |fields[k].names| > 0
    ensures TypeParamEntries(g, fields[i..]).Ok? <==> TypeParamsFrom(g, fields, i).Ok?
    ensures TypeParamEntries(g, fields[i..]).Ok? ==>
      TypeParamsFrom(g, fields, i) == Ok(Join(TypeParamEntries(g, fields[i..]).value, ", "))
    decreases |fields| - i
  {
    if i < |fields| {
      ParamsFromJoin(g, fields, i + 1);
      assert fields[i..][1..] == fields[i + 1..];
      assert fields[i..][0] == fields[i];
      var c := WriteType(g, fields[i].typ, None, 0, true);
      if c.Ok? {
        ParamsFromStep(g, fields, i, c.value);
      } else {
        assert TypeParamNamesFrom(g, fields, i, 0).Fail?;
      }
    }
  }

  /** One step of `ParamsFromJoin`, for a field whose constraint is written. */
  lemma ParamsFromStep(g: PackageGenerator, fields: seq<Field>, i: nat, c: string)
    requires i < |fields|
    requires forall k :: 0 <= k < |fields| ==> |fields[k].names| > 0
    requires WriteType(g, fields[i].typ, None, 0, true) == Ok(c)
    requires fields[i..][1..] == fields[i + 1..] && fields[i..][0] == fields[i]
    requires TypeParamEntries(g, fields[i + 1..]).Ok? <==> TypeParamsFrom(g, fields, i + 1).Ok?
    requires TypeParamEntries(g, fields[i + 1..]).Ok? ==>
      TypeParamsFrom(g, fields, i + 1) == Ok(Join(TypeParamEntries(g, fields[i + 1..]).value, ", "))
    ensures TypeParamEntries(g, fields[i..]).Ok? <==> TypeParamsFrom(g, fields, i).Ok?
    ensures TypeParamEntries(g, fields[i..]).Ok? ==>
      TypeParamsFrom(g, fields, i) == Ok(Join(TypeParamEntries(g, fields[i..]).value, ", "))
  {
    var f := fields[i];
    var es := EntriesFrom(f.names, 0, c);
    NamesFromShape(g, fields, i, 0, c);
    assert NameEntries(g, f) == Ok(es);
    var restR := TypeParamEntries(g, fields[i + 1..]);
    if restR.Ok? {
      var rest := restR.value;
      assert TypeParamEntries(g, fields[i..]) == Ok(es + rest);
      if i == |fields| - 1 {
        assert fields[i + 1..] == [];
        assert rest == [];
        assert es + rest == es;
        assert TypeParamsFrom(g, fields, i + 1) == Ok("");
        assert Join(es, ", ") + "" == Join(es, ", ");
      } else {
        NonEmptyEntries(g, fields[i + 1..]);
        CommaEachThenJoin(es, rest);
      }
    }
  }


  lemma {:induction false} NonEmptyEntries(g: PackageGenerator, fields: seq<Field>)
    requires |fields| > 0 && forall k :: 0 <= k < |fields| ==> |fields[k].names| > 0
    requires TypeParamEntries(g, fields).Ok?
    ensures |TypeParamEntries(g, fields).value| > 0
  {
    var first := NameEntries(g, fields[0]);
    assert first.Ok? && |first.value| == |fields[0].names|;
  }

  /** The entries of field `i` from name `j` on: each followed by ", ", except for
      the very last name of the last field. */
  lemma {:induction false} NamesFromShape(g: PackageGenerator, fields: seq<Field>, i: nat, j: nat, c: string)
    requires i < |fields| && j <= |fields[i].names|
    requires WriteType(g, fields[i].typ, None, 0, true) == Ok(c)
    ensures TypeParamNamesFrom(g, fields, i, j)
      == Ok(if i == |fields| - 1 then Join(EntriesFrom(fields[i].names, j, c), ", ")
            else CommaEach(EntriesFrom(fields[i].names, j, c)))
    decreases |fields[i].names| - j
  {
    var names := fields[i].names;
    if j < |names| {
      NamesFromShape(g, fields, i, j + 1, c);
      var e := names[j] + " extends " + c;
      var es := EntriesFrom(names, j, c);
      assert es[0] == e && es[1..] == EntriesFrom(names, j + 1, c);
      if j + 1 == |names| {
        assert EntriesFrom(names, j + 1, c) == [];
        assert es == [e];
        assert Join(es, ", ") == e;
        assert CommaEach(es) == e + ", " + "";
        assert TypeParamNamesFrom(g, fields, i, j + 1) == Ok("");
        var sep := if i != |fields| - 1 then ", " else "";
        assert TypeParamNamesFrom(g, fields, i, j) == Ok(names[j] + " extends " + c + sep + "");
        assert names[j] + " extends " + c + sep + "" == e + sep;
        assert e + "" == e;
        assert e + ", " + "" == e + ", ";
      } else {
        assert |es| > 1;
      }
    }
  }

  /** Each of `a` followed by ", ", then `b` joined, is `a + b` joined. */
  lemma {:induction false} CommaEachThenJoin(a: seq<string>, b: seq<string>)
    requires |b| > 0
    ensures CommaEach(a) + Join(b, ", ") == Join(a + b, ", ")
    decreases |a|
  {
    if |a| == 0 {
      assert a + b == b;
    } else {
      CommaEachThenJoin(a[1..], b);
      assert (a + b)[1..] == a[1..] + b;
      assert |a + b| > 1;
    }
  }
}
